=== FILE: README.md ===
# ai-study, modelled in Dafny

A verified model of the rules at the heart of the ai-study web application, an
Express and Mongoose study assistant for students. The centre of the model is
the study-suggestion engine, and the model covers these parts of it:

- a time-slot planner that offers up to five study slots from the current
  weekday and hour;
- the key that identifies a suggestion, so that dismissed ones do not come back;
- the positional pairing of model-written candidates with slots;
- the canned fallbacks used when the generative model fails;
- the active set of at most five suggestions;
- the dismiss and add-to-calendar transitions.

Around the engine the model covers these rules:

- **Calendar:** validation, the all-day end bump and the overlap range query;
  ownership checks, type colours and labels; the browser's save and display
  shifts.
- **Discussion board:** hashtag normalisation and the category and hashtag
  counters; like toggles, author and admin rights, and upload names.
- **Users:** profile and password rules; the follow and save toggles; activity
  and explore paging. The browser's pagination strip is part of this too.
- **Activity log:** the unique per-minute hash.
- **Authentication:**
  - where each guard looks for the token;
  - the sign-in, registration, sign-out and cleanup outcomes;
  - the redirects the pages choose;
  - the avatar path rules.
- **AI chat:** model routing, the Gemini fallback, titles and ownership.
- **Page rendering:** the view helpers `formatTimeAgo`, `formatDate`, `truncate`
  and `timestampToValue`.
- **Browser validators:** the checks in `custom.js`.

Time is integer milliseconds in local time. A day index, a weekday from 0
(Sunday) to 6, an hour and a minute are derived from it in `Clock`. The
database is a sequence or a map of records. The generative models, JSON
parsing, JWT verification and bcrypt are parameters, each returning an
abstract result such as `Ok(text)`/`Err` or a parsed value. Every handler is a
pure function from the store and the request to the reply and the new store.

Modules, one concept each:

- **`Wrappers`, `Lists`, `Text`:** results, list toggles and counts, and the
  JavaScript string built-ins the code relies on (`trim`, `toLowerCase`, `split`,
  `replace`, tag stripping, number printing).
- **`SuggestionModel`:** the suggestion record, its type enum and bounds.
- **`Clock`, `TimeSlots`:** time decomposition and the slot planner.
- **`SuggestionEngine`:** keys, pairing, fallbacks and major detection.
- **`SuggestionStore`:** the active set, saving, dismiss and promote.
- **`SuggestionLaws`:** the end-to-end laws of `getSuggestions`.
- **`Calendar`, `CalendarClient`:** the event model and controller; the
  FullCalendar script.
- **`Forum`, `Discussion`, `DiscussionCounts`, `DiscussionClient`:**
  - the discussion records and tag processing;
  - the handlers;
  - the counter invariant;
  - the browser scripts and upload route.
- **`Avatar`, `Users`, `ActivityLog`, `Paging`:** the avatar path rule, the user
  controller, the activity model, and pagination.
- **`Auth`:** the auth middleware, controller and routes, and the page routes'
  helpers.
- **`AiChat`:** the chat controller.
- **`ViewHelpers`:** the Handlebars helpers and avatar middleware in `server.js`.
- **`ClientForms`:** the browser's session and form checks.

## Model

| member | source | states |
|---|---|---|
| SuggestionModel.ParseType | models/suggestion-history.model.js:22-26 | a stored `type` is one of the five enum names, each name denotes exactly one type, and `exam` is refused |
| SuggestionModel.Validate | models/suggestion-history.model.js:3-56 | a draft becomes a document exactly when userId, title, start, end, topic and text are present and type and priority pass the enum and the 1..5 range; the document keeps the draft's fields, including a given priority, takes `study-session`, priority 3 and the current time as defaults and starts neither dismissed nor added to the calendar |
| Clock.HourOf | controllers/suggestion.controller.js:236 | `getHours()` is an hour of the day, 0..23 |
| Clock.MinuteOf | controllers/suggestion.controller.js:247 | the minute of an instant is 0..59 |
| Clock.WeekdayOf | controllers/suggestion.controller.js:235 | `getDay()` is a weekday 0..6 |
| Clock.Decompose | controllers/suggestion.controller.js:246-247 | every instant is its day's midnight plus a time of day below 24 hours |
| Clock.BeforeNextHour | controllers/suggestion.controller.js:245-247 | the current instant lies in its own full hour and before the next full hour |
| Clock.DayOfAt | controllers/suggestion.controller.js:259-262 | setting a time of day keeps the day, and the weekday follows the day count |
| TimeSlots.DaysUntilSaturday | controllers/suggestion.controller.js:272 | the days to Saturday (seven when today is Saturday) is 1..7 days, lands on a Saturday, and is 7 exactly when today is Saturday |
| TimeSlots.PlanSlots | controllers/suggestion.controller.js:244-277 | the planner produces three to five slots |
| TimeSlots.PlanShape | controllers/suggestion.controller.js:244-277 | slot A leads the list exactly before 20:00, slot B follows exactly before 17:00, and the list always ends with tomorrow 08:00, tomorrow 15:00 and the weekend slot |
| TimeSlots.SlotsInFuture | controllers/suggestion.controller.js:244-277 | every planned slot starts after the current instant and ends after it starts |
| TimeSlots.WeekendSlotIsNextSaturday | controllers/suggestion.controller.js:271-277 | the weekend slot is at 10:00 on a Saturday one to seven days ahead, never today |
| TimeSlots.SlotsDisjoint | controllers/suggestion.controller.js:244-277 | no two planned slots overlap |
| TimeSlots.FridayListIsNotChronological | controllers/suggestion.controller.js:266-277 | on a Friday the weekend slot starts before the slot listed ahead of it, so the list is in planning order, not time order |
| SuggestionEngine.MessagesTextBlank | controllers/suggestion.controller.js:176-184 | the text collected from a chat is blank exactly when each of its user messages is blank |
| SuggestionEngine.UserTextBlank | controllers/suggestion.controller.js:175-184 | the text collected from all chats is blank exactly when every user message of every chat is blank |
| SuggestionEngine.AnalyzeMajor | controllers/suggestion.controller.js:160-231 | the model is asked exactly when there are chats and their user text is not blank; without asking, or when the call fails, the answer is the undetected profile |
| SuggestionEngine.AnalyzeMajorSource | controllers/suggestion.controller.js:203-213 | a detected profile is what the JSON parser made of the braced slice of the model's reply |
| SuggestionEngine.UniqueKey | controllers/suggestion.controller.js:381 | a suggestion key holds no whitespace and no upper-case letter |
| SuggestionEngine.KeyIgnoresCase | controllers/suggestion.controller.js:381-382 | a topic that differs from a dismissed one only in letter case yields the dismissed key |
| SuggestionEngine.DraftFor | controllers/suggestion.controller.js:386-396 | a draft takes the user, the slot and the candidate's title, topic and text; a falsy type becomes `study-session` and a falsy priority 3, while the key is built from the raw type |
| SuggestionEngine.PairStep | controllers/suggestion.controller.js:378-397 | one loop step: a `null` candidate aborts, a dismissed key skips its slot, any other candidate adds its draft |
| SuggestionEngine.PairCandidates | controllers/suggestion.controller.js:377-399 | the loop as written computes the reference pairing |
| SuggestionEngine.PairFails | controllers/suggestion.controller.js:378-381 | pairing throws exactly when a candidate within the shorter of the two lists is `null` |
| SuggestionEngine.PairSound | controllers/suggestion.controller.js:377-397 | every draft comes from candidate i in slot i with a key that was not dismissed; the drafts follow strictly increasing candidate positions, so no slot is used twice and there are never more drafts than slots |
| SuggestionEngine.PairComplete | controllers/suggestion.controller.js:377-397 | every paired candidate whose key was not dismissed yields its draft |
| SuggestionEngine.FallbackEntry | controllers/suggestion.controller.js:359-375 | the fallback entry is a priority-3 `study-session` whose topic names the major when one is known |
| SuggestionEngine.Fallback | controllers/suggestion.controller.js:360-375 | `Array(count).fill(entry)` holds `count` copies of the entry |
| SuggestionEngine.PairCopies | controllers/suggestion.controller.js:377-397 | copies of one entry fill every shared slot, or none when their key was dismissed |
| SuggestionEngine.FallbackAllOrNothing | controllers/suggestion.controller.js:358-397 | the fallback fills all of its slots or, when its key was dismissed before, none |
| SuggestionEngine.FailureKeysDistinct | controllers/suggestion.controller.js:411 | failure keys made at different instants differ |
| SuggestionEngine.GenerateThrows | controllers/suggestion.controller.js:279-413 | generation falls into its catch exactly when a known major lacks its lists, the model call fails, or a paired candidate is `null` |
| SuggestionEngine.GenerateOwned | controllers/suggestion.controller.js:377-413 | every draft is the user's; the catch yields one draft in the first slot, and otherwise no draft carries a dismissed key |
| SuggestionEngine.GenerateInSlots | controllers/suggestion.controller.js:244-397 | every draft sits in one of the planned slots, with at most as many drafts as slots |
| SuggestionStore.ActiveOf | controllers/suggestion.controller.js:12-16 | the active query returns exactly the stored suggestions of the user that are neither dismissed nor added and were suggested within the last 24 hours |
| SuggestionStore.InsertDesc | controllers/suggestion.controller.js:77 | inserting into a list sorted by priority keeps it sorted and adds exactly the one record |
| SuggestionStore.SortDesc | controllers/suggestion.controller.js:77 | the sort by descending priority is a sorted permutation of its input |
| SuggestionStore.TopFive | controllers/suggestion.controller.js:17 | the cut keeps five records, or all when fewer, sorted, drawn from the input |
| SuggestionStore.TopFiveKeepsBest | controllers/suggestion.controller.js:77-78 | nothing the cut drops outranks anything it keeps |
| SuggestionStore.DismissedKeys | controllers/suggestion.controller.js:60-66 | a key is avoided exactly when one of the user's dismissed suggestions carries it |
| SuggestionStore.InsertAll | controllers/suggestion.controller.js:75 | `insertMany` writes every draft, in order, after the existing records, exactly when every draft passes the schema; otherwise nothing |
| SuggestionStore.Generated | controllers/suggestion.controller.js:60-74 | generation is asked for five minus the number of active suggestions, from the major the chats give and with the dismissed keys of the user; what it hands back is the user's, one draft on the failure path, otherwise no draft with a dismissed key |
| SuggestionStore.Save | controllers/suggestion.controller.js:75-100 | the request fails with 500 exactly when a draft fails the schema and then writes nothing; otherwise each draft is stored as the record its validation gives, and the answer is the top five of the active suggestions together with the new records |
| SuggestionStore.GetSuggestions | controllers/suggestion.controller.js:8-101 | with three or more active suggestions they are listed and nothing is written; with fewer the generated drafts are saved and the answer is the top five of the active and new suggestions; history is only appended to |
| SuggestionLaws.ListedAreBest | controllers/suggestion.controller.js:67-78 | a listed answer is drawn from the active and new suggestions, holds five of them or all when fewer, and no suggestion left out outranks one listed |
| SuggestionStore.SaveListsActive | controllers/suggestion.controller.js:75-78 | the merged list holds only stored records that are active for the user |
| SuggestionStore.SaveWellFormed | controllers/suggestion.controller.js:75 | inserting keeps the collection well formed |
| SuggestionStore.SaveKeepsKeys | controllers/suggestion.controller.js:75 | the saved records carry their drafts' keys |
| SuggestionStore.Dismiss | controllers/suggestion.controller.js:102-142 | 400 without an id, 404 for an unknown one, 403 for another user's, otherwise 200 with only the `dismissed` flag of that one record switched on |
| SuggestionStore.DismissIdempotent | controllers/suggestion.controller.js:127-128 | dismissing twice is dismissing once |
| SuggestionStore.DismissTakesEffect | controllers/suggestion.controller.js:12-66 | a dismissed suggestion leaves the active query and its key joins the keys generation avoids |
| SuggestionStore.Promote | controllers/suggestion.controller.js:143-159 | only the user's own suggestion with that id gets `addedToCalendar`; everything else is unchanged |
| SuggestionStore.PromoteIdempotent | controllers/suggestion.controller.js:148-153 | promoting twice is promoting once, and a promoted suggestion is no longer active |
| SuggestionStore.GetSuggestionsGrows | controllers/suggestion.controller.js:8-101 | listing suggestions never removes or rewrites a stored record |
| SuggestionStore.DismissGrows | controllers/suggestion.controller.js:102-142 | dismissing only switches a flag on |
| SuggestionStore.PromoteGrows | controllers/suggestion.controller.js:143-159 | promoting only switches a flag on |
| SuggestionStore.FlagsStick | controllers/suggestion.controller.js:12-16 | a dismissed or promoted suggestion is never active again, whatever the handlers do later |
| SuggestionLaws.GetSuggestionsUnfold | controllers/suggestion.controller.js:19-78 | with fewer than three active suggestions the handler saves what generation produced |
| SuggestionLaws.ActiveTopActive | controllers/suggestion.controller.js:12-17 | the active top five are stored, active suggestions |
| SuggestionLaws.ListedWhenGenerating | controllers/suggestion.controller.js:67-92 | on the generating branch every listed suggestion is stored and active |
| SuggestionLaws.ListedWhenEnough | controllers/suggestion.controller.js:19-33 | on the early-return branch every listed suggestion is stored and active |
| SuggestionLaws.ListedAreActive | controllers/suggestion.controller.js:8-101 | every listed suggestion is the user's, not dismissed, not added, and suggested within 24 hours |
| SuggestionLaws.WellFormedWhenGenerating | controllers/suggestion.controller.js:67-78 | the generating branch keeps the collection well formed |
| SuggestionLaws.GetSuggestionsWellFormed | controllers/suggestion.controller.js:8-101 | the handler keeps the collection well formed |
| SuggestionLaws.KeysWhenGenerating | controllers/suggestion.controller.js:60-384 | when generation does not throw, the new records avoid the dismissed keys |
| SuggestionLaws.OneRecordWhenThrowing | controllers/suggestion.controller.js:400-413 | when generation throws, at most one record is written |
| SuggestionLaws.NoDismissedKeyReturns | controllers/suggestion.controller.js:60-413 | no written record repeats a dismissed key, except the single failure-path record |
| Calendar.ParseType | models/calendar-event.model.js:33-37 | a stored event type is one of the six enum names, and each name denotes exactly one type |
| Calendar.ColorsIdentifyTypes | models/calendar-event.model.js:104-119 | the colour hook gives each type its own colour and any string outside the map the study-session colour |
| Calendar.LabelsIdentifyTypes | controllers/calendar.controller.js:315-324 | the Vietnamese label of a type gives the type back, and only strings outside the enum are labelled `Khác` |
| Calendar.Find | controllers/calendar.controller.js:106 | `findById` returns the position of the event with that id, or nothing when no event has it |
| Calendar.BumpEnd | controllers/calendar.controller.js:49-56 | an all-day event whose end falls on its start date ends one day later; every other end is kept |
| Calendar.BumpLeavesStartDay | controllers/calendar.controller.js:49-56 | after the bump an all-day event never ends on its start date and ends no earlier than given |
| Calendar.Record | models/calendar-event.model.js:2-119 | the stored document keeps the given fields, stores the title and description trimmed, defaults `allDay` and `completed` to false, and takes both colours from the type unless a colour was given |
| Calendar.SaveNew | models/calendar-event.model.js:94-119 | `save()` succeeds exactly for an acceptable event; a blank title is refused first, then an end before the start |
| Calendar.CreateEvent | controllers/calendar.controller.js:30-91 | 400 exactly without a title or a start, 500 exactly when the record handed to `save()` is refused by the validators or hooks, 201 exactly when it is accepted, and then one event is appended that carries the next id, the trimmed title, the bumped end, the defaulted type and the trimmed description |
| Calendar.CreateWellFormed | controllers/calendar.controller.js:57-68 | creating keeps ids distinct and below the counter |
| Calendar.ExtendWellFormed | controllers/calendar.controller.js:68 | appending an event with the next id keeps the calendar well formed |
| Calendar.Authorize | controllers/calendar.controller.js:106-119 | 404 exactly when no event has the id, 403 exactly when the event found belongs to another user, otherwise the position of the user's own event |
| Calendar.Merge | controllers/calendar.controller.js:128-142 | the update keeps id and owner, a missing field keeps its stored value, a falsy type or description falls back to the stored one, and the schema's `trim` setters apply to a given title and to the description |
| Calendar.MergeTrimmed | models/calendar-event.model.js:10-13 | the merged title is trimmed whenever the stored one was, and the merged description always is |
| Calendar.UpdateKeepsTrimmed | controllers/calendar.controller.js:128-142 | an update keeps every stored title and description trimmed, as creation leaves them |
| Calendar.UpdateEvent | controllers/calendar.controller.js:92-165 | 404 exactly when the event is missing, 403 exactly when it is another user's, 200 exactly when it is the caller's; then that event is replaced by its merge with the body and every other event stays |
| Calendar.UpdateStoresEndBeforeStart | controllers/calendar.controller.js:128-142 | an update that gives only an end before the stored start is answered 200 and stores an event ending before it starts |
| Calendar.UpdateOnly | controllers/calendar.controller.js:128-142 | updating the only event replaces it by the merged record |
| Calendar.MergeEndOnly | controllers/calendar.controller.js:128-142 | an update giving only an end keeps the start and takes the end |
| Calendar.UpdateEventChecked | models/calendar-event.model.js:94-100 | the update with the save hook's start/end rule applied: 400 exactly when the caller's merged event would end before it starts, 200 exactly when it would not, and then the merge is stored; 404 and 403 as before |
| Calendar.UpdateCheckedKeepsOrder | models/calendar-event.model.js:94-100 | the checked update keeps every stored event ending no earlier than it starts, and ids and owners in place |
| Calendar.DeleteEvent | controllers/calendar.controller.js:166-198 | 404 exactly when the event is missing, 403 exactly when it is another user's, 200 exactly when it is the caller's, and then exactly that event is removed |
| Calendar.GetEventById | controllers/calendar.controller.js:199-238 | 404 exactly when the event is missing, 403 exactly when it is another user's, and otherwise the stored event itself |
| Calendar.HandlersShareAuthorization | controllers/calendar.controller.js:106-216 | update, delete and read answer 404 and 403 for the same ids and users |
| Calendar.OverlapsIsIntersection | models/calendar-event.model.js:126-138 | for an ordered event and a window the three `$or` clauses hold exactly when the event meets the window |
| Calendar.InsertByStart | models/calendar-event.model.js:137 | inserting into a list sorted by start keeps it sorted and adds exactly the one event |
| Calendar.SortByStart | models/calendar-event.model.js:137 | `sort({ start: 1 })` is a sorted permutation of its input |
| Calendar.Matching | models/calendar-event.model.js:127-136 | the filter keeps exactly the user's events that match one of the three clauses |
| Calendar.EventsInRangeExact | models/calendar-event.model.js:126-138 | the range query returns exactly the user's events meeting the window, earliest start first |
| Calendar.GetEventsByDateRange | controllers/calendar.controller.js:239-286 | 400 exactly when a bound is missing, otherwise the range query's answer |
| Calendar.GetEvents | controllers/calendar.controller.js:2-20 | the events listed are exactly the user's |
| CalendarClient.ClientColorsMatchServer | public/assets/js/calendar/fullcalendar-custom.js:360-371 | the client's colour for any type string is the one the server's colour hook picks |
| CalendarClient.SaveButton | public/assets/js/calendar/fullcalendar-custom.js:160-200 | the save button refuses exactly a missing title or start; it keeps the start and the all-day flag, leaves a timed event's end alone and always gives an all-day event an end |
| CalendarClient.SaveRequest | public/assets/js/calendar/fullcalendar-custom.js:301-330 | an id turns the POST into a PUT on the event's URL; an all-day end moves one day later and a timed end is sent as it is; the type is never empty and both colours are the chosen one |
| CalendarClient.DeleteRequest | public/assets/js/calendar/fullcalendar-custom.js:220-228 | a DELETE on the event's URL is sent exactly for a saved event the user confirmed |
| CalendarClient.DisplayEnd | public/assets/js/calendar/fullcalendar-custom.js:259-271 | the end picker shows the last day of an all-day event, a timed event's end, the start of an all-day event without an end, and nothing otherwise |
| CalendarClient.DisplayKind | public/assets/js/calendar/fullcalendar-custom.js:288-293 | the modal always shows a type, the stored one when it is not empty |
| CalendarClient.CreatedFromRequest | public/assets/js/calendar/fullcalendar-custom.js:301-330 | a created event stores the end the request implies and the server's colour for the chosen type |
| CalendarClient.SameDayAllDayShiftsOneDay | public/assets/js/calendar/fullcalendar-custom.js:173-186 | an all-day event ending on its start day is moved a day by the save button and again before the request, so the modal later shows the following day |
| CalendarClient.SaveButtonFixed | public/assets/js/calendar/fullcalendar-custom.js:160-200 | the save button without its own day shift sends the end the user picked (the start for an all-day event without one) |
| CalendarClient.FixedRoundTrip | public/assets/js/calendar/fullcalendar-custom.js:259-313 | with one day shift, an event saved and opened again shows exactly the end the user picked |
| Forum.NewCategory | models/discussion.model.js:5-24 | a new category counts no posts |
| Forum.NewPost | models/discussion.model.js:87-130 | a new post has no likes, comments or views, and has every required field when they are given |
| Forum.StripHash | controllers/discussion.controller.js:114 | one leading `#` is dropped and nothing else changes |
| Forum.NormalizeTag | controllers/discussion.controller.js:112-116 | a kept tag is non-empty, trimmed and lower-case, and a blank tag is skipped |
| Forum.NormalizeFixes | controllers/discussion.controller.js:113-116 | cleaning a cleaned tag that does not start with `#` changes nothing |
| Forum.Cleaned | controllers/discussion.controller.js:111-116 | every raw tag is paired with its cleaned form |
| Forum.ProcessTags | controllers/discussion.controller.js:109-126 | the loop as written only appends, and every name it appends is the cleaned form of some raw tag |
| Forum.TagNames | controllers/discussion.controller.js:105-127 | every name kept from a request's tags is the cleaned form of one of them |
| Forum.DistinctTags | controllers/discussion.controller.js:109-126 | the loop judging duplicates by the cleaned form keeps each name once and represents every raw tag that has a cleaned form |
| Forum.TagNamesFixed | controllers/discussion.controller.js:105-127 | the corrected names are distinct and are exactly the cleaned forms of the raw tags |
| Forum.ApplyTagsAt | controllers/discussion.controller.js:118-124 | the counters as written: an existing hashtag gains one per occurrence, a new one ends one below its occurrences because its creation counts 0 |
| Forum.ApplyTagsFixedAt | controllers/discussion.controller.js:118-124 | with an upsert every occurrence adds one, from 0 for a new hashtag |
| Forum.DropTagsAt | controllers/discussion.controller.js:535-540 | removing a post's tags lowers each existing hashtag once per occurrence and creates none |
| Forum.PlainTagKept | controllers/discussion.controller.js:112-117 | a tag already in clean form is kept as it is |
| Forum.ApplyOne | controllers/discussion.controller.js:118-124 | one name bumps an existing hashtag or creates it at 0 |
| Discussion.FindPost | controllers/discussion.controller.js:255 | `Post.findById` finds the position of the post with that id, or nothing when no post has it |
| Discussion.FindComment | controllers/discussion.controller.js:449 | `post.comments.id` finds the position of the comment with that id, or nothing |
| Discussion.FindPostWithComment | controllers/discussion.controller.js:439-455 | the lookup by comment id finds a post and the position of that comment in it, or nothing when no post holds it |
| Discussion.CreatePost | controllers/discussion.controller.js:79-170 | 400 exactly without title, content or category, then 401 exactly without a user, then 404 exactly for an unknown category with the hashtag counters already moved; on 201 the category gains one post and the new post is appended with the caller as author and the kept tag names |
| Discussion.CreatePostFixed | controllers/discussion.controller.js:79-170 | the corrected handler checks the category before moving any counter, so every refusal leaves the board as it was, and the new post carries each cleaned tag name once |
| Discussion.LikePost | controllers/discussion.controller.js:251-284 | 404 exactly for an unknown post; otherwise only the caller's like on that post is toggled, `liked` says whether it was added and `likes` is the new count |
| Discussion.LikeComment | controllers/discussion.controller.js:436-479 | 404 exactly when no post holds the comment, and nothing changes; otherwise only the caller's like on that comment is toggled, reported as for posts, and every other post, comment and field is left as it was |
| Discussion.LikePostTwice | controllers/discussion.controller.js:262-270 | liking a post twice restores who likes it and reports the opposite state |
| Discussion.FindPostSameIds | controllers/discussion.controller.js:255 | the lookup depends only on the ids of the posts |
| Discussion.AddComment | controllers/discussion.controller.js:206-250 | 400 exactly without content, 404 exactly for an unknown post, otherwise the comment is appended to that post and nothing else changes |
| Discussion.ReplyToComment | controllers/discussion.controller.js:377-435 | 400 exactly without content, 404 exactly when no post holds the comment, and nothing changes on either; otherwise the reply is appended to that comment and every other post, comment and field is left as it was |
| Discussion.ReportPost | controllers/discussion.controller.js:480-514 | 400 exactly without a post id or reason, 200 exactly for a known post; nothing is stored |
| Discussion.ViewPost | controllers/discussion.controller.js:293-316 | a read of a known post adds one view and changes nothing else; an unknown post is 404 |
| Discussion.Bump | controllers/discussion.controller.js:531-534 | `$inc` on a category changes only that category's counter and creates none |
| Discussion.DeletePost | controllers/discussion.controller.js:515-554 | 404 exactly for an unknown post, 403 exactly when the caller neither wrote it nor is an admin; otherwise the post is removed and its category and hashtags each lose one post |
| Discussion.MoveCategory | controllers/discussion.controller.js:606-617 | a missing or unchanged category moves no counter |
| Discussion.Edited | controllers/discussion.controller.js:604-621 | the saved post keeps id, author, likes and comments; a falsy title or content keeps the old one; hashtags, category and image are replaced only when given |
| Discussion.EditPost | controllers/discussion.controller.js:555-636 | 404 exactly for an unknown post, 403 exactly for anyone but the author; otherwise only that post changes, to its edit with the given fields; the category counters move as `MoveCategory` says; given hashtags take a post from each old tag and are applied as written, and without hashtags the tag counters stay |
| Discussion.EditPostFixed | controllers/discussion.controller.js:555-636 | the corrected edit answers the same codes and leaves the board unchanged on every refusal; on success only that post changes, to its edit with the cleaned tag names, and the counters move as the corrected tag handling says |
| Discussion.AdminDeletesButCannotEdit | controllers/discussion.controller.js:525-568 | an admin who is not the author may delete a post but not edit it |
| DiscussionCounts.EmptyConsistent | models/discussion.model.js:16-19 | a forum with no posts and fresh categories has every counter right |
| DiscussionCounts.ApplyFixedCount | controllers/discussion.controller.js:118-124 | the upsert loop adds each hashtag's occurrences to its counter |
| DiscussionCounts.DropCount | controllers/discussion.controller.js:535-540 | dropping a counted post's tags takes exactly its occurrences off each counter |
| DiscussionCounts.CreateFixedConsistent | controllers/discussion.controller.js:79-170 | the corrected create keeps every category and hashtag counter equal to the posts referencing it |
| DiscussionCounts.CreateFixedTags | controllers/discussion.controller.js:103-127 | appending a post and counting its tags by upsert keeps the hashtag counters right |
| DiscussionCounts.CreateFixedCats | controllers/discussion.controller.js:128-144 | appending a post and bumping its category keeps the category counters right |
| DiscussionCounts.DeleteConsistent | controllers/discussion.controller.js:515-554 | deleting a post keeps every counter equal to the posts referencing it |
| DiscussionCounts.EditFixedConsistent | controllers/discussion.controller.js:555-636 | the corrected edit keeps every counter equal to the posts referencing it |
| DiscussionCounts.ReplaceKeepsCounts | models/discussion.model.js:16-36 | replacing a post by one with the same hashtags and category keeps every counter equal to the posts referencing it |
| DiscussionCounts.LikePostConsistent | controllers/discussion.controller.js:251-284 | liking a post keeps every counter equal to the posts referencing it |
| DiscussionCounts.LikeCommentConsistent | controllers/discussion.controller.js:436-479 | liking a comment keeps every counter equal to the posts referencing it |
| DiscussionCounts.CommentConsistent | controllers/discussion.controller.js:206-250 | commenting keeps every counter equal to the posts referencing it |
| DiscussionCounts.ReplyConsistent | controllers/discussion.controller.js:377-435 | replying to a comment keeps every counter equal to the posts referencing it |
| DiscussionCounts.ViewConsistent | controllers/discussion.controller.js:293-316 | reading a post keeps every counter equal to the posts referencing it |
| DiscussionCounts.EditFixedTags | controllers/discussion.controller.js:574-605 | replacing a post's tags after dropping the old ones keeps the hashtag counters right |
| DiscussionCounts.EditFixedCats | controllers/discussion.controller.js:606-617 | moving a post between categories keeps the category counters right |
| DiscussionCounts.NewTagCountedZero | controllers/discussion.controller.js:118-121 | the first post with a new hashtag leaves its counter at 0 while one post references it |
| DiscussionCounts.UnknownCategoryCountsTags | controllers/discussion.controller.js:105-134 | a post refused with 404 for an unknown category has already raised its hashtags' counters |
| DiscussionCounts.UnknownCategoryFixed | controllers/discussion.controller.js:128-134 | the corrected handler refuses that request without touching any counter |
| DiscussionCounts.HashTagNormal | controllers/discussion.controller.js:113-115 | a tag with a leading `#` cleans to the same name as the tag without it |
| DiscussionCounts.ProcessTwoSame | controllers/discussion.controller.js:111-117 | two raw tags with the same cleaned form, the second differing from it, are both kept by the loop as written |
| DiscussionCounts.RepeatedTagKept | controllers/discussion.controller.js:112 | a tag followed by the same tag with `#` is stored twice, because the repeat check compares the raw tag with cleaned names |
| DiscussionCounts.RepeatedTagOnce | controllers/discussion.controller.js:109-126 | the corrected loop keeps that tag once |
| DiscussionClient.CreateTag | public/assets/js/discussion.js:113-131 | a tag the picker creates is its own id and text and is marked new; a blank term creates none |
| DiscussionClient.StripHashLower | public/assets/js/discussion.js:118-122 | dropping a `#` and lower-casing can be done in either order |
| DiscussionClient.CreateTagMatchesServer | public/assets/js/edit.js:58-76 | the picker creates a tag exactly when the server keeps one from the same term, and offers the very name the server stores |
| DiscussionClient.ProcessResults | public/assets/js/discussion.js:144-154 | the search answer becomes one existing choice per hashtag name, and none without data |
| DiscussionClient.StoredNameRetyped | public/assets/js/discussion.js:113-131 | a stored hashtag name typed again is offered unchanged |
| DiscussionClient.PostFormPassesServer | public/assets/js/discussion.js:307-327 | a post the form lets through is never refused by the server's 400 check |
| DiscussionClient.CommentFormPassesServer | public/assets/js/discussion.js:445-456 | a comment the form lets through is never refused by the server's 400 check |
| DiscussionClient.ReportFormPassesServer | public/assets/js/discussion.js:661-676 | a report the form sends about a post of the page is never refused by the server's 400 check, and is answered 200 exactly when the post exists |
| DiscussionClient.ReportDetails | public/assets/js/discussion.js:661-672 | details are sent empty unless the reason is "other", when they are required to be non-blank and sent as typed |
| DiscussionClient.NextPage | public/assets/js/discussion.js:601-603 | the next page follows the button's page, which counts as 1 when missing or 0 |
| DiscussionClient.EditHashtagsField | public/assets/js/edit.js:146-149 | the edit form sends the chosen names joined by `,` as one value, and nothing when that is empty |
| DiscussionClient.JoinedTagsMerge | public/assets/js/edit.js:147 | editing a post to the tags `a` and `b` stores the single hashtag `a,b` |
| DiscussionClient.SplitHashtagsField | controllers/discussion.controller.js:574-577 | the corrected server reading splits the field at `,` and keeps a missing field missing |
| DiscussionClient.SplitRecoversSelection | public/assets/js/edit.js:56-57 | since `,` separates tokens in the picker, splitting the joined field gives back exactly the chosen names |
| DiscussionClient.OnRemoveChange | public/assets/js/edit.js:121-127 | the file input is disabled exactly while the remove box is checked |
| DiscussionClient.OnImageChosen | public/assets/js/edit.js:194-197 | choosing an image with a preview unchecks the remove box and leaves the input as it was |
| DiscussionClient.ControlsStayInAgreement | public/assets/js/edit.js:116-130 | both handlers keep the remove box and the input in agreement |
| DiscussionClient.SanitizeName | routes/discussion.route.js:20 | every character outside letters, digits and `.` becomes `_`, and the others are kept |
| DiscussionClient.SanitizeIdempotent | routes/discussion.route.js:20 | a sanitised name is its own sanitised form |
| DiscussionClient.StoredName | routes/discussion.route.js:18-22 | the stored name starts with the time and ends with the sanitised original name |
| DiscussionClient.UploadBounds | routes/discussion.route.js:25-38 | the upload keeps images of at most 5 MB and refuses other types |
| Avatar.NormalizeAvatar | controllers/discussion.controller.js:7-15 | a missing or blank avatar becomes the default image, a relative one gains a leading `/`, a URL or absolute path is kept, and the result is always usable |
| Avatar.NormalizeIdempotent | controllers/discussion.controller.js:9-13 | normalising twice is normalising once |
| Avatar.NormalizeAvatarField | middleware/auth.middleware.js:128-139 | the middleware's rule always yields a usable path |
| Avatar.FieldRuleAgrees | middleware/auth.middleware.js:128-139 | the middleware's and the controller's rules agree on every string except "undefined", which only the middleware treats as missing |
| Avatar.WithValidAvatar | middleware/auth.middleware.js:128-139 | the user keeps every field but the avatar, which becomes the normalised, usable path |
| Avatar.WithValidAvatarIdempotent | middleware/auth.middleware.js:128-139 | normalising a normalised user changes nothing |
| Users.UpdateProfile | controllers/user.controller.js:166-282 | 401 exactly without a caller, 400 exactly when a field is missing, a changed username or email already used by another account is refused, identical values succeed without a write; a successful update changes only the caller's four fields |
| Users.UpdateKeepsLoginsUnique | controllers/user.controller.js:209-239 | checking a name only when it changes is enough: no two accounts come to share a username or an email |
| Users.UpdatedDiffers | controllers/user.controller.js:209-239 | after the checks the caller's new username and email differ from every other account's |
| Users.ChangePassword | controllers/user.controller.js:284-359 | the refusals come in the source's order (missing field, mismatch, fewer than six characters, no account, wrong current password); only success stores the new hash; every refusal after the field check except the missing account is logged as a failure, and success is logged once |
| Users.PasswordChecksBeforeLookup | controllers/user.controller.js:290-314 | a mismatched or short new password is refused with 400 whatever the current password and the accounts |
| Users.OrDefault | controllers/user.controller.js:368-369 | `parseInt(x) or d` keeps a non-zero number and otherwise takes the default |
| Users.ActivityPaging | controllers/user.controller.js:361-381 | without a user the first of one empty page; otherwise `skip = (page - 1) * limit` and, for a positive limit, the smallest page count that covers every activity, at least one |
| Users.ActivityRowsFollowSkip | controllers/user.controller.js:371-378 | the row at `index` of a page is record `skip + index` of the history |
| Users.ActivityPagesCover | controllers/user.controller.js:368-381 | with the default page size every activity appears on exactly one page between 1 and the page count |
| Users.Follow | controllers/user.controller.js:524-591 | 400 exactly without a target or for the caller's own id, 404 for an unknown target; otherwise the follow is toggled on both lists at once and no other account or list changes |
| Users.FollowKeepsGraph | controllers/user.controller.js:551-574 | following and unfollowing keep the two directions of the graph in step and free of repeats |
| Users.FollowKeepsDistinct | controllers/user.controller.js:551-574 | no following or followers list gains a repeat |
| Users.FollowPair | controllers/user.controller.js:551-574 | after a follow request, b is in a's following exactly when a is in b's followers |
| Users.DistinctAppend | controllers/user.controller.js:571-572 | appending an absent id keeps a list free of repeats |
| Users.FollowTwice | controllers/user.controller.js:551-583 | two follow requests in a row restore who follows whom |
| Users.SavePost | controllers/user.controller.js:593-654 | 400 exactly without a post id, 404 for an unknown post; otherwise only the caller's saved list changes, toggling that one post, and `saved` reports the new membership |
| Users.SaveTwice | controllers/user.controller.js:615-646 | saving twice restores the saved list and keeps it free of repeats |
| Users.Candidates | controllers/user.controller.js:661-677 | the directory never lists the caller, lists only existing accounts, and lists all others without a search term |
| Users.Explore | controllers/user.controller.js:656-715 | twelve users to a page, page defaulting to 1; the page count covers every user, the next and previous flags follow the page, and the links are the window around the page |
| Users.ExploreLinks | controllers/user.controller.js:697-715 | an empty directory has no page and no link; otherwise some link is active exactly when the page is a real one |
| Users.AvatarFilterNarrower | controllers/user.controller.js:12-34 | every type the avatar filter takes is an image type the forum would take, but a GIF only reaches the forum |
| Paging.CeilDiv | controllers/user.controller.js:381 | `Math.ceil(a / b)` is the least whole number of `b`-sized pages covering `a`, for either sign of `b` |
| Paging.CeilDivPages | controllers/user.controller.js:381 | the page count covers every row with no page to spare, and a positive total needs at least one page |
| Paging.Span | public/assets/js/app.js:345-359 | the links run from `lo` to `hi` one page apart, and the current page's link is the active one |
| Paging.Window | public/assets/js/app.js:318-359 | at most five consecutive links, each a real page within two of the current one, every such page shown, and only the current page active |
| Paging.WindowActive | public/assets/js/app.js:345-348 | the current page's link is shown and active when it is a real page, never two links are active, and none is when the page is out of range |
| Paging.Links | public/assets/js/app.js:345-359 | every window entry becomes one link control in order |
| Paging.Render | public/assets/js/app.js:298-399 | the bar starts with the previous arrow, disabled on the first page, and ends with the next arrow, disabled on the last |
| Paging.WindowStrip | public/assets/js/app.js:318-359 | the window's links are consecutive pages from its first to its last |
| Paging.JoinStrips | public/assets/js/app.js:320-382 | two runs of page links joined at the next page form one run |
| Paging.GapStrips | public/assets/js/app.js:334-369 | a gap between two runs stands for pages left out between them |
| Paging.HeadThen | public/assets/js/app.js:320-344 | the first page and a gap when needed lead into the window |
| Paging.HeadGap | public/assets/js/app.js:334-343 | a window starting after page 2 is preceded by page 1 and a gap |
| Paging.HeadOne | public/assets/js/app.js:320-333 | a window starting at page 2 is preceded by page 1 alone |
| Paging.HeadNone | public/assets/js/app.js:320 | a window starting at page 1 needs nothing before it |
| Paging.ThenTail | public/assets/js/app.js:360-382 | a gap when needed and the last page close the run at the last page |
| Paging.RenderStrip | public/assets/js/app.js:318-382 | between its arrows the bar covers page 1 to the last page, with every skipped page stood for by a gap |
| Paging.RenderActive | public/assets/js/app.js:347 | the only active control of the bar is the current page's link |
| Paging.RowNumberCovers | public/assets/js/app.js:240 | every one of the records gets its number on exactly one page within the page count |
| Paging.RowNumberUnique | public/assets/js/app.js:240 | distinct rows of distinct pages carry distinct numbers |
| ActivityLog.NewEntry | controllers/user.controller.js:145-152 | the new record keeps the user and action, defaults missing details to `''`, counts as a success unless `false` was given, is stamped with the current time and carries no hash yet |
| ActivityLog.MinuteRounded | models/activity.model.js:42-48 | the rounded instant is the start of the minute the current time falls in |
| ActivityLog.SameMinute | models/activity.model.js:42-48 | two instants round alike exactly when they fall in the same minute |
| ActivityLog.HashOf | models/activity.model.js:49 | the hash starts with the user id and a `-` and ends with the minute |
| ActivityLog.HashSeparatesMinutes | models/activity.model.js:49 | for one user, action and outcome, the hash tells minutes apart |
| ActivityLog.PreSave | models/activity.model.js:39-52 | the hook sets the hash exactly when it is missing and user and action are given, and changes nothing else |
| ActivityLog.PreSaveIdempotent | models/activity.model.js:39-52 | a record keeps its hash when saved again later |
| ActivityLog.Save | models/activity.model.js:4-34 | a record is stored exactly when it names a user and an action and the unique sparse index admits it after the hook; the stored record is the given one with a hash that, when missing, is the user/action/outcome/minute hash and no earlier record carries |
| ActivityLog.SaveKeepsUnique | models/activity.model.js:30-34 | saving keeps the stored hashes unique |
| ActivityLog.SameMinuteSecondRefused | models/activity.model.js:39-52 | a second identical entry within the same minute is refused |
| ActivityLog.NextMinuteAdmitted | models/activity.model.js:39-52 | the same two entries a minute or more apart are both stored |
| Auth.GuardToken | middleware/auth.middleware.js:8-16 | the guards take the rest of a `Bearer ` header, otherwise the `jwt_token` cookie, and fall back to the `token` cookie only when nothing else is there |
| Auth.SecondWord | middleware/auth.middleware.js:94 | `split(' ')[1]` holds no space, and a header without a space yields none |
| Auth.BearerWord | middleware/auth.middleware.js:93-95 | the second word of `Bearer t` is `t` when `t` holds no space |
| Auth.ExtractToken | middleware/auth.middleware.js:85-109 | a query token wins, then a header starting `Bearer` gives its second word, then the `jwt_token` cookie, then the `token` cookie |
| Auth.StatusToken | routes/auth.route.js:99-118 | the status route finds no token exactly when there is neither a `Bearer` header nor any other source, and takes the query token only when neither cookie is set |
| Auth.StatusAndExtractOrder | routes/auth.route.js:103-117 | without a query token the status route and `isLoggedIn` pick the same token; with one beside a cookie they pick different ones |
| Auth.BearerWinsEverywhere | middleware/auth.middleware.js:10-13 | a plain `Bearer t` header gives `t` to the guards, to `isLoggedIn` and to the status route, whatever cookies come with it |
| Auth.GuardIgnoresQuery | middleware/auth.middleware.js:209-219 | with a query token and a different cookie, the guards use the cookie while `isLoggedIn` uses the query token |
| Auth.Status | routes/auth.route.js:120-138 | the status is missing exactly without a token, valid exactly when the token verifies, and then carries its claims |
| Auth.RequireAuth | middleware/auth.middleware.js:6-49 | 401 without a token; admission exactly for a token that verifies to claims with an id; the user carries that id, no role, and the stored avatar exactly when the account has one |
| Auth.ProtectAvatar | middleware/auth.middleware.js:250-255 | the attached avatar is always usable: the default for an empty one, a usable one kept |
| Auth.ProtectAvatarVsRule | middleware/auth.middleware.js:251-254 | `protect` follows the shared avatar rule except on a blank, non-empty avatar, which it keeps as a relative path instead of replacing it by the default |
| Auth.Protect | middleware/auth.middleware.js:209-267 | admission exactly for a verifying token whose id names an existing account; the user carries that id, the normalised avatar and no role |
| Auth.AdminRoleNeverReachesDelete | middleware/auth.middleware.js:246-249 | the token carries no role, so an administrator's request to delete another user's post is refused with 403 |
| Auth.ProtectWithRole | middleware/auth.middleware.js:237-257 | the guard with the role read from the stored account admits the same requests and attaches the same user plus that role |
| Auth.AdminDeletesWithRole | controllers/discussion.controller.js:525 | with the role attached, an administrator may delete any post and still edit only their own |
| Auth.IsLoggedIn | middleware/auth.middleware.js:51-83 | signed in exactly when the extracted token verifies and names an existing account, with a usable avatar; a token that does not verify clears the cookies and signs nobody in |
| Auth.Register | controllers/auth.controller.js:6-62 | a used email is refused first, then a used username, then a username that is not six or more of `[A-Za-z0-9_]`; on success exactly one account is added with the hashed password |
| Auth.RegisterKeepsLoginsUnique | controllers/auth.controller.js:9-30 | registration keeps usernames and emails unique |
| Auth.Login | routes/auth.route.js:30-91 | success exactly when the username names an account whose password matches; a refusal carries the one shared message; success sends the client to `redirectTo` or `/home`; the attempt is logged as a success exactly when it succeeds, and against no account exactly when the username is unknown |
| Auth.LoginFailuresAlike | routes/auth.route.js:79-82 | an unknown username and a wrong password get the same reply |
| Auth.ClearTokens | controllers/auth.controller.js:137-153 | signing out removes both token cookies and keeps every other cookie |
| Auth.LogoutEndsSession | middleware/auth.middleware.js:204-207 | after signing out, a request with only cookies passes neither guard and signs nobody in |
| Auth.CleanupEndsSession | routes/auth.route.js:12-28 | whichever cleanup is installed, the controller's or the route's fallback, it sends the browser to `/login?cleaned=true` and leaves cookies that pass no guard and sign nobody in |
| Auth.EnsureValidUser | routes/clientViews.route.js:6-20 | the page user is `res.locals.user`, else `req.user`, with every field kept and the avatar made usable |
| Auth.EnsureValidUserAgrees | routes/clientViews.route.js:11-17 | the page routes' avatar rule is the shared rule on string avatars |
| Auth.DropToken | routes/clientViews.route.js:35 | deleting `token` from the query removes every `token` parameter and keeps all the others |
| Auth.TokenParam | routes/clientViews.route.js:23-24 | the query token is the value of the first `token` parameter, and nothing when there is none |
| Auth.QueryTokenStep | routes/clientViews.route.js:22-43 | a non-empty first `token` parameter is stored as the `jwt_token` cookie and the browser is sent to the same path without any `token` parameter; without one the request goes on |
| Auth.QueryTokenRedirectSettles | routes/clientViews.route.js:22-43 | the redirect does not loop, and the next request is signed in with the cookie it set |
| Auth.NoTokenParam | routes/clientViews.route.js:23 | a query without a `token` parameter yields no token |
| Auth.LoginRoute | routes/clientViews.route.js:50-77 | the loop flags are answered first with the form; a signed-in user is then sent home; otherwise the form carries `/home` under `noredirect`, else the requested address or `/home` |
| Auth.RegisterRoute | routes/clientViews.route.js:79-88 | a signed-in user is redirected to `/home`, anyone else gets the form |
| AiChat.AskCohere | controllers/ai.controller.js:204-224 | the Cohere call fails exactly when the generation fails; a success carries the trimmed text under `Cohere Command` |
| AiChat.AskGemini | controllers/ai.controller.js:226-247 | Gemini fails only when both models fail; `Gemini 1.0` answers only after 1.5 failed, and each answer carries its own model's text |
| AiChat.Ask | controllers/ai.controller.js:24-31 | `cohere-command` succeeds exactly when Cohere does, any other model exactly when one Gemini model does; the answer names Cohere exactly for `cohere-command` |
| AiChat.FallbackOnlyWithinGemini | controllers/ai.controller.js:24-39 | a failing Cohere call is a failure, not a Gemini retry, and a working Gemini 1.5 is always the one used |
| AiChat.Title | controllers/ai.controller.js:47 | a message of thirty characters or fewer is its own title; a longer one gives its first thirty characters followed by `...` |
| AiChat.TitleIsPrefix | controllers/ai.controller.js:67 | a title is at most thirty-three characters and begins with the message |
| AiChat.Exchange | controllers/ai.controller.js:60-63 | each request appends two messages: the user's question, then the assistant's answer |
| AiChat.Target | controllers/ai.controller.js:42-52 | the request writes to the named conversation when it exists, otherwise to a fresh one |
| AiChat.ChatWithAI | controllers/ai.controller.js:9-96 | 400 exactly for an empty message, then 401 exactly without a user, then 500 exactly when the model fails, then 403 exactly for someone else's existing conversation; otherwise 200 with the answer, and when the write succeeds the exchange is appended to the target conversation (a new one titled from the message under the answer's model), with every other conversation unchanged |
| AiChat.TurnsAppend | controllers/ai.controller.js:60-63 | appending an exchange keeps a conversation alternating user and assistant |
| AiChat.ChatKeepsTurns | controllers/ai.controller.js:40-80 | every stored conversation keeps alternating question and answer after any request |
| AiChat.ChatOwnerStable | controllers/ai.controller.js:54-59 | no request moves a conversation to another owner or removes it |
| AiChat.GetChat | controllers/ai.controller.js:115-145 | 404 exactly for an unknown id, 403 exactly for someone else's conversation, otherwise the stored conversation |
| AiChat.DeleteChat | controllers/ai.controller.js:147-179 | the same 404 and 403; a 200 removes exactly that conversation and keeps every other one |
| AiChat.DeleteThenGet | controllers/ai.controller.js:153-165 | reading and deleting answer with the same status, and a deleted conversation reads as 404 |
| AiChat.History | controllers/ai.controller.js:97-113 | the history holds exactly the conversations the user may read |
| AiChat.RecentLimit | controllers/ai.controller.js:184 | the limit is the parsed number when it is non-zero, and five when it is missing, not a number or zero |
| ViewHelpers.TimeAgo | server.js:49-62 | nothing exactly for a missing timestamp; "just now" exactly under a minute, the date exactly from a week on; otherwise the number of whole minutes, hours or days elapsed, in the largest unit that fits |
| ViewHelpers.TimeAgoMonotone | server.js:54-61 | as time passes the label of one timestamp never shows a younger age |
| ViewHelpers.AgoText | server.js:56-61 | the minute, hour and day labels are the count followed by the Vietnamese unit and "ago"; a missing timestamp shows nothing |
| ViewHelpers.FormatDate | server.js:63-78 | nothing for a missing timestamp; a format without any token comes back unchanged |
| ViewHelpers.FirstAt | server.js:73-77 | `replace` with a string pattern acts at the first position where the pattern occurs |
| ViewHelpers.Absent | server.js:73-77 | a pattern whose first letter is absent is not replaced |
| ViewHelpers.DayStep | server.js:73 | the day replaces the leading `DD` of a day-first format |
| ViewHelpers.MonthStep | server.js:74 | the month then replaces `MM`, after the two day digits |
| ViewHelpers.YearStep | server.js:75 | the year then replaces `YYYY` |
| ViewHelpers.NoTimeTokens | server.js:76-77 | a filled day-first date holds no `HH` or `mm` left to replace |
| ViewHelpers.DayFirstFormat | server.js:63-78 | `DD/MM/YYYY` and its kin give the two-digit day, the two-digit month and the year, each reading back as the field it came from |
| ViewHelpers.Truncate | server.js:79-85 | an empty text gives nothing; the text without its tags is returned whole when it fits, otherwise cut to `length` characters and followed by `...`; no tag survives |
| ViewHelpers.TruncateIdempotent | server.js:79-85 | truncating a truncated text changes nothing |
| ViewHelpers.TimestampToValue | server.js:92-103 | a number, or text that reads as one, is returned as it is; any other value becomes a number, for text the time its date parses to |
| ViewHelpers.TimestampToValueIdempotent | server.js:92-103 | applying it twice is applying it once |
| ViewHelpers.PrefixRelative | server.js:166-180 | a non-empty avatar comes out usable; a usable or empty one is kept, any other gets a leading `/` |
| ViewHelpers.AvatarDefaults | server.js:181-199 | the second filter is the shared avatar rule |
| ViewHelpers.FiltersInSequence | server.js:166-199 | the two filters in sequence give the shared rule, except on a blank non-empty avatar, which ends up as a relative path and not the default |
| ViewHelpers.RenderAvatar | server.js:200-214 | the view always gets a non-empty avatar: a non-empty string avatar is kept, a missing, empty or non-string one becomes the default |
| ViewHelpers.RenderAfterMiddleware | server.js:166-214 | behind the avatar middleware the render wrapper changes nothing, so the view gets the normalised, usable path |
| ViewHelpers.RenderKeepsRelativePath | server.js:200-214 | the wrapper alone passes a relative string avatar through unchanged, so it is not usable |
| ClientForms.ClientSessionExpires | public/assets/js/custom.js:16-31 | signed in at some instant means signed in at every earlier one, and from the expiry on the browser counts itself signed out |
| ClientForms.AddAuthHeader | public/assets/js/custom.js:54-63 | with a stored token the headers gain `Authorization: Bearer <token>` and keep every other header; without one they come back as given |
| ClientForms.HeaderReachesServer | public/assets/js/custom.js:54-63 | the header the browser adds gives its token to `protect`, `requireAuth`, `isLoggedIn` and the status route, whatever cookies come with it |
| ClientForms.CheckAuthState | public/assets/js/custom.js:65-89 | unless `nocheck=true` is in the query, a signed-in user on the login or register page goes home and a signed-out user on a page at or under a protected route goes to the login page; nothing else moves |
| ClientForms.ClientStateDrivesRequests | public/assets/js/custom.js:16-89 | a browser that counts itself signed in sends its token in the header every guard reads first and is never sent to the login page; one that does not is sent there from every protected page |
| ClientForms.CheckAuthStateSettles | public/assets/js/custom.js:65-86 | the page the check sends the browser to is one it does not send it away from |
| ClientForms.BelowProtectedIsProtected | public/assets/js/custom.js:74-81 | every page below a protected route is protected |
| ClientForms.IsValidEmailMatchesPattern | public/assets/js/custom.js:620-623 | the email check accepts exactly the addresses of the form name `@` host `.` rest, none of them empty or holding white space or `@` |
| ClientForms.RegisterErrors | public/assets/js/custom.js:130-161 | the register form flags the name exactly when blank, the username exactly when shorter than six once trimmed, the email and phone exactly when they fail their patterns, the password exactly when shorter than six, the terms exactly when not accepted |
| ClientForms.RegisterPayload | public/assets/js/custom.js:172-178 | the form sends the password as typed and every other field trimmed; the name is non-empty exactly when the field was not blank, and a phone number that passes the check is sent as typed |
| ClientForms.CleanFormPayload | public/assets/js/custom.js:130-178 | a form the browser lets through sends a non-empty name, a username of six or more characters, the phone number as typed and a password of six or more |
| ClientForms.CleanFormRegisters | public/assets/js/custom.js:130-178 | with a free email and username, the server registers a clean form exactly when every character of the trimmed username is one it allows |
| ClientForms.PhoneSentAsChecked | public/assets/js/custom.js:624-626 | a phone number that passes the check is sent unchanged |
| ClientForms.ServerUsernamePassesForm | public/assets/js/custom.js:136-142 | every username the server accepts passes the form's length check |
| ClientForms.PasswordErrors | public/assets/js/custom.js:491-508 | the password form flags the current password exactly when empty, the new one exactly when shorter than six, the confirmation exactly when it differs |
| ClientForms.CleanPasswordFormPassesServerChecks | public/assets/js/custom.js:477-509 | a form the browser lets through is refused by the server only for an unknown account or a wrong current password |

## Left out

- The generative models, JSON parsing, JWT signing and verification, bcrypt, and the database are not modelled as code. Each becomes a parameter: a reply, a parse result, a `verify` or `matches` function, or a keyed store. Prompt wording is not modelled.
- Sorting by `updatedAt` in `getChatHistory` and `getRecentChats` is left out. The model returns the set of readable conversations, because the order is the database's.
- AiChat.RecentLimit: a negative limit is returned as parsed. The database's treatment of a negative limit is not modelled.
- Mongo's treatment of a negative `skip` or `limit` is left out of activity and explore paging. So is the raw `limit` echoed when `getUserActivity` has no user.
- Dates are integer local milliseconds. `toLocaleDateString`, `toLocaleString`, time zones and daylight saving are not modelled. `formatTimeAgo` from a week on yields a marker, and the locale text of the date is a parameter.
- ViewHelpers.FormatDate: the contract covers a missing timestamp and a format without tokens. Its token replacement is proved for the day-first formats (`DD/MM/YYYY` with any non-letter separator), not for every format string.
- ViewHelpers.TimestampToValue: `Number(text)` is modelled for decimal digits and blank text only. Signs, fractions, exponents and hexadecimal are left out.
- The `add`, `ifEquals`, `ifNotEquals`, `eq` and `json` Handlebars helpers in `server.js` are not modelled. They are plain comparisons and serialisation.
- In `server.js` the avatar middlewares (lines 166-199) are installed before `isLoggedIn` (line 217). When they run, the request carries no user yet. The model states what they do to a user they are given.
- `toLowerCase` is modelled on ASCII and Latin-1 letters. `substring` and `length` count characters, where JavaScript counts UTF-16 code units.
- Cookie attributes are not modelled: the options of `res.cookie` and the option sets `clearAllTokens` and the three login variants write with. A cookie jar is a map from name to value.
- Images are not modelled: multer storage, sharp resizing, `fs` unlink, and `updateAvatar`'s file handling. Upload acceptance is modelled through the file filters and the size limit.
- Concurrency is not modelled: the process-wide `ongoingOperations` guard with its timer, the `Promise.all` saves, and concurrent `getSuggestions` calls.
- Floating point is not modelled: `getStudyStats` percentages, the `durationHours` virtual, and `sortTable`.
- Several readers are not modelled: `getCurrentUser` (token payload decoding), `getEventStats`, the discussion page and search listings, `getCategories` and `getHashtags`, and the page-rendering routes. They only read and format data.
- `setToken` and `removeToken` in the browser are not modelled. A stored token is a parameter of `ClientLoggedIn` and `AddAuthHeader`.
- The register form's avatar URL is not modelled, because it comes from a name-to-image service.
- `slugify` and `uuid` are not part of this model. Ids and slugs are parameters.
- The failure path of suggestion generation follows the code. When an exception escapes generation, exactly one canned suggestion on the first slot is returned. A fallback for each requested suggestion is used only when the reply has no parsable list.
- DOM, jQuery, Select2, Trumbowyg, FullCalendar, flatpickr and toasts are not modelled. The scripts' decisions are modelled as functions of the form values.
- Malformed ids are not modelled. Ids are plain strings, so an id that is not a valid ObjectId is treated as a missing document and answered with 404. In the source, `findById` throws a CastError on such an id, and the catch answers 500. This affects the post handlers (including the category lookup in `createPost`, controllers/discussion.controller.js:128), reading and deleting a chat, `followUser`, `savePost`, dismissing a suggestion, and the calendar's `updateEvent`, `deleteEvent` and `getEventById` (controllers/calendar.controller.js:106, 170, 203).
- Users.UpdateProfile: the activity records written by `updateProfile` are not modelled (controllers/user.controller.js:217, 233, 251). The model's result carries the accounts only. Those records would be saved as `ActivityLog.Save` describes.
- Auth.Register: when `bcrypt.hash` or `user.save()` fails, the source answers 500 (controllers/auth.controller.js:55-60). The model has no such path, because the hash is a parameter and the store always accepts the write.
- Lists.FindKey: the search finds the last entry with the key, while `findById` finds the first. The two agree when ids are unique, which `WellFormed` stores guarantee.
- ViewHelpers.TimeAgo: a timestamp of 0 is falsy, so `!timestamp` answers `''` for it. The model reads `Some(0)` as a real instant.
- ViewHelpers.FormatDate: the same applies to a timestamp of 0. A call without a format argument is not modelled either: Handlebars then passes its options hash as the format.
- The profile form of `custom.js` (lines 352-420) is not modelled separately. It applies the register form's name, username, email and phone checks, which `ClientForms.RegisterErrors` states.
- The login form's validators (lines 238-246) are not modelled. They only check that a username and a password were entered.
- Auth.TokenParam: repeated `token` parameters are not modelled. The query parser turns a repeated key into an array. The source then stores the array as the cookie (`j:[...]`), and it does so even when the first value is empty. The model takes the first value, so `Auth.QueryTokenStep` follows the single-key case only.
- SuggestionEngine.JsText: a JSON `null` field is not told apart from a missing one. Both are `None`, which renders as `undefined`, while the template literal at controllers/suggestion.controller.js:381 renders a `null` topic or type as `null`. A uniqueness key built from a `null` topic therefore differs from the source's.
- Calendar.Merge: a field missing from the body keeps its stored value. How Mongoose and the driver treat an `undefined` field in an update is not modelled.
- Ties in the database sorts are not modelled. `sort({ priority: -1 })` and `sort({ start: 1 })` leave the order of records with equal keys to the database. `SuggestionStore.SortDesc` and `Calendar.SortByStart` fix one order among them, so with equal priorities the model picks one particular set of five. The `Array.sort` in the suggestion handler is stable, and there the model is exact.

## Findings

| source | as written | input that shows it | evidently intended | confidence | as-written member | corrected member |
|---|---|---|---|---|---|---|
| public/assets/js/calendar/fullcalendar-custom.js:173-186 | The save button moves an all-day end that falls on the start day one day later. `saveEventToDatabase` then adds another day. | An all-day event on day 0 whose chosen end is day 0 is stored ending at day 2. When reopened it shows day 1. | The end is bumped once, so reopening shows the day picked. | not executed | CalendarClient.SameDayAllDayShiftsOneDay | CalendarClient.SaveButtonFixed, CalendarClient.FixedRoundTrip |
| controllers/calendar.controller.js:128-142 | `updateEvent` merges the new fields with `findByIdAndUpdate`. That skips the pre-save check that the end is not before the start. | An event without an end is updated with only an end before its start. The reply is 200 and the stored event ends before it starts. | An update that would end before the start is refused, as a save is. | not executed | Calendar.UpdateStoresEndBeforeStart | Calendar.UpdateEventChecked, Calendar.UpdateCheckedKeepsOrder |
| controllers/discussion.controller.js:118-121 | A hashtag seen for the first time is created with `postCount` 0, and nothing increments it. | The first post tagged `math` on an empty board leaves `math` at 0 while one post carries it. | A new hashtag starts at 1, so each counter equals the number of posts carrying it. | not executed | DiscussionCounts.NewTagCountedZero | Discussion.CreatePostFixed, DiscussionCounts.CreateFixedConsistent |
| controllers/discussion.controller.js:105-134 | Hashtags are counted before the category is looked up. A 404 for an unknown category leaves them counted. | A board with one `math` post receives a post for an unknown category tagged `math`. The reply is 404, and `math` reads 2 with one post. | The category is checked first, and a refused post changes no counter. | not executed | DiscussionCounts.UnknownCategoryCountsTags | DiscussionCounts.UnknownCategoryFixed |
| controllers/discussion.controller.js:112 | The duplicate check compares the raw tag with the normalised tags already kept. | The tags `t` and `#t` are both kept as `t`, and the counter of `t` goes up twice. | Duplicates are detected after normalisation. | not executed | DiscussionCounts.RepeatedTagKept | Forum.TagNamesFixed, DiscussionCounts.RepeatedTagOnce |
| public/assets/js/edit.js:147 | The edit form sends the chosen tags joined by `,` as one field. `editPost` treats the field as one tag. | Choosing `a` and `b` when editing a post stores the single tag `a,b`. | The server splits the field on `,`, so each chosen tag is stored. | not executed | DiscussionClient.JoinedTagsMerge | DiscussionClient.SplitHashtagsField, DiscussionClient.SplitRecoversSelection |
| controllers/discussion.controller.js:525 | `deletePost` lets an admin delete any post by testing `req.user.role`. Neither the token (controllers/auth.controller.js:178-190) nor `protect` (middleware/auth.middleware.js:246-257) puts a role on the user. | An administrator deleting another user's post gets 403. | The guard attaches the stored account's role, so administrators may delete any post. | not executed | Auth.AdminRoleNeverReachesDelete | Auth.ProtectWithRole, Auth.AdminDeletesWithRole |

=== FILE: activity.dfy ===
/** The activity log (models/activity.model.js and `logActivity` in
    controllers/user.controller.js): the record's defaults, the
    `uniqueHash` the pre-save hook derives from the user, the action, the
    outcome and the minute, and the unique sparse index that refuses a
    second record with the same hash. Instants are epoch milliseconds. */
module ActivityLog {
  import opened Wrappers
  import opened Text
  import opened Lists

  const MsPerMinute: nat := 60_000

  datatype Activity = Activity(
    userId: Id,
    action: string,
    details: string,
    success: bool,
    createdAt: int,
    uniqueHash: Option<string>)

  /** The record `logActivity` builds: details default to `''`, and the
      schema's defaults give `success` true and `createdAt` the current
      time. No hash yet. */
  function NewEntry(userId: Id, action: string, details: Option<string>, success: Option<bool>, now: nat): (r: Activity)
    ensures r.userId == userId && r.action == action && r.createdAt == now
    ensures r.success <==> success != Some(false)
    ensures details.None? ==> r.details == ""
    ensures r.uniqueHash.None?
  {
    Activity(userId, action, details.GetOr(""), success.GetOr(true), now, None)
  }

  /** The start of the minute `now` falls in. */
  function MinuteRounded(now: nat): (r: nat)
    ensures r % MsPerMinute == 0 && r <= now < r + MsPerMinute
  {
    now - now % MsPerMinute
  }

  /** Two instants round to the same minute exactly when they lie in the
      same minute. */
  lemma SameMinute(a: nat, b: nat)
    ensures MinuteRounded(a) == MinuteRounded(b) <==> a / MsPerMinute == b / MsPerMinute
  {
    assert MinuteRounded(a) == (a / MsPerMinute) * MsPerMinute;
    assert MinuteRounded(b) == (b / MsPerMinute) * MsPerMinute;
  }

  function BoolText(b: bool): string {
    if b then "true" else "false"
  }

  /** `${userId}-${action}-${success}-${minuteRounded}`. */
  function HashOf(userId: Id, action: string, success: bool, minute: nat): (r: string)
    ensures |r| == |userId| + |action| + |BoolText(success)| + 3 + |NatToString(minute)|
    ensures r[..|userId|] == userId && r[|userId|] == '-'
    ensures r[|r| - |NatToString(minute)|..] == NatToString(minute)
  {
    var prefix := userId + "-" + action + "-" + BoolText(success) + "-";
    var r := prefix + NatToString(minute);
    assert r[|prefix|..] == NatToString(minute);
    assert r[..|userId|] == userId;
    r
  }

  /** For one user, action and outcome, the hash tells the minutes apart. */
  lemma HashSeparatesMinutes(userId: Id, action: string, success: bool, m1: nat, m2: nat)
    ensures HashOf(userId, action, success, m1) == HashOf(userId, action, success, m2) <==> m1 == m2
  {
    var prefix := userId + "-" + action + "-" + BoolText(success) + "-";
    var h1 := HashOf(userId, action, success, m1);
    var h2 := HashOf(userId, action, success, m2);
    assert h1 == prefix + NatToString(m1) && h2 == prefix + NatToString(m2);
    if h1 == h2 {
      assert NatToString(m1) == h1[|prefix|..] == h2[|prefix|..] == NatToString(m2);
      NatToStringInjective(m1, m2);
    }
  }

  /** The pre-save hook: a record without a hash that names a user and an
      action gets one from the current minute; any other record is saved
      as it is. */
  function PreSave(a: Activity, now: nat): (r: Activity)
    ensures r.(uniqueHash := a.uniqueHash) == a
    ensures r.uniqueHash != a.uniqueHash <==> (a.uniqueHash.None? || a.uniqueHash == Some("")) && a.userId != "" && a.action != ""
    ensures r.uniqueHash != a.uniqueHash ==> r.uniqueHash == Some(HashOf(a.userId, a.action, a.success, MinuteRounded(now)))
  {
    if (a.uniqueHash.None? || a.uniqueHash == Some("")) && a.userId != "" && a.action != "" then
      var h := HashOf(a.userId, a.action, a.success, MinuteRounded(now));
      assert |h| > 0;
      a.(uniqueHash := Some(h))
    else a
  }

  /** A hashed record keeps its hash when saved again later. */
  lemma PreSaveIdempotent(a: Activity, t1: nat, t2: nat)
    ensures PreSave(PreSave(a, t1), t2) == PreSave(a, t1)
  {
    var b := PreSave(a, t1);
    if b.uniqueHash != a.uniqueHash {
      var h := HashOf(a.userId, a.action, a.success, MinuteRounded(t1));
      assert |h| >= 1;
    }
  }

  /** The unique sparse index on `uniqueHash`: records without the field
      are not indexed; no two indexed records share a value. */
  predicate UniqueHashes(log: seq<Activity>) {
    forall i, j :: 0 <= i < j < |log| && log[i].uniqueHash.Some? ==> log[i].uniqueHash != log[j].uniqueHash
  }

  /** Whether the index admits one more record. */
  predicate Admits(log: seq<Activity>, a: Activity) {
    a.uniqueHash.None? || forall i :: 0 <= i < |log| ==> log[i].uniqueHash != a.uniqueHash
  }

  /** The schema's `required` validators: a record must name a user and an
      action. */
  predicate Complete(a: Activity) {
    a.userId != "" && a.action != ""
  }

  /** `activity.save()`: the validators, the hook, then the index; a
      refused insert leaves the log as it was (`logActivity` swallows the
      error). */
  function Save(log: seq<Activity>, a: Activity, now: nat): (r: Option<seq<Activity>>)
    ensures r.Some? <==> Complete(a) && Admits(log, PreSave(a, now))
    ensures r.Some? ==> |r.value| == |log| + 1 && r.value[..|log|] == log
    ensures r.Some? ==> r.value[|log|].(uniqueHash := a.uniqueHash) == a
    ensures r.Some? && (a.uniqueHash.None? || a.uniqueHash == Some("")) ==>
      r.value[|log|].uniqueHash == Some(HashOf(a.userId, a.action, a.success, MinuteRounded(now)))
    ensures r.Some? && r.value[|log|].uniqueHash.Some? ==>
      forall i :: 0 <= i < |log| ==> log[i].uniqueHash != r.value[|log|].uniqueHash
  {
    var b := PreSave(a, now);
    if Complete(a) && Admits(log, b) then
      var l := log + [b];
      assert l[..|log|] == log;
      Some(l)
    else None
  }

  /** Saving keeps the index unique. */
  lemma SaveKeepsUnique(log: seq<Activity>, a: Activity, now: nat)
    requires UniqueHashes(log)
    ensures Save(log, a, now).Some? ==> UniqueHashes(Save(log, a, now).value)
  {
    if Save(log, a, now).Some? {
      var l := Save(log, a, now).value;
      forall i, j | 0 <= i < j < |l| && l[i].uniqueHash.Some?
        ensures l[i].uniqueHash != l[j].uniqueHash
      {
        if j == |log| {
          assert l[i] == log[i];
        }
      }
    }
  }

  /** Two saves of the same user, action and outcome within one minute:
      the first is stored, the second refused by the index. */
  lemma SameMinuteSecondRefused(log: seq<Activity>, e1: Activity, e2: Activity, t1: nat, t2: nat)
    requires e1.userId == e2.userId != "" && e1.action == e2.action != "" && e1.success == e2.success
    requires e1.uniqueHash.None? && e2.uniqueHash.None?
    requires t1 / MsPerMinute == t2 / MsPerMinute
    requires Save(log, e1, t1).Some?
    ensures Save(Save(log, e1, t1).value, e2, t2).None?
  {
    SameMinute(t1, t2);
    var l := Save(log, e1, t1).value;
    assert l[|log|].uniqueHash == PreSave(e2, t2).uniqueHash;
  }

  /** The same two saves a minute or more apart are both stored. */
  lemma NextMinuteAdmitted(e1: Activity, e2: Activity, t1: nat, t2: nat)
    requires e1.userId == e2.userId != "" && e1.action == e2.action != "" && e1.success == e2.success
    requires e1.uniqueHash.None? && e2.uniqueHash.None?
    requires t1 / MsPerMinute != t2 / MsPerMinute
    ensures Save([], e1, t1).Some?
    ensures Save(Save([], e1, t1).value, e2, t2).Some?
  {
    SameMinute(t1, t2);
    HashSeparatesMinutes(e1.userId, e1.action, e1.success, MinuteRounded(t1), MinuteRounded(t2));
    var l := Save([], e1, t1).value;
    assert l == [PreSave(e1, t1)];
  }
}

=== FILE: auth.dfy ===
/** Sign-up, sign-in and the guards in front of the pages and the API:
    controllers/auth.controller.js (`register`, `login`, `logout`),
    middleware/auth.middleware.js (`requireAuth`, `protect`, `isLoggedIn`,
    `extractTokenFromRequest`), routes/auth.route.js (the inline `login`,
    `auth-status`, the `cleanupTokens` fallback) and
    routes/clientViews.route.js (`ensureValidUser`, the query-token
    redirect, the `/login` page). Token signing and checking are the
    parameter `verify`; password checking is the parameter `matches`. */
module Auth {
  import opened Wrappers
  import opened Text
  import opened Lists
  import Avatar
  import Users
  import Discussion
  import Forum

  // ---------------------------------------------------------------- where a token comes from

  /** The places a request can carry a token; the empty string is an
      absent (or falsy) value. */
  datatype Request = Request(queryToken: string, authorization: string, jwtCookie: string, tokenCookie: string)

  /** `requireAuth` and `protect`: the `jwt_token` cookie, replaced by a
      `Bearer ` header's rest, then the `token` cookie if nothing is left. */
  function GuardToken(q: Request): (r: string)
    ensures StartsWith(q.authorization, "Bearer ") && |q.authorization| > 7 ==> r == q.authorization[7..]
    ensures !StartsWith(q.authorization, "Bearer ") && q.jwtCookie != "" ==> r == q.jwtCookie
    ensures r == "" ==> q.tokenCookie == ""
    ensures r != "" ==> r == q.jwtCookie || r == q.tokenCookie || (StartsWith(q.authorization, "Bearer ") && r == q.authorization[7..])
  {
    var t := if StartsWith(q.authorization, "Bearer ") then q.authorization[7..] else q.jwtCookie;
    if t == "" && q.tokenCookie != "" then q.tokenCookie else t
  }

  /** `authHeader.split(' ')[1]`, `undefined` when there is no space. */
  function SecondWord(s: string): (r: Option<string>)
    ensures r.Some? ==> ' ' !in r.value
    ensures ' ' !in s ==> r.None?
  {
    var parts := Split(s, ' ');
    if |parts| > 1 then Some(parts[1]) else None
  }

  /** The second word of `Bearer <t>` is `t` when `t` holds no space. */
  lemma BearerWord(t: string)
    requires ' ' !in t
    ensures SecondWord("Bearer " + t) == Some(t)
  {
    var parts := ["Bearer", t];
    assert Join(parts, ' ') == "Bearer " + t by {
      assert parts[1..] == [t];
    }
    SplitJoin(parts, ' ');
  }

  /** `extractTokenFromRequest`: query, then a header starting `Bearer`
      (its second word, possibly none), then the `jwt_token` cookie, then
      the `token` cookie. */
  function ExtractToken(q: Request): (r: Option<string>)
    ensures q.queryToken != "" ==> r == Some(q.queryToken)
    ensures q.queryToken == "" && StartsWith(q.authorization, "Bearer") ==> r == SecondWord(q.authorization)
    ensures q.queryToken == "" && !StartsWith(q.authorization, "Bearer") ==>
      r == (if q.jwtCookie != "" then Some(q.jwtCookie) else if q.tokenCookie != "" then Some(q.tokenCookie) else None)
  {
    if q.queryToken != "" then Some(q.queryToken)
    else if StartsWith(q.authorization, "Bearer") then SecondWord(q.authorization)
    else if q.jwtCookie != "" then Some(q.jwtCookie)
    else if q.tokenCookie != "" then Some(q.tokenCookie)
    else None
  }

  datatype TokenSource = Header | JwtCookie | TokenCookie | Query | NoSource

  /** `auth-status`: header, then `jwt_token`, then `token`, and the query
      parameter last. */
  function StatusToken(q: Request): (r: (TokenSource, Option<string>))
    ensures r.0 == NoSource <==> r.1.None? && !StartsWith(q.authorization, "Bearer")
    ensures r.0 == Query ==> r.1 == Some(q.queryToken) && q.jwtCookie == "" && q.tokenCookie == ""
  {
    if StartsWith(q.authorization, "Bearer") then (Header, SecondWord(q.authorization))
    else if q.jwtCookie != "" then (JwtCookie, Some(q.jwtCookie))
    else if q.tokenCookie != "" then (TokenCookie, Some(q.tokenCookie))
    else if q.queryToken != "" then (Query, Some(q.queryToken))
    else (NoSource, None)
  }

  /** Without a query token the status route and `isLoggedIn` pick the same
      token; with one, and a cookie beside it, they pick different places. */
  lemma StatusAndExtractOrder(q: Request)
    ensures q.queryToken == "" ==> StatusToken(q).1 == ExtractToken(q)
    ensures q.queryToken != "" && !StartsWith(q.authorization, "Bearer") && q.jwtCookie != "" ==>
      StatusToken(q) == (JwtCookie, Some(q.jwtCookie)) && ExtractToken(q) == Some(q.queryToken)
  {
  }

  /** A plain `Bearer <t>` header wins in every guard: all three token
      readers return `t`, whatever cookies come with it. */
  lemma BearerWinsEverywhere(q: Request, t: string)
    requires q.authorization == "Bearer " + t && t != "" && ' ' !in t && q.queryToken == ""
    ensures GuardToken(q) == t
    ensures ExtractToken(q) == Some(t)
    ensures StatusToken(q) == (Header, Some(t))
  {
    BearerWord(t);
    assert q.authorization[..7] == "Bearer ";
    assert q.authorization[..6] == "Bearer";
    assert q.authorization[7..] == t;
  }

  /** The guards and `isLoggedIn` disagree when a query token comes with a
      cookie: the guards ignore the query. */
  lemma GuardIgnoresQuery(q: Request)
    requires q.queryToken != "" && q.jwtCookie != "" && q.queryToken != q.jwtCookie
    requires !StartsWith(q.authorization, "Bearer")
    ensures GuardToken(q) == q.jwtCookie && ExtractToken(q) == Some(q.queryToken)
  {
  }

  // ---------------------------------------------------------------- checking the token

  /** The payload every signing site puts in a token. It has no role. */
  datatype Claims = Claims(id: Id, name: string, username: string, email: string, phone: string)

  datatype TokenStatus = Missing | Valid(claims: Claims) | Invalid

  /** `auth-status`'s `tokenStatus`. */
  function Status(token: Option<string>, verify: string -> Option<Claims>): (r: TokenStatus)
    ensures r == Missing <==> token.None? || token.value == ""
    ensures r.Valid? <==> token.Some? && token.value != "" && verify(token.value).Some?
    ensures r.Valid? ==> Some(r.claims) == verify(token.value)
  {
    if token.None? || token.value == "" then Missing
    else match verify(token.value)
      case None => Invalid
      case Some(c) => Valid(c)
  }

  /** The stored fields the guards read: the avatar (empty when unset)
      and the role. */
  datatype Stored = Stored(avatar: string, role: string)

  datatype Denial = NoToken | BadToken | NoId | NoUser

  /** The user a guard attaches to the request. `role` is whatever the
      token says, which is nothing. */
  datatype Principal = Principal(id: Id, name: string, username: string, avatar: Option<string>, role: string)

  datatype Guarded = Denied(why: Denial) | Admitted(user: Principal)

  /** `requireAuth`: a token, one that verifies, with an id; the stored
      avatar is copied onto the user when there is one. Every denial is a
      401. */
  function RequireAuth(q: Request, verify: string -> Option<Claims>, store: map<Id, Stored>): (r: Guarded)
    ensures r == Denied(NoToken) <==> GuardToken(q) == ""
    ensures r.Admitted? <==> GuardToken(q) != "" && verify(GuardToken(q)).Some? && verify(GuardToken(q)).value.id != ""
    ensures r.Admitted? ==> r.user.id == verify(GuardToken(q)).value.id && r.user.role == ""
    ensures r.Admitted? ==> (r.user.avatar.Some? <==> r.user.id in store && store[r.user.id].avatar != "")
  {
    var t := GuardToken(q);
    if t == "" then Denied(NoToken)
    else match verify(t)
      case None => Denied(BadToken)
      case Some(c) =>
        if c.id == "" then Denied(NoId)
        else
          var avatar := if c.id in store && store[c.id].avatar != "" then Some(store[c.id].avatar) else None;
          Admitted(Principal(c.id, c.name, c.username, avatar, ""))
  }

  /** `protect`'s avatar: the stored one or the default, with `/` put in
      front of a path that starts with neither `/` nor `http`. */
  function ProtectAvatar(stored: string): (r: string)
    ensures Avatar.Usable(r)
    ensures stored == "" ==> r == Avatar.DefaultAvatar
    ensures stored != "" && Avatar.Usable(stored) ==> r == stored
  {
    var a := if stored == "" then Avatar.DefaultAvatar else stored;
    assert Avatar.DefaultAvatar[..1] == "/";
    if !StartsWith(a, "/") && !StartsWith(a, "http") then
      assert ("/" + a)[..1] == "/";
      "/" + a
    else a
  }

  /** `protect` agrees with the shared avatar rule except on a blank,
      non-empty avatar, which it keeps as a relative path instead of
      replacing it by the default. */
  lemma ProtectAvatarVsRule(stored: string)
    ensures !IsBlank(stored) ==> ProtectAvatar(stored) == Avatar.NormalizeAvatar(Some(stored))
    ensures stored == "" ==> ProtectAvatar(stored) == Avatar.NormalizeAvatar(Some(stored))
    ensures stored != "" && IsBlank(stored) ==>
      ProtectAvatar(stored) == "/" + stored && Avatar.NormalizeAvatar(Some(stored)) == Avatar.DefaultAvatar
  {
    if stored != "" && IsBlank(stored) {
      assert IsSpace(stored[0]);
      assert !StartsWith(stored, "/") && !StartsWith(stored, "http");
    }
  }

  /** `protect`: as `requireAuth`, and the account must still exist; the
      attached user carries the token's fields, `_id`, and the avatar. */
  function Protect(q: Request, verify: string -> Option<Claims>, store: map<Id, Stored>): (r: Guarded)
    ensures r.Admitted? <==> (GuardToken(q) != "" && verify(GuardToken(q)).Some?
      && verify(GuardToken(q)).value.id != "" && verify(GuardToken(q)).value.id in store)
    ensures r.Admitted? ==>
      && r.user.id == verify(GuardToken(q)).value.id
      && r.user.avatar == Some(ProtectAvatar(store[r.user.id].avatar))
      && r.user.role == ""
  {
    var t := GuardToken(q);
    if t == "" then Denied(NoToken)
    else match verify(t)
      case None => Denied(BadToken)
      case Some(c) =>
        if c.id == "" then Denied(NoId)
        else if c.id !in store then Denied(NoUser)
        else Admitted(Principal(c.id, c.name, c.username, Some(ProtectAvatar(store[c.id].avatar)), ""))
  }

  /** As written, `deletePost` behind `protect` never sees an admin: the
      token has no role, so an administrator's request to delete someone
      else's post is refused with 403. */
  lemma AdminRoleNeverReachesDelete(
    q: Request, verify: string -> Option<Claims>, store: map<Id, Stored>,
    b: Forum.Board, postId: Id)
    requires Protect(q, verify, store).Admitted?
    requires Discussion.FindPost(b.posts, postId).Some?
    requires b.posts[Discussion.FindPost(b.posts, postId).value].author != Protect(q, verify, store).user.id
    ensures var u := Protect(q, verify, store).user;
      Discussion.DeletePost(b, Discussion.Caller(u.id, u.role), postId).0 == 403
  {
  }

  /** The guard with the role read from the stored account, as the admin
      branch of `deletePost` needs. */
  function ProtectWithRole(q: Request, verify: string -> Option<Claims>, store: map<Id, Stored>): (r: Guarded)
    ensures r.Admitted? <==> Protect(q, verify, store).Admitted?
    ensures r.Admitted? ==> r.user.id in store
    ensures r.Admitted? ==> r.user == Protect(q, verify, store).user.(role := store[r.user.id].role)
  {
    match Protect(q, verify, store)
    case Denied(why) => Denied(why)
    case Admitted(u) => Admitted(u.(role := store[u.id].role))
  }

  /** With the role read from the account, an administrator may delete
      any post, and still edit none but their own. */
  lemma AdminDeletesWithRole(
    q: Request, verify: string -> Option<Claims>, store: map<Id, Stored>,
    b: Forum.Board, postId: Id, body: Discussion.PostBody)
    requires ProtectWithRole(q, verify, store).Admitted?
    requires store[ProtectWithRole(q, verify, store).user.id].role == Discussion.AdminRole
    requires Discussion.FindPost(b.posts, postId).Some?
    requires b.posts[Discussion.FindPost(b.posts, postId).value].author != ProtectWithRole(q, verify, store).user.id
    ensures var u := ProtectWithRole(q, verify, store).user;
      && Discussion.DeletePost(b, Discussion.Caller(u.id, u.role), postId).0 == 200
      && Discussion.EditPost(b, Discussion.Caller(u.id, u.role), postId, body).0 == 403
  {
    var u := ProtectWithRole(q, verify, store).user;
    Discussion.AdminDeletesButCannotEdit(b, Discussion.Caller(u.id, u.role), postId, body);
  }

  // ---------------------------------------------------------------- isLoggedIn

  /** What `isLoggedIn` leaves in `res.locals`, and whether it cleared the
      token cookies. It always passes the request on. */
  datatype Session = Session(loggedIn: bool, user: Option<Avatar.User>, cleared: bool)

  /** `isLoggedIn`: a token that verifies and names an existing account
      signs the user in, with a normalised avatar; a token that does not
      verify clears the cookies. */
  function IsLoggedIn(q: Request, verify: string -> Option<Claims>, store: map<Id, Stored>): (r: Session)
    ensures r.loggedIn <==> r.user.Some?
    ensures r.cleared ==> !r.loggedIn
    ensures r.cleared <==> ExtractToken(q).Some? && ExtractToken(q).value != "" && verify(ExtractToken(q).value).None?
    ensures r.loggedIn <==> (ExtractToken(q).Some? && ExtractToken(q).value != "" && verify(ExtractToken(q).value).Some?
      && verify(ExtractToken(q).value).value.id in store)
    ensures r.loggedIn ==> r.user.value.avatar.Text? && Avatar.Usable(r.user.value.avatar.s)
    ensures r.loggedIn ==> r.user.value.id == verify(ExtractToken(q).value).value.id
  {
    var t := ExtractToken(q);
    if t.None? || t.value == "" then Session(false, None, false)
    else match verify(t.value)
      case None => Session(false, None, true)
      case Some(c) =>
        if c.id !in store then Session(false, None, false)
        else
          var a := store[c.id].avatar;
          var u := Avatar.User(c.id, c.name, c.username, c.email, "", Avatar.Text(if a == "" then Avatar.DefaultAvatar else a));
          Session(true, Some(Avatar.WithValidAvatar(u)), false)
  }

  // ---------------------------------------------------------------- register, login, logout

  /** `register`'s username rule: at least six characters from
      `[A-Za-z0-9_]`. */
  predicate UsernameChar(c: char) {
    ('a' <= c <= 'z') || ('A' <= c <= 'Z') || ('0' <= c <= '9') || c == '_'
  }

  predicate ValidUsername(u: string) {
    |u| >= 6 && forall i :: 0 <= i < |u| ==> UsernameChar(u[i])
  }

  datatype SignUp = SignUp(name: string, username: string, email: string, phone: string, password: string)

  datatype RegisterOutcome = EmailInUse | UsernameInUse | BadUsername | Registered

  predicate EmailUsed(users: Users.Accounts, email: string) {
    exists k | k in users :: users[k].email == email
  }

  predicate UsernameUsed(users: Users.Accounts, username: string) {
    exists k | k in users :: users[k].username == username
  }

  /** `register`: the email, then the username, must be unused, then the
      username must be well formed; the new account gets `newId` and the
      password's hash `hash`. */
  function Register(users: Users.Accounts, s: SignUp, newId: Id, hash: string): (r: (RegisterOutcome, Users.Accounts))
    requires newId !in users
    ensures r.0 == EmailInUse <==> EmailUsed(users, s.email)
    ensures r.0 == UsernameInUse <==> !EmailUsed(users, s.email) && UsernameUsed(users, s.username)
    ensures r.0 == BadUsername <==> !EmailUsed(users, s.email) && !UsernameUsed(users, s.username) && !ValidUsername(s.username)
    ensures r.0 != Registered ==> r.1 == users
    ensures r.0 == Registered ==>
      && ValidUsername(s.username)
      && r.1.Keys == users.Keys + {newId}
      && r.1[newId] == Users.Account(s.name, s.username, s.email, s.phone, hash, [], [], [])
      && (forall k :: k in users ==> r.1[k] == users[k])
  {
    if EmailUsed(users, s.email) then (EmailInUse, users)
    else if UsernameUsed(users, s.username) then (UsernameInUse, users)
    else if !ValidUsername(s.username) then (BadUsername, users)
    else (Registered, users[newId := Users.Account(s.name, s.username, s.email, s.phone, hash, [], [], [])])
  }

  /** Registration keeps usernames and emails unique. */
  lemma RegisterKeepsLoginsUnique(users: Users.Accounts, s: SignUp, newId: Id, hash: string)
    requires newId !in users && Users.UniqueLogins(users)
    ensures Users.UniqueLogins(Register(users, s, newId, hash).1)
  {
    var r := Register(users, s, newId, hash);
    if r.0 == Registered {
      forall a, b | a in r.1 && b in r.1 && a != b
        ensures r.1[a].username != r.1[b].username && r.1[a].email != r.1[b].email
      {
        if a == newId {
          assert !(users[b].username == s.username);
          assert !(users[b].email == s.email);
        } else if b == newId {
          assert !(users[a].username == s.username);
          assert !(users[a].email == s.email);
        }
      }
    }
  }

  /** The one message every failed sign-in gets. */
  const LoginFailed: string := "Tên đăng nhập hoặc mật khẩu không đúng"

  datatype LoginReply = LoginOk(userId: Id, redirectTo: string) | LoginRefused(message: string)

  /** The activity a sign-in attempt logs: the user (none when unknown)
      and whether it succeeded. */
  datatype LoginLog = LoginLog(userId: Option<Id>, success: bool)

  /** The sign-in route: an unknown username and a wrong password are
      answered alike; a success sends the client to `redirectTo`, or
      `/home`. Usernames are looked up by the parameter `byName`. */
  function Login(
    byName: string -> Option<Id>, users: Users.Accounts,
    username: string, password: string, redirectTo: string,
    matches: (string, string) -> bool): (r: (LoginReply, LoginLog))
    ensures r.0.LoginOk? <==> (byName(username).Some? && byName(username).value in users
      && matches(password, users[byName(username).value].password))
    ensures r.0.LoginRefused? ==> r.0.message == LoginFailed && !r.1.success
    ensures r.0.LoginOk? ==> r.0.redirectTo == (if redirectTo == "" then "/home" else redirectTo)
    ensures r.0.LoginOk? ==> r.0.userId == byName(username).value && r.1.userId == Some(r.0.userId)
    ensures r.1.success <==> r.0.LoginOk?
    ensures r.1.userId.None? <==> byName(username).None? || byName(username).value !in users
  {
    match byName(username)
    case Some(id) =>
      if id in users then
        var ok := matches(password, users[id].password);
        if ok then (LoginOk(id, if redirectTo == "" then "/home" else redirectTo), LoginLog(Some(id), true))
        else (LoginRefused(LoginFailed), LoginLog(Some(id), false))
      else (LoginRefused(LoginFailed), LoginLog(None, false))
    case None => (LoginRefused(LoginFailed), LoginLog(None, false))
  }

  /** The reply does not tell an unknown user from a wrong password. */
  lemma LoginFailuresAlike(
    byName: string -> Option<Id>, users: Users.Accounts,
    u1: string, p1: string, u2: string, p2: string, redirectTo: string,
    matches: (string, string) -> bool)
    requires byName(u1).None?
    requires byName(u2).Some? && byName(u2).value in users && !matches(p2, users[byName(u2).value].password)
    ensures Login(byName, users, u1, p1, redirectTo, matches).0 == Login(byName, users, u2, p2, redirectTo, matches).0
  {
  }

  /** The cookies a browser holds, by name. */
  type Jar = map<string, string>

  /** `logout` and `cleanupTokens`: both token cookies are cleared, under
      every option set they may have been written with; nothing else
      changes. */
  function ClearTokens(jar: Jar): (r: Jar)
    ensures "jwt_token" !in r && "token" !in r
    ensures forall k :: k in jar && k != "jwt_token" && k != "token" ==> k in r && r[k] == jar[k]
    ensures r.Keys <= jar.Keys
  {
    jar - {"jwt_token", "token"}
  }

  /** The request a browser sends with only its cookies. */
  function CookieRequest(jar: Jar): Request {
    Request("", "",
      if "jwt_token" in jar then jar["jwt_token"] else "",
      if "token" in jar then jar["token"] else "")
  }

  /** After signing out, a request with only cookies passes no guard and
      signs nobody in. */
  lemma LogoutEndsSession(jar: Jar, verify: string -> Option<Claims>, store: map<Id, Stored>)
    ensures RequireAuth(CookieRequest(ClearTokens(jar)), verify, store) == Denied(NoToken)
    ensures Protect(CookieRequest(ClearTokens(jar)), verify, store) == Denied(NoToken)
    ensures !IsLoggedIn(CookieRequest(ClearTokens(jar)), verify, store).loggedIn
  {
    assert !StartsWith("", "Bearer ");
  }

  /** Which `cleanupTokens` the route uses: the controller's, or the
      route's own fallback when the controller has none. */
  datatype Cleanup = ControllerCleanup | RouteFallback

  function InstalledCleanup(controllerHasIt: bool): (r: Cleanup)
    ensures r == RouteFallback <==> !controllerHasIt
  {
    if controllerHasIt then ControllerCleanup else RouteFallback
  }

  /** What a cleanup does: the jar after it and where it redirects. */
  function RunCleanup(c: Cleanup, jar: Jar): (r: (Jar, string))
    ensures r.0 == ClearTokens(jar)
    ensures r.1 == "/login?cleaned=true"
  {
    match c
    case ControllerCleanup => (ClearTokens(jar), "/login?cleaned=true")
    case RouteFallback => (ClearTokens(jar), "/login?cleaned=true")
  }

  /** Whichever cleanup the route ends up with, it ends the session: the
      browser lands on `/login?cleaned=true`, and its cookies alone pass
      no guard and sign nobody in. */
  lemma CleanupEndsSession(controllerHasIt: bool, jar: Jar, verify: string -> Option<Claims>, store: map<Id, Stored>)
    ensures var r := RunCleanup(InstalledCleanup(controllerHasIt), jar);
      && r.1 == "/login?cleaned=true"
      && RequireAuth(CookieRequest(r.0), verify, store) == Denied(NoToken)
      && Protect(CookieRequest(r.0), verify, store) == Denied(NoToken)
      && !IsLoggedIn(CookieRequest(r.0), verify, store).loggedIn
  {
    LogoutEndsSession(jar, verify, store);
  }

  // ---------------------------------------------------------------- the page routes

  /** `ensureValidUser`: `res.locals.user`, else `req.user`, with its
      avatar made usable. */
  function EnsureValidUser(locals: Option<Avatar.User>, reqUser: Option<Avatar.User>): (r: Option<Avatar.User>)
    ensures r.None? <==> locals.None? && reqUser.None?
    ensures r.Some? ==> r.value.avatar.Text? && Avatar.Usable(r.value.avatar.s)
    ensures locals.Some? ==> r.value == locals.value.(avatar := r.value.avatar)
    ensures locals.None? && reqUser.Some? ==> r.value == reqUser.value.(avatar := r.value.avatar)
  {
    var u := if locals.Some? then locals else reqUser;
    match u
    case None => None
    case Some(v) =>
      var a := if v.avatar.Text? then v.avatar.s else "";
      if a == "" || !StartsWith(a, "/") then
        if a == "" || IsBlank(a) then
          assert Avatar.DefaultAvatar[..1] == "/";
          Some(v.(avatar := Avatar.Text(Avatar.DefaultAvatar)))
        else if !StartsWith(a, "http") then
          assert ("/" + a)[..1] == "/";
          Some(v.(avatar := Avatar.Text("/" + a)))
        else Some(v)
      else Some(v)
  }

  /** The page routes' rule is the shared avatar rule on string avatars. */
  lemma EnsureValidUserAgrees(u: Avatar.User, s: string)
    requires u.avatar == Avatar.Text(s)
    ensures EnsureValidUser(Some(u), None) == Some(u.(avatar := Avatar.Text(Avatar.NormalizeAvatar(Some(s)))))
  {
    if s != "" && StartsWith(s, "/") {
      assert !IsBlank(s) by { assert s[0] == '/'; }
    }
  }

  /** A query parameter. */
  datatype Param = Param(key: string, value: string)

  /** `searchParams.delete('token')`. */
  function DropToken(ps: seq<Param>): (r: seq<Param>)
    ensures forall i :: 0 <= i < |r| ==> r[i].key != "token"
    ensures forall p :: p in ps && p.key != "token" ==> p in r
    ensures forall p :: p in r ==> p in ps
    ensures |r| <= |ps|
    decreases |ps|
  {
    if |ps| == 0 then []
    else if ps[0].key == "token" then DropToken(ps[1..])
    else [ps[0]] + DropToken(ps[1..])
  }

  /** What the query-token middleware does. */
  datatype Step = Next | SetCookieAndRedirect(cookie: string, path: string, params: seq<Param>)

  /** No `token` parameter among the first `n`. */
  predicate NoTokenBefore(ps: seq<Param>, n: nat)
    requires n <= |ps|
  {
    forall j :: 0 <= j < n ==> ps[j].key != "token"
  }

  /** `req.query.token` when the key occurs at most once: the value of the
      `token` parameter, or nothing when there is none. With the key
      repeated the model still takes the first value, where the query
      parser hands the handler an array of all of them. */
  function TokenParam(ps: seq<Param>): (r: string)
    ensures r != "" ==> exists i :: 0 <= i < |ps| && ps[i].key == "token" && ps[i].value == r
    ensures forall i :: 0 <= i < |ps| && ps[i].key == "token" && NoTokenBefore(ps, i) ==> r == ps[i].value
    ensures NoTokenBefore(ps, |ps|) ==> r == ""
  {
    if |ps| == 0 then ""
    else if ps[0].key == "token" then ps[0].value
    else TokenParam(ps[1..])
  }

  /** A `token` in the query is stored as the `jwt_token` cookie and the
      browser sent back to the same path without it. */
  function QueryTokenStep(path: string, ps: seq<Param>): (r: Step)
    ensures r.Next? <==> TokenParam(ps) == ""
    ensures r.SetCookieAndRedirect? ==> r.cookie == TokenParam(ps) && r.path == path && r.params == DropToken(ps)
  {
    var t := TokenParam(ps);
    if t == "" then Next else SetCookieAndRedirect(t, path, DropToken(ps))
  }

  /** The redirect does not loop: the address it sends the browser to
      passes the middleware, and the cookie it set is the token the next
      request is signed in with. */
  lemma QueryTokenRedirectSettles(path: string, ps: seq<Param>)
    requires QueryTokenStep(path, ps).SetCookieAndRedirect?
    ensures var s := QueryTokenStep(path, ps);
      && QueryTokenStep(s.path, s.params) == Next
      && ExtractToken(Request("", "", s.cookie, "")) == Some(s.cookie)
  {
    var s := QueryTokenStep(path, ps);
    NoTokenParam(s.params);
  }

  lemma NoTokenParam(ps: seq<Param>)
    requires forall i :: 0 <= i < |ps| ==> ps[i].key != "token"
    ensures TokenParam(ps) == ""
  {
    if |ps| > 0 {
      NoTokenParam(ps[1..]);
    }
  }

  /** The `/login` query flags, each `true` or not. */
  datatype LoginQuery = LoginQuery(loopDetected: bool, loopFixed: bool, noRedirect: bool, redirect: string)

  datatype LoginPage = Redirect(to: string) | Render(redirectTo: string, loopDetected: bool, loopFixed: bool)

  /** `GET /login`: the loop flags are answered first, with the form; a
      signed-in user is then sent home; otherwise the form carries where to
      go after signing in. */
  function LoginRoute(q: LoginQuery, loggedIn: bool): (r: LoginPage)
    ensures q.loopDetected || q.loopFixed ==> r == Render("/home", q.loopDetected, q.loopFixed)
    ensures r.Redirect? <==> loggedIn && !q.loopDetected && !q.loopFixed
    ensures r.Redirect? ==> r.to == "/home"
    ensures r.Render? ==> r.redirectTo != ""
    ensures r.Render? && !q.loopDetected && !q.loopFixed ==>
      r.redirectTo == (if q.noRedirect || q.redirect == "" then "/home" else q.redirect)
  {
    if q.loopDetected || q.loopFixed then Render("/home", q.loopDetected, q.loopFixed)
    else if loggedIn then Redirect("/home")
    else Render(if q.noRedirect then "/home" else if q.redirect == "" then "/home" else q.redirect, false, false)
  }

  /** `GET /register`: a signed-in user is sent home. */
  function RegisterRoute(loggedIn: bool): (r: LoginPage)
    ensures r.Redirect? <==> loggedIn
    ensures loggedIn ==> r == Redirect("/home")
  {
    if loggedIn then Redirect("/home") else Render("", false, false)
  }
}

=== FILE: avatar.dfy ===
/** Avatar path normalisation. The same rule is written out in three
    places: `ensureValidAvatarPath` of controllers/discussion.controller.js,
    the avatar middleware of server.js, and a stricter copy in
    middleware/auth.middleware.js. */
module Avatar {
  import opened Wrappers
  import opened Text

  const DefaultAvatar: string := "/assets/images/avatars/default.png"

  /** A path the templates can use as it is: a URL or a site-absolute
      path. */
  predicate Usable(p: string) {
    StartsWith(p, "http") || StartsWith(p, "/")
  }

  /** The discussion controller's and server.js's rule: a missing, empty
      or blank avatar becomes the default, a relative one gets a leading
      `/`, anything else is kept. */
  function NormalizeAvatar(a: Option<string>): (r: string)
    ensures Usable(r)
    ensures a.None? || IsBlank(a.value) ==> r == DefaultAvatar
    ensures a.Some? && Usable(a.value) ==> r == a.value
    ensures a.Some? && !IsBlank(a.value) && !Usable(a.value) ==> r == "/" + a.value
  {
    if a.None? || IsBlank(a.value) then
      assert a.Some? ==> !Usable(a.value) by {
        if a.Some? && |a.value| > 0 { assert IsSpace(a.value[0]); }
      }
      assert DefaultAvatar[..1] == "/";
      DefaultAvatar
    else if !Usable(a.value) then
      assert ("/" + a.value)[..1] == "/";
      "/" + a.value
    else a.value
  }

  /** Normalising twice is normalising once. */
  lemma NormalizeIdempotent(a: Option<string>)
    ensures NormalizeAvatar(Some(NormalizeAvatar(a))) == NormalizeAvatar(a)
  {
    var r := NormalizeAvatar(a);
    assert r[0] == '/' || r[0] == 'h';
    assert !IsBlank(r) by {
      assert !IsSpace(r[0]);
    }
  }

  /** What the stricter copy can find in the `avatar` field: nothing, a
      string, or a value of another type. */
  datatype AvatarField = Absent | Text(s: string) | Other

  /** The middleware's rule: besides the above, a value that is not a
      string, or the string "undefined", becomes the default. */
  function NormalizeAvatarField(a: AvatarField): (r: string)
    ensures Usable(r)
  {
    match a
    case Absent => NormalizeAvatar(None)
    case Other => NormalizeAvatar(None)
    case Text(s) => if s == "undefined" then NormalizeAvatar(None) else NormalizeAvatar(Some(s))
  }

  /** The two rules agree on every string except "undefined", which only
      the middleware treats as missing. */
  lemma FieldRuleAgrees(s: string)
    ensures s != "undefined" ==> NormalizeAvatarField(Text(s)) == NormalizeAvatar(Some(s))
    ensures NormalizeAvatarField(Text("undefined")) == DefaultAvatar != NormalizeAvatar(Some("undefined"))
  {
    assert !IsBlank("undefined") by {
      assert !IsSpace("undefined"[0]);
    }
    assert !Usable("undefined") by {
      assert "undefined"[0] == 'u';
    }
  }

  /** The user fields the views read. */
  datatype User = User(id: string, name: string, username: string, email: string, role: string, avatar: AvatarField)

  /** `ensureValidAvatarPath` of the middleware: a copy of the user whose
      avatar is normalised, every other field as it was. */
  function WithValidAvatar(u: User): (r: User)
    ensures r.avatar.Text? && Usable(r.avatar.s)
    ensures r == u.(avatar := r.avatar)
    ensures r.avatar == Text(NormalizeAvatarField(u.avatar))
  {
    u.(avatar := Text(NormalizeAvatarField(u.avatar)))
  }

  /** Normalising an already normalised user changes nothing. */
  lemma WithValidAvatarIdempotent(u: User)
    ensures WithValidAvatar(WithValidAvatar(u)) == WithValidAvatar(u)
  {
    var p := NormalizeAvatarField(u.avatar);
    assert p != "undefined" by {
      assert p[0] == '/' || p[0] == 'h';
    }
    NormalizeIdempotent(match u.avatar case Text(s) => (if s == "undefined" then None else Some(s)) case _ => None);
  }
}

=== FILE: calendar.dfy ===
/** Calendar events: the record and its save hooks
    (models/calendar-event.model.js) and the REST handlers over a user's
    events (controllers/calendar.controller.js). Instants are integer local
    milliseconds, as in `Clock`. */
module Calendar {
  import opened Wrappers
  import opened Text
  import opened Clock
  import Lists

  // ---------------------------------------------------------------- types, colours, labels

  /** The six values of the event `type` enum; unlike suggestions, `exam`
      is one of them. */
  datatype EventType = StudySession | Assignment | ExamPrep | Exam | GroupStudy | StudyBreak

  function TypeName(t: EventType): string {
    match t
    case StudySession => "study-session"
    case Assignment => "assignment"
    case ExamPrep => "exam-prep"
    case Exam => "exam"
    case GroupStudy => "group-study"
    case StudyBreak => "study-break"
  }

  /** The enum validator. */
  function ParseType(s: string): (r: Option<EventType>)
    ensures r.Some? ==> TypeName(r.value) == s
    ensures forall t :: TypeName(t) == s ==> r == Some(t)
  {
    if s == "study-session" then Some(StudySession)
    else if s == "assignment" then Some(Assignment)
    else if s == "exam-prep" then Some(ExamPrep)
    else if s == "exam" then Some(Exam)
    else if s == "group-study" then Some(GroupStudy)
    else if s == "study-break" then Some(StudyBreak)
    else None
  }

  const DefaultType: string := "study-session"

  /** The colour map of the colour hook. */
  function TypeColor(t: EventType): string {
    match t
    case StudySession => "#4e73df"
    case Assignment => "#36b9cc"
    case ExamPrep => "#f6c23e"
    case Exam => "#e74a3b"
    case GroupStudy => "#1cc88a"
    case StudyBreak => "#858796"
  }

  /** The schema default of both colour fields. */
  const DefaultColor: string := "#4e73df"

  /** `colorMap[type] || colorMap['study-session']`. */
  function ColorFor(kind: string): string {
    match ParseType(kind)
    case Some(t) => TypeColor(t)
    case None => TypeColor(StudySession)
  }

  /** Each type has its own colour, the default colour is the study-session
      one, and every string gets one of the six colours. */
  lemma ColorsIdentifyTypes(a: EventType, b: EventType, kind: string)
    ensures TypeColor(a) == TypeColor(b) ==> a == b
    ensures ColorFor(TypeName(a)) == TypeColor(a)
    ensures ParseType(kind).None? ==> ColorFor(kind) == DefaultColor
    ensures exists t :: ColorFor(kind) == TypeColor(t)
  {
    if TypeColor(a) == TypeColor(b) {
      assert TypeColor(a)[1..3] == TypeColor(b)[1..3];
    }
    var t := ParseType(kind).GetOr(StudySession);
    assert ColorFor(kind) == TypeColor(t);
  }

  /** The labels of the statistics view (`getEventStats`). */
  const OtherLabel: string := "Khác"

  function TypeLabel(kind: string): string {
    match ParseType(kind)
    case Some(StudySession) => "Buổi học"
    case Some(Assignment) => "Bài tập"
    case Some(ExamPrep) => "Ôn thi"
    case Some(Exam) => "Kỳ thi"
    case Some(GroupStudy) => "Học nhóm"
    case Some(StudyBreak) => "Giải lao"
    case None => OtherLabel
  }

  /** Reading a label back: the type it names, if any. */
  function LabelType(name: string): (r: Option<EventType>) {
    if name == "Buổi học" then Some(StudySession)
    else if name == "Bài tập" then Some(Assignment)
    else if name == "Ôn thi" then Some(ExamPrep)
    else if name == "Kỳ thi" then Some(Exam)
    else if name == "Học nhóm" then Some(GroupStudy)
    else if name == "Giải lao" then Some(StudyBreak)
    else None
  }

  /** The label map is total and loses nothing: the label gives back the
      type, and only strings outside the enum get "Khác". */
  lemma LabelsIdentifyTypes(kind: string)
    ensures LabelType(TypeLabel(kind)) == ParseType(kind)
    ensures TypeLabel(kind) == OtherLabel <==> ParseType(kind).None?
  {
  }

  // ---------------------------------------------------------------- the record

  /** A stored event. `kind` is the stored `type` string: the save path
      validates it against the enum, the update path does not. */
  datatype Event = Event(
    id: nat,
    userId: string,
    title: string,
    start: int,
    end: Option<int>,
    allDay: bool,
    backgroundColor: string,
    borderColor: string,
    kind: string,
    description: string,
    completed: bool)

  /** What the first pre-save hook demands: no end before the start. */
  predicate Ordered(e: Event) {
    e.end.None? || e.start <= e.end.value
  }

  /** A record the save path can produce. */
  predicate Valid(e: Event) {
    && Trim(e.title) == e.title && e.title != ""
    && ParseType(e.kind).Some?
    && Ordered(e)
  }

  /** The user's events, with `next` above every id handed out. */
  datatype Calendar = Calendar(events: seq<Event>, next: nat)

  predicate WellFormed(c: Calendar) {
    && (forall i :: 0 <= i < |c.events| ==> c.events[i].id < c.next)
    && (forall i, j :: 0 <= i < j < |c.events| ==> c.events[i].id != c.events[j].id)
  }

  /** Position of the event with id `id` (`findById`). */
  function Find(events: seq<Event>, id: nat): (r: Option<nat>)
    ensures r.Some? ==> r.value < |events| && events[r.value].id == id
    ensures r.None? ==> forall i :: 0 <= i < |events| ==> events[i].id != id
  {
    Lists.FindKey(events, (e: Event) => e.id, id)
  }

  // ---------------------------------------------------------------- the all-day bump

  /** `toDateString()` equality: both instants fall on the same local day. */
  predicate SameDay(a: int, b: int) {
    DayOf(a) == DayOf(b)
  }

  /** An all-day event ending on its start date gets one more day; any
      other end is kept. */
  function BumpEnd(allDay: bool, start: int, end: Option<int>): (r: Option<int>)
    ensures r.None? <==> end.None?
    ensures allDay && end.Some? && SameDay(start, end.value) ==> r == Some(end.value + MsPerDay)
    ensures !(allDay && end.Some? && SameDay(start, end.value)) ==> r == end
  {
    if allDay && end.Some? && SameDay(start, end.value) then Some(end.value + MsPerDay) else end
  }

  /** After the bump an all-day event never ends on its start date, and it
      ends no earlier than it would have. */
  lemma BumpLeavesStartDay(allDay: bool, start: int, end: Option<int>)
    requires allDay && end.Some?
    ensures BumpEnd(allDay, start, end).Some?
    ensures !SameDay(start, BumpEnd(allDay, start, end).value)
    ensures BumpEnd(allDay, start, end).value >= end.value
  {
    var e := end.value;
    if SameDay(start, e) {
      assert DayOf(e + MsPerDay) == DayOf(e) + 1;
    }
  }

  // ---------------------------------------------------------------- saving

  /** The fields handed to `new CalendarEvent(...)`; `None` is `undefined`. */
  datatype NewEvent = NewEvent(
    userId: string,
    title: string,
    start: int,
    end: Option<int>,
    allDay: Option<bool>,
    backgroundColor: Option<string>,
    borderColor: Option<string>,
    kind: string,
    description: string)

  datatype SaveError = TitleRequired | TypeNotInEnum(given: string) | EndBeforeStart

  /** What the validators and the start/end hook accept. */
  predicate Acceptable(n: NewEvent) {
    Trim(n.title) != "" && ParseType(n.kind).Some? && (n.end.None? || n.start <= n.end.value)
  }

  /** The document `save()` stores for an acceptable event: the trimming
      setters and defaults applied, and the colour hook run. A colour given
      by the caller is kept; otherwise both colours come from the type. */
  function Record(n: NewEvent, id: nat): (e: Event)
    requires Acceptable(n)
    ensures Valid(e) && e.id == id && e.userId == n.userId
    ensures e.title == Trim(n.title) && e.description == Trim(n.description)
    ensures e.start == n.start && e.end == n.end && e.kind == n.kind
    ensures e.allDay == n.allDay.GetOr(false) && !e.completed
    ensures n.backgroundColor.None? ==> e.backgroundColor == ColorFor(n.kind) && e.borderColor == e.backgroundColor
    ensures n.backgroundColor.Some? ==>
      e.backgroundColor == n.backgroundColor.value && e.borderColor == n.borderColor.GetOr(DefaultColor)
  {
    var bg := if n.backgroundColor.Some? then n.backgroundColor.value else ColorFor(n.kind);
    var border := if n.backgroundColor.Some? then n.borderColor.GetOr(DefaultColor) else bg;
    TrimIdempotent(n.title);
    Event(id, n.userId, Trim(n.title), n.start, n.end, n.allDay.GetOr(false), bg, border,
          n.kind, Trim(n.description), false)
  }

  /** `save()`: the validators, then the start/end hook; the first refusal
      is the error. */
  function SaveNew(n: NewEvent, id: nat): (r: Result<Event, SaveError>)
    ensures r.Success? <==> Acceptable(n)
    ensures r.Failure? && Trim(n.title) == "" ==> r.error == TitleRequired
    ensures r.Failure? && Trim(n.title) != "" && ParseType(n.kind).Some? ==> r.error == EndBeforeStart
    ensures r.Success? ==> r.value == Record(n, id)
  {
    if Trim(n.title) == "" then Failure(TitleRequired)
    else if ParseType(n.kind).None? then Failure(TypeNotInEnum(n.kind))
    else if n.end.Some? && n.start > n.end.value then Failure(EndBeforeStart)
    else Success(Record(n, id))
  }

  // ---------------------------------------------------------------- handlers

  /** A request body: `None` is a missing field. Instants arrive already
      parsed. */
  datatype Body = Body(
    title: Option<string>,
    start: Option<int>,
    end: Option<int>,
    allDay: Option<bool>,
    backgroundColor: Option<string>,
    borderColor: Option<string>,
    kind: Option<string>,
    description: Option<string>)

  /** JavaScript truthiness of an optional string. */
  predicate Truthy(o: Option<string>) {
    o.Some? && o.value != ""
  }

  /** `x || fallback` on an optional string. */
  function OrElse(o: Option<string>, fallback: string): (r: string)
    ensures Truthy(o) ==> r == o.value
    ensures !Truthy(o) ==> r == fallback
  {
    if Truthy(o) then o.value else fallback
  }

  /** The record `createEvent` hands to `save()` once the title and the
      start are present: the type and description default, and an all-day
      end is bumped. */
  function Draft(userId: string, b: Body): (n: NewEvent)
    requires Truthy(b.title) && b.start.Some?
    ensures n.userId == userId && n.title == b.title.value && n.start == b.start.value
    ensures n.kind == OrElse(b.kind, DefaultType) && n.description == OrElse(b.description, "")
  {
    NewEvent(userId, b.title.value, b.start.value,
             BumpEnd(b.allDay == Some(true), b.start.value, b.end),
             b.allDay, b.backgroundColor, b.borderColor,
             OrElse(b.kind, DefaultType), OrElse(b.description, ""))
  }

  /** `createEvent`: 400 without a title or a start; 500 when the save
      hooks refuse the record; otherwise 201 and the event is appended. */
  function CreateEvent(c: Calendar, userId: string, b: Body): (r: (int, Calendar))
    ensures r.0 == 400 <==> !Truthy(b.title) || b.start.None?
    ensures r.0 == 500 <==> Truthy(b.title) && b.start.Some? && !Acceptable(Draft(userId, b))
    ensures r.0 == 201 <==> Truthy(b.title) && b.start.Some? && Acceptable(Draft(userId, b))
    ensures r.0 != 201 ==> r.1 == c
    ensures r.0 in {201, 400, 500}
    ensures r.0 == 201 ==>
      && |r.1.events| == |c.events| + 1
      && r.1.events[..|c.events|] == c.events
      && r.1.next == c.next + 1
      && var e := r.1.events[|c.events|];
         && e.id == c.next && e.userId == userId && Valid(e)
         && e.title == Trim(b.title.value)
         && e.start == b.start.value
         && e.end == BumpEnd(b.allDay == Some(true), b.start.value, b.end)
         && e.kind == OrElse(b.kind, DefaultType)
         && e.description == Trim(OrElse(b.description, ""))
         && e.backgroundColor == b.backgroundColor.GetOr(ColorFor(e.kind))
  {
    if !Truthy(b.title) || b.start.None? then (400, c)
    else
      match SaveNew(Draft(userId, b), c.next)
      case Failure(_) => (500, c)
      case Success(e) => (201, Calendar(c.events + [e], c.next + 1))
  }

  /** Creating keeps the calendar well formed. */
  lemma CreateWellFormed(c: Calendar, userId: string, b: Body)
    requires WellFormed(c)
    ensures WellFormed(CreateEvent(c, userId, b).1)
  {
    var r := CreateEvent(c, userId, b);
    if r.0 == 201 {
      ExtendWellFormed(c, r.1);
    }
  }

  /** Appending an event that carries the next id keeps the calendar well
      formed. */
  lemma ExtendWellFormed(c: Calendar, d: Calendar)
    requires WellFormed(c)
    requires |d.events| == |c.events| + 1 && d.events[..|c.events|] == c.events
    requires d.events[|c.events|].id == c.next && d.next == c.next + 1
    ensures WellFormed(d)
  {
    forall i | 0 <= i < |c.events| ensures d.events[i] == c.events[i] {
      assert d.events[..|c.events|][i] == d.events[i];
    }
  }

  /** The event with id `id` exists and belongs to `userId`. */
  predicate OwnedBy(c: Calendar, userId: string, id: nat) {
    Find(c.events, id).Some? && c.events[Find(c.events, id).value].userId == userId
  }

  /** The event with id `id` exists and belongs to someone else. */
  predicate Foreign(c: Calendar, userId: string, id: nat) {
    Find(c.events, id).Some? && c.events[Find(c.events, id).value].userId != userId
  }

  /** Where the lookup and the ownership check of `updateEvent`,
      `deleteEvent` and `getEventById` land: 404, 403 or the position. */
  function Authorize(c: Calendar, userId: string, id: nat): (r: Result<nat, int>)
    ensures r.Failure? ==> r.error in {403, 404}
    ensures r.Failure? && r.error == 404 <==> Find(c.events, id).None?
    ensures r.Failure? && r.error == 403 <==> Foreign(c, userId, id)
    ensures r.Success? <==> OwnedBy(c, userId, id)
    ensures r.Success? ==> r.value == Find(c.events, id).value
    ensures r.Success? ==> r.value < |c.events| && c.events[r.value].id == id && c.events[r.value].userId == userId
  {
    match Find(c.events, id)
    case None => Failure(404)
    case Some(i) => if c.events[i].userId != userId then Failure(403) else Success(i)
  }

  /** The record `findByIdAndUpdate` leaves: a missing field keeps the stored
      value, `type` and `description` fall back to the stored ones when
      falsy. The schema's `trim` setters run on the title and description
      of the update; neither the validators nor the save hooks run. */
  function Merge(prev: Event, b: Body): (e: Event)
    ensures e.id == prev.id && e.userId == prev.userId
    ensures e.kind == OrElse(b.kind, prev.kind)
    ensures e.description == Trim(OrElse(b.description, prev.description))
    ensures b.title.Some? ==> e.title == Trim(b.title.value)
    ensures b.title.None? ==> e.title == prev.title
    ensures b.start.None? ==> e.start == prev.start
  {
    var end := if b.allDay == Some(true) && b.start.Some? && b.end.Some?
               then BumpEnd(true, b.start.value, b.end) else b.end;
    var title := if b.title.Some? then Trim(b.title.value) else prev.title;
    var description := Trim(OrElse(b.description, prev.description));
    Event(prev.id, prev.userId,
          title,
          b.start.GetOr(prev.start),
          if end.Some? then end else prev.end,
          b.allDay.GetOr(prev.allDay),
          b.backgroundColor.GetOr(prev.backgroundColor),
          b.borderColor.GetOr(prev.borderColor),
          OrElse(b.kind, prev.kind),
          description,
          prev.completed)
  }

  /** The merged title is trimmed when the stored one was, and the merged
      description always is. */
  lemma MergeTrimmed(prev: Event, b: Body)
    ensures Trim(prev.title) == prev.title ==> Trim(Merge(prev, b).title) == Merge(prev, b).title
    ensures Trim(Merge(prev, b).description) == Merge(prev, b).description
  {
    TrimIdempotent(OrElse(b.description, prev.description));
    if b.title.Some? {
      TrimIdempotent(b.title.value);
    }
  }

  /** Titles and descriptions stay trimmed under an update, as they are on
      creation. */
  lemma UpdateKeepsTrimmed(c: Calendar, userId: string, id: nat, b: Body)
    requires forall i :: 0 <= i < |c.events| ==> Trim(c.events[i].title) == c.events[i].title
    requires forall i :: 0 <= i < |c.events| ==> Trim(c.events[i].description) == c.events[i].description
    ensures var r := UpdateEvent(c, userId, id, b).1;
      && (forall i :: 0 <= i < |r.events| ==> Trim(r.events[i].title) == r.events[i].title)
      && (forall i :: 0 <= i < |r.events| ==> Trim(r.events[i].description) == r.events[i].description)
  {
    var r := UpdateEvent(c, userId, id, b);
    if r.0 == 200 {
      var k := Find(c.events, id).value;
      MergeTrimmed(c.events[k], b);
      forall i | 0 <= i < |r.1.events|
        ensures Trim(r.1.events[i].title) == r.1.events[i].title
        ensures Trim(r.1.events[i].description) == r.1.events[i].description
      {
        if i != k {
          assert r.1.events[i] == c.events[i];
        }
      }
    }
  }

  /** `updateEvent` as written: 404, 403, or 200 with the merged record,
      whatever it holds. */
  function UpdateEvent(c: Calendar, userId: string, id: nat, b: Body): (r: (int, Calendar))
    ensures r.0 in {200, 403, 404}
    ensures r.0 != 200 ==> r.1 == c
    ensures r.0 == 404 <==> Find(c.events, id).None?
    ensures r.0 == 403 <==> Foreign(c, userId, id)
    ensures r.0 == 200 <==> OwnedBy(c, userId, id)
    ensures r.0 == 200 ==> |r.1.events| == |c.events| && r.1.next == c.next
    ensures r.0 == 200 ==> var i := Find(c.events, id).value;
      r.1.events == c.events[i := Merge(c.events[i], b)]
  {
    match Authorize(c, userId, id)
    case Failure(code) => (code, c)
    case Success(i) => (200, c.(events := c.events[i := Merge(c.events[i], b)]))
  }

  /** The update path can store an event that ends before it starts, which
      the save path refuses. */
  lemma UpdateStoresEndBeforeStart(prev: Event, end: int)
    requires Valid(prev) && prev.end.None? && end < prev.start
    ensures var c := Calendar([prev], prev.id + 1);
      var b := Body(None, None, Some(end), None, None, None, None, None);
      && UpdateEvent(c, prev.userId, prev.id, b).0 == 200
      && !Ordered(UpdateEvent(c, prev.userId, prev.id, b).1.events[0])
  {
    var b := Body(None, None, Some(end), None, None, None, None, None);
    UpdateOnly(prev, b);
    MergeEndOnly(prev, end);
  }

  /** Updating the only event of a calendar replaces it by the merge. */
  lemma UpdateOnly(prev: Event, b: Body)
    ensures var c := Calendar([prev], prev.id + 1);
      UpdateEvent(c, prev.userId, prev.id, b) == (200, Calendar([Merge(prev, b)], prev.id + 1))
  {
    var c := Calendar([prev], prev.id + 1);
    assert Find(c.events, prev.id) == Some(0);
    assert c.events[0 := Merge(prev, b)] == [Merge(prev, b)];
  }

  /** An update that gives only an end keeps the start and takes the end. */
  lemma MergeEndOnly(prev: Event, end: int)
    ensures var e := Merge(prev, Body(None, None, Some(end), None, None, None, None, None));
      e.start == prev.start && e.end == Some(end)
  {
  }

  /** `updateEvent` with the schema's start/end rule applied to the merged
      record, as the save hook applies it on creation: an update that would
      end the event before its start is refused with 400. */
  function UpdateEventChecked(c: Calendar, userId: string, id: nat, b: Body): (r: (int, Calendar))
    ensures r.0 in {200, 400, 403, 404}
    ensures r.0 != 200 ==> r.1 == c
    ensures r.0 == 404 <==> Find(c.events, id).None?
    ensures r.0 == 403 <==> Foreign(c, userId, id)
    ensures r.0 == 400 <==> OwnedBy(c, userId, id) && !Ordered(Merge(c.events[Find(c.events, id).value], b))
    ensures r.0 == 200 <==> OwnedBy(c, userId, id) && Ordered(Merge(c.events[Find(c.events, id).value], b))
    ensures r.0 == 200 ==> |r.1.events| == |c.events| && r.1.next == c.next
    ensures r.0 == 200 ==> var i := Find(c.events, id).value;
      r.1.events == c.events[i := Merge(c.events[i], b)]
  {
    match Authorize(c, userId, id)
    case Failure(code) => (code, c)
    case Success(i) =>
      var e := Merge(c.events[i], b);
      if !Ordered(e) then (400, c)
      else (200, c.(events := c.events[i := e]))
  }

  /** The checked update keeps every stored event ordered, and the ids and
      owners where they were. */
  lemma UpdateCheckedKeepsOrder(c: Calendar, userId: string, id: nat, b: Body)
    requires forall i :: 0 <= i < |c.events| ==> Ordered(c.events[i])
    ensures var r := UpdateEventChecked(c, userId, id, b).1;
      && (forall i :: 0 <= i < |r.events| ==> Ordered(r.events[i]))
      && (forall i :: 0 <= i < |r.events| ==> r.events[i].id == c.events[i].id && r.events[i].userId == c.events[i].userId)
  {
  }

  /** `deleteEvent`: 404, 403, or 200 with the event removed. */
  function DeleteEvent(c: Calendar, userId: string, id: nat): (r: (int, Calendar))
    ensures r.0 in {200, 403, 404}
    ensures r.0 != 200 ==> r.1 == c
    ensures r.0 == 404 <==> Find(c.events, id).None?
    ensures r.0 == 403 <==> Foreign(c, userId, id)
    ensures r.0 == 200 <==> OwnedBy(c, userId, id)
    ensures r.0 == 200 ==> |r.1.events| == |c.events| - 1 && r.1.next == c.next
    ensures r.0 == 200 ==> var i := Find(c.events, id).value;
      r.1.events == c.events[..i] + c.events[i + 1..]
    ensures WellFormed(c) && r.0 == 200 ==>
      forall e :: e in r.1.events <==> e in c.events && e.id != id
  {
    match Authorize(c, userId, id)
    case Failure(code) => (code, c)
    case Success(i) =>
      var rest := c.events[..i] + c.events[i + 1..];
      assert c.events == c.events[..i] + [c.events[i]] + c.events[i + 1..];
      (200, c.(events := rest))
  }

  /** `getEventById`: 404, 403, or 200 with the event. */
  function GetEventById(c: Calendar, userId: string, id: nat): (r: Result<Event, int>)
    ensures r.Failure? ==> r.error in {403, 404}
    ensures r.Failure? && r.error == 404 <==> Find(c.events, id).None?
    ensures r.Failure? && r.error == 403 <==> Foreign(c, userId, id)
    ensures r.Success? <==> OwnedBy(c, userId, id)
    ensures r.Success? ==> r.value == c.events[Find(c.events, id).value]
    ensures r.Success? ==> r.value in c.events && r.value.id == id && r.value.userId == userId
  {
    match Authorize(c, userId, id)
    case Failure(code) => Failure(code)
    case Success(i) => Success(c.events[i])
  }

  /** The three handlers agree on who may touch an event: the same lookup
      and owner check decide 404 and 403 for all of them. */
  lemma HandlersShareAuthorization(c: Calendar, userId: string, id: nat, b: Body)
    ensures var u := UpdateEvent(c, userId, id, b).0;
      var d := DeleteEvent(c, userId, id).0;
      var g := GetEventById(c, userId, id);
      && (u == 404 <==> d == 404) && (u == 403 <==> d == 403)
      && (g.Failure? <==> u != 200) && (g.Failure? ==> g.error == u)
  {
  }

  // ---------------------------------------------------------------- range queries

  /** The three-clause `$or` of the range query: the start lies in the
      window, or the end does, or the event spans the window. A missing
      `end` matches no clause that mentions it. */
  predicate Overlaps(e: Event, s: int, t: int) {
    || (s <= e.start <= t)
    || (e.end.Some? && s <= e.end.value <= t)
    || (e.start <= s && e.end.Some? && e.end.value >= t)
  }

  /** For an ordered event and a non-empty window the three clauses say
      exactly that the event's interval meets the window. */
  lemma OverlapsIsIntersection(e: Event, s: int, t: int)
    requires Ordered(e) && s <= t
    ensures Overlaps(e, s, t) <==>
      e.start <= t && (if e.end.Some? then e.end.value >= s else e.start >= s)
  {
  }

  predicate SortedByStart(xs: seq<Event>) {
    forall i, j :: 0 <= i < j < |xs| ==> xs[i].start <= xs[j].start
  }

  /** All start no earlier than `p`. */
  predicate StartFrom(xs: seq<Event>, p: int) {
    forall k :: 0 <= k < |xs| ==> p <= xs[k].start
  }

  lemma StartFromSub(a: seq<Event>, b: seq<Event>, p: int)
    requires multiset(a) <= multiset(b) && StartFrom(b, p)
    ensures StartFrom(a, p)
  {
    forall k | 0 <= k < |a| ensures p <= a[k].start {
      assert a[k] in multiset(b);
    }
  }

  /** Places `x` after every event starting no later than it. */
  function InsertByStart(x: Event, ys: seq<Event>): (r: seq<Event>)
    requires SortedByStart(ys)
    ensures SortedByStart(r)
    ensures multiset(r) == multiset(ys) + multiset{x}
    ensures |r| == |ys| + 1
    decreases |ys|
  {
    if |ys| == 0 || x.start < ys[0].start then
      [x] + ys
    else
      assert ys == [ys[0]] + ys[1..];
      var rest := InsertByStart(x, ys[1..]);
      assert StartFrom(ys[1..] + [x], ys[0].start);
      assert multiset(ys[1..] + [x]) == multiset(ys[1..]) + multiset{x};
      StartFromSub(rest, ys[1..] + [x], ys[0].start);
      [ys[0]] + rest
  }

  /** `sort({ start: 1 })`. */
  function SortByStart(xs: seq<Event>): (r: seq<Event>)
    ensures SortedByStart(r)
    ensures multiset(r) == multiset(xs)
    decreases |xs|
  {
    if |xs| == 0 then []
    else
      assert xs == [xs[0]] + xs[1..];
      InsertByStart(xs[0], SortByStart(xs[1..]))
  }

  /** The user's events that meet the window, in store order. */
  function Matching(events: seq<Event>, userId: string, s: int, t: int): (r: seq<Event>)
    ensures forall e :: e in r <==> e in events && e.userId == userId && Overlaps(e, s, t)
    decreases |events|
  {
    if |events| == 0 then []
    else
      var rest := Matching(events[..|events| - 1], userId, s, t);
      var last := events[|events| - 1];
      assert events == events[..|events| - 1] + [last];
      if last.userId == userId && Overlaps(last, s, t) then rest + [last] else rest
  }

  /** `getEventsInRange` (and the query of `getEventsByDateRange`). */
  function EventsInRange(events: seq<Event>, userId: string, s: int, t: int): seq<Event> {
    SortByStart(Matching(events, userId, s, t))
  }

  /** The range query returns exactly the user's events meeting the window,
      earliest start first. */
  lemma EventsInRangeExact(events: seq<Event>, userId: string, s: int, t: int)
    ensures var r := EventsInRange(events, userId, s, t);
      && SortedByStart(r)
      && forall e :: e in r <==> e in events && e.userId == userId && Overlaps(e, s, t)
  {
    var m := Matching(events, userId, s, t);
    var r := SortByStart(m);
    forall e ensures e in r <==> e in m {
      assert e in r <==> e in multiset(r);
      assert e in m <==> e in multiset(m);
    }
  }

  /** `getEventsByDateRange`: 400 unless both bounds are given. */
  function GetEventsByDateRange(c: Calendar, userId: string, s: Option<int>, t: Option<int>): (r: Result<seq<Event>, int>)
    ensures r.Failure? <==> s.None? || t.None?
    ensures r.Failure? ==> r.error == 400
    ensures r.Success? ==> r.value == EventsInRange(c.events, userId, s.value, t.value)
  {
    if s.None? || t.None? then Failure(400)
    else Success(EventsInRange(c.events, userId, s.value, t.value))
  }

  /** `getEvents`: the user's events. */
  function GetEvents(c: Calendar, userId: string): (r: seq<Event>)
    ensures forall e :: e in r <==> e in c.events && e.userId == userId
    decreases |c.events|
  {
    if |c.events| == 0 then []
    else
      var rest := GetEvents(c.(events := c.events[..|c.events| - 1]), userId);
      var last := c.events[|c.events| - 1];
      assert c.events == c.events[..|c.events| - 1] + [last];
      if last.userId == userId then rest + [last] else rest
  }
}

=== FILE: calendar_client.dfy ===
/** The browser side of the calendar
    (public/assets/js/calendar/fullcalendar-custom.js): the event modal's
    save button, the request it sends, and how a stored event is shown back
    in the modal. All-day events are stored with an exclusive end (the day
    after the last day); the modal shows the inclusive last day. */
module CalendarClient {
  import opened Wrappers
  import opened Clock
  import Calendar

  /** The modal's fields; `start` and `end` are the pickers' selected
      instants, `None` when nothing is picked. */
  datatype Form = Form(
    eventId: string,
    title: string,
    kind: string,
    start: Option<int>,
    end: Option<int>,
    description: string,
    allDay: bool)

  /** The `eventData` object built by the save button. */
  datatype EventData = EventData(
    id: string,
    title: string,
    start: int,
    end: Option<int>,
    allDay: bool,
    color: string,
    kind: string,
    description: string)

  /** The client's own colour map (`getEventColor`). */
  function GetEventColor(kind: string): string {
    if kind == "study-session" then "#4e73df"
    else if kind == "assignment" then "#36b9cc"
    else if kind == "exam-prep" then "#f6c23e"
    else if kind == "exam" then "#e74a3b"
    else if kind == "group-study" then "#1cc88a"
    else if kind == "study-break" then "#858796"
    else "#4e73df"
  }

  /** The client's colours are the server's colour hook's, for every type
      string, so a colour the client sends is the one the server would
      have chosen. */
  lemma ClientColorsMatchServer(kind: string)
    ensures GetEventColor(kind) == Calendar.ColorFor(kind)
  {
    match Calendar.ParseType(kind)
    case None =>
    case Some(t) => assert Calendar.TypeName(t) == kind;
  }

  /** Whether the two instants are on the same day (`setHours(0,0,0,0)`
      equality). */
  predicate SameDay(a: int, b: int) {
    DayOf(a) == DayOf(b)
  }

  /** The save button as written: no title or no start is refused (the
      alert); an all-day event without an end ends a day after its start,
      and one whose end is on its start day ends a day later. */
  function SaveButton(f: Form): (r: Option<EventData>)
    ensures r.None? <==> f.title == "" || f.start.None?
    ensures r.Some? ==> r.value.start == f.start.value && r.value.allDay == f.allDay
    ensures r.Some? && !f.allDay ==> r.value.end == f.end
    ensures r.Some? && f.allDay ==> r.value.end.Some?
  {
    if f.title == "" || f.start.None? then None
    else
      var s := f.start.value;
      var end :=
        if !f.allDay then f.end
        else if f.end.None? then Some(s + MsPerDay)
        else if SameDay(s, f.end.value) then Some(f.end.value + MsPerDay)
        else f.end;
      Some(EventData(f.eventId, f.title, s, end, f.allDay, GetEventColor(f.kind), f.kind, f.description))
  }

  datatype Verb = Post | Put | Delete

  /** A request to the calendar API. */
  datatype Request = Request(verb: Verb, url: string, body: Calendar.Body)

  const EventsUrl: string := "/api/calendar/events"

  /** `saveEventToDatabase`: an all-day end moves one day later (the
      exclusive end); `type` and `description` get their defaults; an id
      turns the POST into a PUT on that event's URL. */
  function SaveRequest(d: EventData): (r: Request)
    ensures r.verb == Put <==> d.id != ""
    ensures r.verb == Put ==> r.url == EventsUrl + "/" + d.id
    ensures r.verb == Post ==> r.url == EventsUrl
    ensures r.body.start == Some(d.start) && r.body.allDay == Some(d.allDay)
    ensures r.body.end.None? <==> d.end.None?
    ensures d.allDay && d.end.Some? ==> r.body.end == Some(d.end.value + MsPerDay)
    ensures !d.allDay ==> r.body.end == d.end
    ensures r.body.kind.Some? && r.body.kind.value != ""
    ensures r.body.backgroundColor == r.body.borderColor == Some(d.color)
  {
    var end := if d.allDay && d.end.Some? then Some(d.end.value + MsPerDay) else d.end;
    var body := Calendar.Body(
      Some(d.title), Some(d.start), end, Some(d.allDay), Some(d.color), Some(d.color),
      Some(if d.kind != "" then d.kind else Calendar.DefaultType),
      Some(d.description));
    if d.id != "" then Request(Put, EventsUrl + "/" + d.id, body)
    else Request(Post, EventsUrl, body)
  }

  /** The delete button: a DELETE on the event's URL, only for a saved
      event and after the user confirms. */
  function DeleteRequest(eventId: string, confirmed: bool): (r: Option<Request>)
    ensures r.Some? <==> eventId != "" && confirmed
    ensures r.Some? ==> r.value.verb == Delete && r.value.url == EventsUrl + "/" + eventId
  {
    if eventId != "" && confirmed then
      Some(Request(Delete, EventsUrl + "/" + eventId, Calendar.Body(None, None, None, None, None, None, None, None)))
    else None
  }

  /** The end `displayEventModal` puts in the end picker: the inclusive
      last day of an all-day event, its start when it has no end, and
      nothing for a timed event without an end. */
  function DisplayEnd(e: Calendar.Event): (r: Option<int>)
    ensures e.end.Some? && e.allDay ==> r == Some(e.end.value - MsPerDay)
    ensures e.end.Some? && !e.allDay ==> r == e.end
    ensures e.end.None? ==> (r.Some? <==> e.allDay)
    ensures e.end.None? && e.allDay ==> r == Some(e.start)
  {
    match e.end
    case Some(t) => if e.allDay then Some(t - MsPerDay) else Some(t)
    case None => if e.allDay then Some(e.start) else None
  }

  /** The type and description the modal shows for a stored event. */
  function DisplayKind(e: Calendar.Event): (r: string)
    ensures r != ""
    ensures e.kind != "" ==> r == e.kind
  {
    if e.kind != "" then e.kind else Calendar.DefaultType
  }

  /** The end the modal promises to show again: the picked end, or for an
      all-day event without one, its start. */
  function ChosenEnd(f: Form): Option<int> {
    if f.allDay && f.end.None? then f.start else f.end
  }

  /** The end the server stores for a created event, given the request. */
  function StoredEnd(b: Calendar.Body): Option<int>
    requires b.start.Some?
  {
    Calendar.BumpEnd(b.allDay == Some(true), b.start.value, b.end)
  }

  /** A created event's stored end is the one `StoredEnd` computes from the
      request, and its colour is the server's colour for its type. */
  lemma CreatedFromRequest(c: Calendar.Calendar, userId: string, f: Form)
    requires SaveButton(f).Some?
    ensures var b := SaveRequest(SaveButton(f).value).body;
      var r := Calendar.CreateEvent(c, userId, b);
      r.0 == 201 ==>
        && r.1.events[|c.events|].end == StoredEnd(b)
        && r.1.events[|c.events|].backgroundColor == Calendar.ColorFor(f.kind)
  {
    ClientColorsMatchServer(f.kind);
  }

  /** As written, an all-day event that ends on its start day is bumped
      twice (by the save button and again by `saveEventToDatabase`), so on
      the next opening the modal shows the day after the one picked. */
  lemma SameDayAllDayShiftsOneDay()
    ensures var f := Form("", "Revision", "study-session", Some(0), Some(0), "", true);
      && SaveButton(f).Some?
      && var b := SaveRequest(SaveButton(f).value).body;
      && StoredEnd(b) == Some(2 * MsPerDay)
      && ChosenEnd(f) == Some(0)
      && DisplayEnd(Calendar.Event(0, "u", "Revision", 0, StoredEnd(b), true,
                                   "#4e73df", "#4e73df", "study-session", "", false)) == Some(MsPerDay)
  {
    var f := Form("", "Revision", "study-session", Some(0), Some(0), "", true);
    var b := SaveRequest(SaveButton(f).value).body;
    assert b.end == Some(2 * MsPerDay);
    assert !Calendar.SameDay(0, 2 * MsPerDay);
  }

  /** The save button with the all-day conversion left to
      `saveEventToDatabase` alone: a missing end becomes the start day, and
      the picked end is otherwise sent as it is. */
  function SaveButtonFixed(f: Form): (r: Option<EventData>)
    ensures r.None? <==> f.title == "" || f.start.None?
    ensures r.Some? ==> r.value.start == f.start.value && r.value.allDay == f.allDay
    ensures r.Some? ==> r.value.end == ChosenEnd(f)
  {
    if f.title == "" || f.start.None? then None
    else
      Some(EventData(f.eventId, f.title, f.start.value, ChosenEnd(f), f.allDay,
                     GetEventColor(f.kind), f.kind, f.description))
  }

  /** With a single conversion the round trip holds: whatever end is
      picked (on or after the start day), the server stores the day after
      it, and the modal shows exactly the picked end again. */
  lemma FixedRoundTrip(f: Form, e: Calendar.Event)
    requires SaveButtonFixed(f).Some?
    requires f.end.Some? ==> DayOf(f.start.value) <= DayOf(f.end.value)
    requires var b := SaveRequest(SaveButtonFixed(f).value).body;
      e.start == f.start.value && e.allDay == f.allDay && e.end == StoredEnd(b)
    ensures DisplayEnd(e) == ChosenEnd(f)
  {
    var s := f.start.value;
    var b := SaveRequest(SaveButtonFixed(f).value).body;
    if f.allDay {
      var last := ChosenEnd(f).value;
      assert b.end == Some(last + MsPerDay);
      assert DayOf(last + MsPerDay) == DayOf(last) + 1;
      assert !Calendar.SameDay(s, last + MsPerDay);
    }
  }
}

=== FILE: chat.dfy ===
/** The AI tutor chat of controllers/ai.controller.js: the request checks
    of `chatWithAI`, which model answers, how the conversation is stored,
    and who may read or delete a conversation. The models' replies are
    parameters (`Ok(text)` or `Err`); whether the database write succeeded
    is the parameter `saved`. */
module AiChat {
  import opened Wrappers
  import opened Text
  import opened Lists
  import SuggestionEngine

  type Message = SuggestionEngine.Message

  // ---------------------------------------------------------------- which model answers

  const CohereModel: string := "Cohere Command"
  const Gemini15: string := "Gemini 1.5"
  const Gemini10: string := "Gemini 1.0"

  /** An answer and the name of the model that gave it. */
  datatype Answer = Answer(text: string, model: string)

  /** What each model would reply to this message. */
  datatype Replies = Replies(cohere: Outcome<string>, gemini15: Outcome<string>, gemini10: Outcome<string>)

  /** `chatWithCohere`: the first generation, trimmed. */
  function AskCohere(reply: Outcome<string>): (r: Outcome<Answer>)
    ensures r.Ok? <==> reply.Ok?
    ensures r.Ok? ==> r.value.model == CohereModel && r.value.text == Trim(reply.value)
  {
    match reply
    case Ok(t) => Ok(Answer(Trim(t), CohereModel))
    case Err => Err
  }

  /** `chatWithGemini`: Gemini 1.5, and Gemini 1.0 only if that fails. */
  function AskGemini(first: Outcome<string>, second: Outcome<string>): (r: Outcome<Answer>)
    ensures r.Err? <==> first.Err? && second.Err?
    ensures r.Ok? ==> r.value.model in {Gemini15, Gemini10}
    ensures r.Ok? && r.value.model == Gemini10 ==> first.Err? && r.value.text == second.value
    ensures r.Ok? && r.value.model == Gemini15 ==> first.Ok? && r.value.text == first.value
  {
    match first
    case Ok(t) => Ok(Answer(t, Gemini15))
    case Err =>
      match second
      case Ok(t) => Ok(Answer(t, Gemini10))
      case Err => Err
  }

  /** The `switch` on the requested model: `cohere-command` goes to Cohere,
      anything else (named or not) to Gemini. */
  function Ask(model: string, rs: Replies): (r: Outcome<Answer>)
    ensures model == "cohere-command" ==> (r.Ok? <==> rs.cohere.Ok?)
    ensures model != "cohere-command" ==> (r.Ok? <==> rs.gemini15.Ok? || rs.gemini10.Ok?)
    ensures r.Ok? ==> (r.value.model == CohereModel <==> model == "cohere-command")
    ensures r.Ok? && r.value.model == Gemini10 ==> rs.gemini15.Err?
  {
    if model == "cohere-command" then AskCohere(rs.cohere) else AskGemini(rs.gemini15, rs.gemini10)
  }

  /** A failing Cohere call is not retried on Gemini, and a working
      Gemini 1.5 is never passed over for 1.0. */
  lemma FallbackOnlyWithinGemini(model: string, rs: Replies)
    ensures model == "cohere-command" && rs.cohere.Err? ==> Ask(model, rs).Err?
    ensures model != "cohere-command" && rs.gemini15.Ok? ==> Ask(model, rs) == Ok(Answer(rs.gemini15.value, Gemini15))
    ensures model != "cohere-command" && rs.gemini15.Err? && rs.gemini10.Ok? ==> Ask(model, rs) == Ok(Answer(rs.gemini10.value, Gemini10))
  {
  }

  // ---------------------------------------------------------------- stored conversations

  /** A stored conversation. */
  datatype ChatDoc = ChatDoc(title: string, userId: Id, model: string, messages: seq<Message>, updatedAt: int)

  type Store = map<Id, ChatDoc>

  const TitleLength: nat := 30

  /** A new conversation's title: the message's first thirty characters,
      with `...` when it is longer. */
  function Title(message: string): (r: string)
    ensures |message| <= TitleLength ==> r == message
    ensures |message| > TitleLength ==> |r| == TitleLength + 3 && r[..TitleLength] == message[..TitleLength] && r[TitleLength..] == "..."
  {
    if |message| > TitleLength then message[..TitleLength] + "..." else message
  }

  /** The title never exceeds thirty-three characters and always begins
      the message. */
  lemma TitleIsPrefix(message: string)
    ensures |Title(message)| <= TitleLength + 3
    ensures var k := if |message| < TitleLength then |message| else TitleLength;
      Title(message)[..k] == message[..k]
  {
  }

  /** The exchange appended to a conversation: the question, then the
      answer. */
  function Exchange(message: string, a: Answer): (r: seq<Message>)
    ensures |r| == 2 && r[0].role == "user" && r[1].role == "assistant"
    ensures r[0].content == message && r[1].content == a.text
  {
    [SuggestionEngine.Message("user", message), SuggestionEngine.Message("assistant", a.text)]
  }

  datatype ChatReply = ChatReply(code: int, answer: Option<Answer>, chatId: Option<Id>)

  /** The conversation a 200 reply writes to: the requested one when it
      exists, otherwise a new one under `newId`. */
  function Target(store: Store, chatId: string, newId: Id): (id: Id)
    ensures id == chatId <==> (chatId != "" && chatId in store) || chatId == newId
    ensures id != newId ==> id in store
  {
    if chatId != "" && chatId in store then chatId else newId
  }

  /** `chatWithAI`. An empty message is a 400 and a missing user a 401,
      before any model is asked; a model failure is a 500; an existing
      conversation of someone else is a 403. Otherwise the exchange is
      appended to the conversation (a new one when `chatId` is absent or
      unknown), and the answer returned with 200 even when the write
      fails. */
  function ChatWithAI(
    store: Store, userId: Id, message: string, model: string, chatId: string,
    rs: Replies, newId: Id, now: int, saved: bool): (r: (ChatReply, Store))
    requires newId !in store
    ensures r.0.code in {200, 400, 401, 403, 500}
    ensures r.0.code == 400 <==> message == ""
    ensures r.0.code == 401 <==> message != "" && userId == ""
    ensures r.0.code == 500 <==> message != "" && userId != "" && Ask(model, rs).Err?
    ensures r.0.code == 403 <==> (message != "" && userId != "" && Ask(model, rs).Ok?
      && chatId != "" && chatId in store && store[chatId].userId != userId)
    ensures r.0.code != 200 ==> r.1 == store && r.0.answer.None? && r.0.chatId.None?
    ensures r.0.code == 200 ==> r.0.answer == Some(Ask(model, rs).value)
    ensures r.0.code == 200 && !saved ==> r.1 == store && r.0.chatId.None?
    ensures r.0.code == 200 && saved ==>
      var id := Target(store, chatId, newId);
      && r.0.chatId == Some(id)
      && r.1.Keys == store.Keys + {id}
      && r.1[id].userId == userId
      && r.1[id].updatedAt == now
      && r.1[id].messages == (if id in store then store[id].messages else []) + Exchange(message, r.0.answer.value)
      && (id in store ==> r.1[id].title == store[id].title && r.1[id].model == store[id].model)
      && (id !in store ==> r.1[id].title == Title(message) && r.1[id].model == r.0.answer.value.model)
      && forall k :: k in store && k != id ==> r.1[k] == store[k]
  {
    if message == "" then (ChatReply(400, None, None), store)
    else if userId == "" then (ChatReply(401, None, None), store)
    else match Ask(model, rs)
      case Err => (ChatReply(500, None, None), store)
      case Ok(a) =>
        var id := Target(store, chatId, newId);
        if id in store && store[id].userId != userId then (ChatReply(403, None, None), store)
        else
          var doc :=
            if id in store then store[id].(messages := store[id].messages + Exchange(message, a), updatedAt := now)
            else ChatDoc(Title(message), userId, a.model, Exchange(message, a), now);
          if saved then (ChatReply(200, Some(a), Some(id)), store[id := doc])
          else (ChatReply(200, Some(a), None), store)
  }

  /** A conversation alternates question and answer, starting with the
      user. */
  predicate Turns(ms: seq<Message>) {
    |ms| % 2 == 0 && forall i :: 0 <= i < |ms| ==> ms[i].role == (if i % 2 == 0 then "user" else "assistant")
  }

  predicate AllTurns(store: Store) {
    forall k :: k in store ==> Turns(store[k].messages)
  }

  lemma TurnsAppend(ms: seq<Message>, message: string, a: Answer)
    requires Turns(ms)
    ensures Turns(ms + Exchange(message, a))
  {
    var t := ms + Exchange(message, a);
    forall i | 0 <= i < |t|
      ensures t[i].role == (if i % 2 == 0 then "user" else "assistant")
    {
      if i >= |ms| {
        assert t[i] == Exchange(message, a)[i - |ms|];
      }
    }
  }

  /** Every stored conversation keeps alternating question and answer. */
  lemma ChatKeepsTurns(
    store: Store, userId: Id, message: string, model: string, chatId: string,
    rs: Replies, newId: Id, now: int, saved: bool)
    requires newId !in store && AllTurns(store)
    ensures AllTurns(ChatWithAI(store, userId, message, model, chatId, rs, newId, now, saved).1)
  {
    var r := ChatWithAI(store, userId, message, model, chatId, rs, newId, now, saved);
    if r.0.code == 200 && saved {
      var id := Target(store, chatId, newId);
      if id in store {
        TurnsAppend(store[id].messages, message, r.0.answer.value);
      } else {
        TurnsAppend([], message, r.0.answer.value);
      }
    }
  }

  /** No request moves a conversation to another owner. */
  lemma ChatOwnerStable(
    store: Store, userId: Id, message: string, model: string, chatId: string,
    rs: Replies, newId: Id, now: int, saved: bool)
    requires newId !in store
    ensures var after := ChatWithAI(store, userId, message, model, chatId, rs, newId, now, saved).1;
      forall k :: k in store ==> k in after && after[k].userId == store[k].userId
  {
  }

  // ---------------------------------------------------------------- reading and deleting

  /** `getChatById`: 404 for an unknown id, 403 for someone else's
      conversation. */
  function GetChat(store: Store, chatId: Id, userId: Id): (r: (int, Option<ChatDoc>))
    ensures r.0 == 404 <==> chatId !in store
    ensures r.0 == 403 <==> chatId in store && store[chatId].userId != userId
    ensures r.0 == 200 <==> r.1.Some?
    ensures r.1.Some? ==> r.1.value == store[chatId] && r.1.value.userId == userId
  {
    if chatId !in store then (404, None)
    else if store[chatId].userId != userId then (403, None)
    else (200, Some(store[chatId]))
  }

  /** `deleteChat`: the same checks, then the conversation is gone. */
  function DeleteChat(store: Store, chatId: Id, userId: Id): (r: (int, Store))
    ensures r.0 == 404 <==> chatId !in store
    ensures r.0 == 403 <==> chatId in store && store[chatId].userId != userId
    ensures r.0 == 200 ==> r.1.Keys == store.Keys - {chatId} && forall k :: k in r.1 ==> r.1[k] == store[k]
    ensures r.0 != 200 ==> r.1 == store
  {
    if chatId !in store then (404, store)
    else if store[chatId].userId != userId then (403, store)
    else (200, store - {chatId})
  }

  /** Reading and deleting answer alike, and a deleted conversation can no
      longer be read. */
  lemma DeleteThenGet(store: Store, chatId: Id, userId: Id)
    ensures DeleteChat(store, chatId, userId).0 == GetChat(store, chatId, userId).0
    ensures DeleteChat(store, chatId, userId).0 == 200 ==> GetChat(DeleteChat(store, chatId, userId).1, chatId, userId).0 == 404
  {
  }

  /** `getChatHistory`: the user's conversations (newest first in the
      source; the order is the database's). */
  function History(store: Store, userId: Id): (r: set<Id>)
    ensures forall k :: k in r ==> k in store && GetChat(store, k, userId).0 == 200
    ensures forall k :: k in store && GetChat(store, k, userId).0 == 200 ==> k in r
  {
    set k | k in store && store[k].userId == userId
  }

  const DefaultRecent := 5

  /** `getRecentChats`' limit: the parsed number, or five when it is
      missing or zero. */
  function RecentLimit(parsed: Option<int>): (r: int)
    ensures r != 0
    ensures parsed.Some? && parsed.value != 0 ==> r == parsed.value
    ensures parsed.None? || parsed.value == 0 ==> r == DefaultRecent
  {
    if parsed.None? || parsed.value == 0 then DefaultRecent else parsed.value
  }
}

=== FILE: client_forms.dfy ===
/** The browser side of signing in and the account forms
    (public/assets/js/custom.js): the token kept in the browser, the
    `Authorization` header it adds, the redirect `checkAuthState` makes,
    and the checks the register and change-password forms run before they
    send anything. Decoding the token's payload is the parameter `exp`. */
module ClientForms {
  import opened Wrappers
  import opened Text
  import Auth
  import Users

  // ---------------------------------------------------------------- the token in the browser

  /** `isLoggedIn` in the browser: a stored token whose payload decodes
      (`exp`, seconds) and has not expired at `now` (milliseconds). */
  function ClientLoggedIn(token: string, exp: Option<int>, now: int): (r: bool)
    ensures r ==> token != "" && exp.Some?
    ensures r <==> token != "" && exp.Some? && exp.value * 1000 > now
  {
    token != "" && exp.Some? && exp.value * 1000 > now
  }

  /** The browser's view of the session only ends: signed in at some
      instant means signed in at every earlier one, and from the expiry
      on it counts itself signed out. */
  lemma ClientSessionExpires(token: string, exp: Option<int>, t1: int, t2: int)
    requires t1 <= t2
    ensures ClientLoggedIn(token, exp, t2) ==> ClientLoggedIn(token, exp, t1)
    ensures exp.Some? && t2 >= exp.value * 1000 ==> !ClientLoggedIn(token, exp, t2)
  {
  }

  /** Request headers, by name. */
  type Headers = map<string, string>

  /** `addAuthHeader`: with a stored token, the headers plus
      `Authorization: Bearer <token>`; without one, the headers as given. */
  function AddAuthHeader(headers: Headers, token: string): (r: Headers)
    ensures token == "" ==> r == headers
    ensures token != "" ==> "Authorization" in r && r["Authorization"] == "Bearer " + token
    ensures forall k :: k in headers && k != "Authorization" ==> k in r && r[k] == headers[k]
    ensures r.Keys == headers.Keys + (if token == "" then {} else {"Authorization"})
  {
    if token != "" then headers["Authorization" := "Bearer " + token] else headers
  }

  /** The header the browser adds is the token every server guard reads
      first: `protect` and `requireAuth`, `isLoggedIn` and the status
      route all come back with the browser's token, whatever cookies the
      request carries. */
  lemma HeaderReachesServer(headers: Headers, token: string, jwtCookie: string, tokenCookie: string)
    requires token != "" && ' ' !in token
    ensures var q := Auth.Request("", AddAuthHeader(headers, token)["Authorization"], jwtCookie, tokenCookie);
      && Auth.GuardToken(q) == token
      && Auth.ExtractToken(q) == Some(token)
      && Auth.StatusToken(q) == (Auth.Header, Some(token))
  {
    var q := Auth.Request("", AddAuthHeader(headers, token)["Authorization"], jwtCookie, tokenCookie);
    Auth.BearerWinsEverywhere(q, token);
  }

  // ---------------------------------------------------------------- checkAuthState

  const ProtectedRoutes: seq<string> := ["/home", "/settings", "/ai-chat", "/calendar"]

  /** A path under a route: the route itself or anything below it. */
  predicate Under(path: string, route: string) {
    path == route || StartsWith(path, route + "/")
  }

  predicate IsProtected(path: string) {
    exists i :: 0 <= i < |ProtectedRoutes| && Under(path, ProtectedRoutes[i])
  }

  datatype Nav = Stay | GoTo(url: string)

  /** `checkAuthState`: a signed-in user on the login or register page is
      sent home, a signed-out user on a protected page to the login page;
      `nocheck=true` in the query switches the check off. */
  function CheckAuthState(loggedIn: bool, path: string, noCheck: bool): (r: Nav)
    ensures r == GoTo("/home") <==> !noCheck && loggedIn && (path == "/login" || path == "/register")
    ensures r == GoTo("/login") <==> !noCheck && !loggedIn && IsProtected(path)
    ensures r.GoTo? ==> r.url in {"/home", "/login"}
  {
    if noCheck then Stay
    else if loggedIn then (if path == "/login" || path == "/register" then GoTo("/home") else Stay)
    else if IsProtected(path) then GoTo("/login") else Stay
  }

  /** Where the check sends the browser is a page it does not send it away
      from: the login page is not protected and home is neither login nor
      register, so it never bounces twice. */
  lemma CheckAuthStateSettles(loggedIn: bool, path: string)
    ensures var r := CheckAuthState(loggedIn, path, false);
      r.GoTo? ==> CheckAuthState(loggedIn, r.url, false) == Stay
  {
    if !loggedIn {
      assert !IsProtected("/login") by {
        forall i | 0 <= i < |ProtectedRoutes| ensures !Under("/login", ProtectedRoutes[i]) {
          assert "/login"[1] != ProtectedRoutes[i][1];
        }
      }
    }
  }

  /** A browser that counts itself signed in sends its token to the
      server on every request it decorates, and is never sent to the login
      page; one that does not is sent there from every protected page. */
  lemma ClientStateDrivesRequests(headers: Headers, token: string, exp: Option<int>, now: int, path: string)
    requires ' ' !in token
    ensures ClientLoggedIn(token, exp, now) ==>
      && AddAuthHeader(headers, token)["Authorization"] == "Bearer " + token
      && Auth.GuardToken(Auth.Request("", AddAuthHeader(headers, token)["Authorization"], "", "")) == token
      && CheckAuthState(ClientLoggedIn(token, exp, now), path, false) != GoTo("/login")
    ensures !ClientLoggedIn(token, exp, now) && IsProtected(path) ==>
      CheckAuthState(ClientLoggedIn(token, exp, now), path, false) == GoTo("/login")
  {
    if ClientLoggedIn(token, exp, now) {
      HeaderReachesServer(headers, token, "", "");
    }
  }

  /** Every page below a protected route is protected. */
  lemma BelowProtectedIsProtected(i: nat, rest: string)
    requires i < |ProtectedRoutes|
    ensures IsProtected(ProtectedRoutes[i] + "/" + rest)
  {
    var p := ProtectedRoutes[i] + "/" + rest;
    assert p[..|ProtectedRoutes[i] + "/"|] == ProtectedRoutes[i] + "/";
  }

  // ---------------------------------------------------------------- the form checks

  /** `isValidPhone`: `^\d{10,}$`. */
  predicate IsValidPhone(phone: string) {
    |phone| >= 10 && AllDigits(phone)
  }

  /** A piece of an address between the separators of the email pattern:
      non-empty, no white space, no `@`. */
  predicate Plain(s: string) {
    |s| > 0 && NoSpace(s) && '@' !in s
  }

  /** The email pattern `^[^\s@]+@[^\s@]+\.[^\s@]+$` as it reads: a plain
      name, `@`, a plain host, a dot, a plain rest. */
  predicate EmailPattern(e: string) {
    exists a: nat, k: nat :: a < k < |e| - 1 && e[a] == '@' && e[k] == '.'
      && Plain(e[..a]) && Plain(e[a + 1..k]) && Plain(e[k + 1..])
  }

  /** `isValidEmail`, computed: one `@`, no white space, a non-empty name,
      and a dot inside the part after the `@`. */
  function IsValidEmail(e: string): (r: bool)
  {
    NoSpace(e) && '@' in e &&
      var a := IndexOf(e, '@');
      var host := e[a + 1..];
      a > 0 && '@' !in host && exists k :: 0 < k < |host| - 1 && host[k] == '.'
  }

  /** The check accepts exactly the addresses the pattern describes. */
  lemma IsValidEmailMatchesPattern(e: string)
    ensures IsValidEmail(e) <==> EmailPattern(e)
  {
    if IsValidEmail(e) {
      ValidEmailHasPattern(e);
    }
    if EmailPattern(e) {
      PatternIsValidEmail(e);
    }
  }

  /** A slice of a string without white space has none either. */
  lemma NoSpaceSlice(e: string, i: nat, j: nat)
    requires i <= j <= |e| && NoSpace(e)
    ensures NoSpace(e[i..j])
  {
    assert forall t :: 0 <= t < j - i ==> e[i..j][t] == e[i + t];
  }

  lemma ValidEmailHasPattern(e: string)
    requires IsValidEmail(e)
    ensures EmailPattern(e)
  {
    var a := IndexOf(e, '@');
    var host := e[a + 1..];
    var j :| 0 < j < |host| - 1 && host[j] == '.';
    var k := a + 1 + j;
    assert e[a + 1..k] == host[..j];
    assert e[k + 1..] == host[j + 1..];
    NoSpaceSlice(e, 0, a);
    NoSpaceSlice(e, a + 1, k);
    NoSpaceSlice(e, k + 1, |e|);
    assert '@' !in e[a + 1..k] by {
      assert forall t :: 0 <= t < j ==> host[..j][t] == host[t];
    }
    assert '@' !in e[k + 1..] by {
      var rest := host[j + 1..];
      assert forall t :: 0 <= t < |rest| ==> rest[t] == host[j + 1 + t];
    }
    assert e[k] == '.';
  }

  /** Where the pattern matches, no character of `e` is white space. */
  lemma PatternNoSpace(e: string, a: nat, k: nat)
    requires a < k < |e| - 1 && e[a] == '@' && e[k] == '.'
    requires Plain(e[..a]) && Plain(e[a + 1..k]) && Plain(e[k + 1..])
    ensures NoSpace(e)
  {
    forall i | 0 <= i < |e| ensures !IsSpace(e[i]) {
      if i < a { assert e[i] == e[..a][i]; }
      else if a < i < k { assert e[i] == e[a + 1..k][i - a - 1]; }
      else if i > k { assert e[i] == e[k + 1..][i - k - 1]; }
    }
  }

  /** Where the pattern matches, the part after the `@` has none. */
  lemma PatternOneAt(e: string, a: nat, k: nat)
    requires a < k < |e| - 1 && e[a] == '@' && e[k] == '.'
    requires Plain(e[a + 1..k]) && Plain(e[k + 1..])
    ensures '@' !in e[a + 1..]
  {
    var host := e[a + 1..];
    forall i | 0 <= i < |host| ensures host[i] != '@' {
      if i < k - a - 1 { assert host[i] == e[a + 1..k][i]; }
      else if i > k - a - 1 { assert host[i] == e[k + 1..][i - (k - a)]; }
    }
  }

  lemma PatternIsValidEmail(e: string)
    requires EmailPattern(e)
    ensures IsValidEmail(e)
  {
    var a: nat, k: nat :| a < k < |e| - 1 && e[a] == '@' && e[k] == '.'
      && Plain(e[..a]) && Plain(e[a + 1..k]) && Plain(e[k + 1..]);
    PatternNoSpace(e, a, k);
    assert '@' !in e[..a];
    assert IndexOf(e, '@') == a;
    PatternOneAt(e, a, k);
    var host := e[a + 1..];
    assert host[k - a - 1] == '.';
  }

  /** A register form as typed. */
  datatype RegisterForm = RegisterForm(name: string, username: string, email: string, phone: string, password: string, accepted: bool)

  datatype Field = Name | Username | Email | Phone | Password | Terms

  /** The fields the register form flags: a blank name, a trimmed username
      shorter than six, an email or phone that fails its pattern, a
      password (untrimmed) shorter than six, unaccepted terms. */
  function RegisterErrors(f: RegisterForm): (r: set<Field>)
    ensures Name in r <==> IsBlank(f.name)
    ensures Username in r <==> |Trim(f.username)| < 6
    ensures Email in r <==> !IsValidEmail(f.email)
    ensures Phone in r <==> !IsValidPhone(f.phone)
    ensures Password in r <==> |f.password| < 6
    ensures Terms in r <==> !f.accepted
  {
    Flags(Trim(f.name) == "", |Trim(f.username)| < 6, !IsValidEmail(f.email),
      !IsValidPhone(f.phone), |f.password| < 6, !f.accepted)
  }

  /** The flagged fields, from the outcome of each check in form order. */
  function Flags(name: bool, username: bool, email: bool, phone: bool, password: bool, terms: bool): (r: set<Field>)
    ensures Name in r <==> name
    ensures Username in r <==> username
    ensures Email in r <==> email
    ensures Phone in r <==> phone
    ensures Password in r <==> password
    ensures Terms in r <==> terms
  {
    Flag(name, Name) + Flag(username, Username) + Flag(email, Email)
    + Flag(phone, Phone) + Flag(password, Password) + Flag(terms, Terms)
  }

  /** The field when the check fails, nothing otherwise. */
  function Flag(failed: bool, fld: Field): (r: set<Field>)
    ensures r <= {fld}
    ensures fld in r <==> failed
  {
    if failed then {fld} else {}
  }

  /** What a clean form sends: every field trimmed but the password. */
  function RegisterPayload(f: RegisterForm): (r: Auth.SignUp)
    ensures r.password == f.password
    ensures |r.username| <= |f.username|
    ensures Trim(r.name) == r.name && Trim(r.username) == r.username
    ensures Trim(r.email) == r.email && Trim(r.phone) == r.phone
    ensures r.name != "" <==> !IsBlank(f.name)
    ensures IsValidPhone(f.phone) ==> r.phone == f.phone
  {
    PayloadTrimmed(f);
    Auth.SignUp(Trim(f.name), Trim(f.username), Trim(f.email), Trim(f.phone), f.password)
  }

  /** Each field sent is trimmed, a non-blank name stays non-empty, and a
      checked phone number is sent as it was typed. */
  lemma PayloadTrimmed(f: RegisterForm)
    ensures Trim(Trim(f.name)) == Trim(f.name) && Trim(Trim(f.username)) == Trim(f.username)
    ensures Trim(Trim(f.email)) == Trim(f.email) && Trim(Trim(f.phone)) == Trim(f.phone)
    ensures IsValidPhone(f.phone) ==> Trim(f.phone) == f.phone
  {
    TrimIdempotent(f.name);
    TrimIdempotent(f.username);
    TrimIdempotent(f.email);
    TrimIdempotent(f.phone);
    if IsValidPhone(f.phone) {
      PhoneSentAsChecked(f.phone);
    }
  }

  /** A phone number that passes the check is sent unchanged. */
  lemma PhoneSentAsChecked(p: string)
    requires IsValidPhone(p)
    ensures Trim(p) == p
  {
    assert NoSpace(p) by {
      forall i | 0 <= i < |p| ensures !IsSpace(p[i]) { assert IsDigit(p[i]); }
    }
    NoSpaceTrim(p);
  }

  lemma NoSpaceTrim(s: string)
    requires NoSpace(s)
    ensures Trim(s) == s
  {
    if s != [] {
      assert !IsSpace(s[0]);
      assert TrimStart(s) == s;
      assert !IsSpace(s[|s| - 1]);
      assert TrimEnd(s) == s;
    }
  }

  /** The form is stricter than the server on the username's length only:
      every username the server accepts passes the form, but the form does
      not check the characters the server allows. */
  lemma ServerUsernamePassesForm(f: RegisterForm)
    requires Auth.ValidUsername(RegisterPayload(f).username)
    ensures Username !in RegisterErrors(f)
  {
  }

  /** What a form the browser lets through sends: a non-empty name, a
      username of at least six characters, the phone number as typed, and
      an email that matches the pattern once trimmed. */
  lemma CleanFormPayload(f: RegisterForm)
    requires RegisterErrors(f) == {}
    ensures var r := RegisterPayload(f);
      && r.name != "" && |r.username| >= 6 && r.phone == f.phone && r.password == f.password
      && |r.password| >= 6
  {
    var e := RegisterErrors(f);
    assert !IsBlank(f.name) by { assert Name !in e; }
    assert |Trim(f.username)| >= 6 by { assert Username !in e; }
    assert IsValidPhone(f.phone) by { assert Phone !in e; }
    assert |f.password| >= 6 by { assert Password !in e; }
  }

  /** What the server does with a clean form whose email and username are
      free: it registers the account exactly when every character of the
      trimmed username is one the server allows, the length having been
      checked already in the browser. */
  lemma CleanFormRegisters(users: Users.Accounts, f: RegisterForm, newId: string, hash: string)
    requires newId !in users && RegisterErrors(f) == {}
    requires !Auth.EmailUsed(users, Trim(f.email)) && !Auth.UsernameUsed(users, Trim(f.username))
    ensures Auth.Register(users, RegisterPayload(f), newId, hash).0 == Auth.Registered <==>
      forall i :: 0 <= i < |Trim(f.username)| ==> Auth.UsernameChar(Trim(f.username)[i])
  {
    assert Username !in RegisterErrors(f);
  }

  /** The change-password form flags a missing current password, a new one
      shorter than six, and a confirmation that differs. */
  datatype PasswordField = Current | NewPassword | Confirmation

  function PasswordErrors(current: string, proposed: string, confirm: string): (r: set<PasswordField>)
    ensures Current in r <==> current == ""
    ensures NewPassword in r <==> |proposed| < Users.MinPasswordLength
    ensures Confirmation in r <==> confirm != proposed
  {
    (if current == "" then {Current} else {})
    + (if |proposed| < 6 then {NewPassword} else {})
    + (if confirm != proposed then {Confirmation} else {})
  }

  /** A form the browser lets through never gets the server's field,
      mismatch or length refusal: what remains is the account lookup and
      the current password. */
  lemma CleanPasswordFormPassesServerChecks(
    users: Users.Accounts, caller: string, current: string, proposed: string, confirm: string,
    matches: (string, string) -> bool, newHash: string)
    requires PasswordErrors(current, proposed, confirm) == {}
    ensures Users.ChangePassword(users, caller, current, proposed, confirm, matches, newHash).outcome
      in {Users.NoUser, Users.WrongPassword, Users.PasswordChanged}
  {
  }
}

=== FILE: clock.dfy ===
/** Integer time. An instant is a count of LOCAL milliseconds since
    1970-01-01 00:00 (a Thursday); there is no time zone and no daylight
    saving, so a calendar day is always 86 400 000 ms long. */
module Clock {

  const MsPerSecond: int := 1000
  const MsPerMinute: int := 60_000
  const MsPerHour: int := 3_600_000
  const MsPerDay: int := 86_400_000

  /** Day index of an instant (`Date` with the clock part dropped). */
  function DayOf(t: int): int {
    t / MsPerDay
  }

  /** `getHours()`. */
  function HourOf(t: int): (h: int)
    ensures 0 <= h < 24
  {
    (t % MsPerDay) / MsPerHour
  }

  /** `getMinutes()`. */
  function MinuteOf(t: int): (m: int)
    ensures 0 <= m < 60
  {
    (t % MsPerHour) / MsPerMinute
  }

  /** `getDay()`: 0 is Sunday, 6 is Saturday; day 0 was a Thursday. */
  function WeekdayOf(t: int): (w: int)
    ensures 0 <= w < 7
  {
    (DayOf(t) + 4) % 7
  }

  /** The instant `day` at `hour:minute:00.000` (`setHours(hour, minute, 0, 0)`). */
  function At(day: int, hour: int, minute: int): int {
    day * MsPerDay + hour * MsPerHour + minute * MsPerMinute
  }

  /** An instant splits into its day and its time of day. */
  lemma Decompose(t: int)
    ensures t == DayOf(t) * MsPerDay + t % MsPerDay
    ensures 0 <= t % MsPerDay < MsPerDay
  {
  }

  /** Every instant of the hour `HourOf(t)` lies before the next full hour. */
  lemma BeforeNextHour(t: int)
    ensures t < At(DayOf(t), HourOf(t) + 1, 0)
    ensures At(DayOf(t), HourOf(t), 0) <= t
  {
    Decompose(t);
  }

  /** A time of day in [0, 24h) keeps the day of its instant. */
  lemma DayOfAt(day: int, hour: int, minute: int)
    requires 0 <= hour < 24 && 0 <= minute < 60
    ensures DayOf(At(day, hour, minute)) == day
    ensures WeekdayOf(At(day, hour, minute)) == (day + 4) % 7
  {
    var t := At(day, hour, minute);
    assert 0 <= hour * MsPerHour + minute * MsPerMinute < MsPerDay;
    assert t == day * MsPerDay + (hour * MsPerHour + minute * MsPerMinute);
  }
}

=== FILE: discussion.dfy ===
/** The forum's request handlers (controllers/discussion.controller.js)
    over a `Board`. The caller is the user `protect` attached; new document
    ids are parameters. */
module Discussion {
  import opened Wrappers
  import opened Text
  import opened Lists
  import opened Forum

  /** The authenticated user. */
  datatype Caller = Caller(id: Id, role: string)

  const AdminRole: string := "admin"

  /** Position of the post with id `id` (`Post.findById`). */
  function FindPost(posts: seq<Post>, id: Id): (r: Option<nat>)
    ensures r.Some? ==> r.value < |posts| && posts[r.value].id == id
    ensures r.None? ==> forall i :: 0 <= i < |posts| ==> posts[i].id != id
  {
    Lists.FindKey(posts, (p: Post) => p.id, id)
  }

  /** Position of a comment with id `id` in one post's comments. */
  function FindComment(comments: seq<Comment>, id: Id): (r: Option<nat>)
    ensures r.Some? ==> r.value < |comments| && comments[r.value].id == id
    ensures r.None? ==> forall i :: 0 <= i < |comments| ==> comments[i].id != id
  {
    Lists.FindKey(comments, (c: Comment) => c.id, id)
  }

  /** The post holding comment `id` (`findOne({'comments._id': id})`) and
      the comment's position in it. */
  function FindPostWithComment(posts: seq<Post>, id: Id): (r: Option<(nat, nat)>)
    ensures r.Some? ==>
      r.value.0 < |posts| && r.value.1 < |posts[r.value.0].comments| && posts[r.value.0].comments[r.value.1].id == id
    ensures r.None? ==> forall i, j :: 0 <= i < |posts| && 0 <= j < |posts[i].comments| ==> posts[i].comments[j].id != id
    decreases |posts|
  {
    if |posts| == 0 then None
    else
      var last := posts[|posts| - 1];
      match FindComment(last.comments, id)
      case Some(j) => Some((|posts| - 1, j))
      case None =>
        var r := FindPostWithComment(posts[..|posts| - 1], id);
        assert forall i :: 0 <= i < |posts| - 1 ==> posts[..|posts| - 1][i] == posts[i];
        r
  }

  // ---------------------------------------------------------------- creating

  /** The multipart body of `createPost`/`editPost`: an empty string is a
      missing field; `hashtags` is `None` when absent or falsy, and a
      single value arrives as a one-element list. */
  datatype PostBody = PostBody(
    title: string,
    content: string,
    categoryId: Id,
    hashtags: Option<seq<string>>,
    image: Option<string>)

  /** `createPost` as written: 400 without a title, content or category;
      401 without a user; then the tags are counted; then 404 for an
      unknown category, keeping the tag counts; otherwise the category
      gains a post and the post is stored. */
  function CreatePost(b: Board, user: Option<Id>, body: PostBody, newId: Id): (r: (int, Board))
    ensures r.0 in {201, 400, 401, 404}
    ensures r.0 == 400 <==> body.title == "" || body.content == "" || body.categoryId == ""
    ensures r.0 == 401 <==> r.0 != 400 && user.None?
    ensures r.0 == 404 <==> r.0 !in {400, 401} && body.categoryId !in b.categories
    ensures r.0 in {400, 401} ==> r.1 == b
    ensures r.0 == 404 ==> r.1.posts == b.posts && r.1.categories == b.categories
    ensures r.0 in {201, 404} ==> r.1.hashtags == ApplyTags(b.hashtags, TagNames(body.hashtags.GetOr([])))
    ensures r.0 == 201 ==>
      r.1.categories == b.categories[body.categoryId := b.categories[body.categoryId].(postCount := b.categories[body.categoryId].postCount + 1)]
    ensures r.0 == 201 ==>
      && |r.1.posts| == |b.posts| + 1 && r.1.posts[..|b.posts|] == b.posts
      && var p := r.1.posts[|b.posts|];
         && p.id == newId && p.author == user.value && p.category == body.categoryId
         && p.hashtags == TagNames(body.hashtags.GetOr([]))
         && p.title == body.title && p.content == body.content
         && p.views == 0 && p.likes == [] && p.comments == []
  {
    if body.title == "" || body.content == "" || body.categoryId == "" then (400, b)
    else if user.None? then (401, b)
    else
      var names := TagNames(body.hashtags.GetOr([]));
      var counts := ApplyTags(b.hashtags, names);
      if body.categoryId !in b.categories then (404, b.(hashtags := counts))
      else
        var cat := b.categories[body.categoryId];
        var p := NewPost(newId, body.title, body.content, user.value, body.categoryId, names, body.image);
        (201, Board(b.posts + [p], b.categories[body.categoryId := cat.(postCount := cat.postCount + 1)], counts))
  }

  /** `createPost` with the category looked up before any counter moves,
      duplicates judged by the normal form, and each hashtag counted by an
      upsert, so a new hashtag starts at one post. */
  function CreatePostFixed(b: Board, user: Option<Id>, body: PostBody, newId: Id): (r: (int, Board))
    ensures r.0 in {201, 400, 401, 404}
    ensures r.0 == 400 <==> body.title == "" || body.content == "" || body.categoryId == ""
    ensures r.0 == 401 <==> r.0 != 400 && user.None?
    ensures r.0 == 404 <==> r.0 !in {400, 401} && body.categoryId !in b.categories
    ensures r.0 != 201 ==> r.1 == b
    ensures r.0 == 201 ==>
      && |r.1.posts| == |b.posts| + 1 && r.1.posts[..|b.posts|] == b.posts
      && var p := r.1.posts[|b.posts|];
         && p.id == newId && p.author == user.value && p.category == body.categoryId
         && p.title == body.title && p.content == body.content && Distinct(p.hashtags)
         && forall x :: x in p.hashtags <==> NormalOf(Cleaned(body.hashtags.GetOr([])), x)
  {
    if body.title == "" || body.content == "" || body.categoryId == "" then (400, b)
    else if user.None? then (401, b)
    else if body.categoryId !in b.categories then (404, b)
    else
      var names := TagNamesFixed(body.hashtags.GetOr([]));
      var cat := b.categories[body.categoryId];
      var p := NewPost(newId, body.title, body.content, user.value, body.categoryId, names, body.image);
      (201, Board(b.posts + [p], b.categories[body.categoryId := cat.(postCount := cat.postCount + 1)],
                  ApplyTagsFixed(b.hashtags, names)))
  }

  // ---------------------------------------------------------------- likes, comments, reports

  /** The answer of the like handlers. */
  datatype LikeAnswer = LikeAnswer(code: int, likes: nat, liked: bool)

  /** `likePost`: 404 for an unknown post; otherwise the caller's like is
      toggled and the new count and state are reported. */
  function LikePost(b: Board, user: Id, postId: Id): (r: (LikeAnswer, Board))
    ensures r.0.code in {200, 404}
    ensures r.0.code == 404 <==> FindPost(b.posts, postId).None?
    ensures r.0.code == 404 ==> r.1 == b
    ensures r.0.code == 200 ==>
      var i := FindPost(b.posts, postId).value;
      && |r.1.posts| == |b.posts|
      && r.1 == b.(posts := b.posts[i := r.1.posts[i]])
      && r.1.posts[i] == b.posts[i].(likes := r.1.posts[i].likes)
      && r.0.liked == (user !in b.posts[i].likes)
      && (user in r.1.posts[i].likes <==> r.0.liked)
      && r.0.likes == |r.1.posts[i].likes|
      && (forall y :: y != user ==> (y in r.1.posts[i].likes <==> y in b.posts[i].likes))
  {
    match FindPost(b.posts, postId)
    case None => (LikeAnswer(404, 0, false), b)
    case Some(i) =>
      var p := b.posts[i];
      var likes := Toggle(p.likes, user);
      (LikeAnswer(200, |likes|, user !in p.likes), b.(posts := b.posts[i := p.(likes := likes)]))
  }

  /** `likeComment`: 404 when no post holds the comment; otherwise the same
      toggle on the comment's likes. */
  function LikeComment(b: Board, user: Id, commentId: Id): (r: (LikeAnswer, Board))
    ensures r.0.code in {200, 404}
    ensures r.0.code == 404 <==> FindPostWithComment(b.posts, commentId).None?
    ensures r.0.code == 404 ==> r.1 == b
    ensures r.0.code == 200 ==>
      var (i, j) := FindPostWithComment(b.posts, commentId).value;
      var before := b.posts[i].comments[j].likes;
      && |r.1.posts| == |b.posts|
      && |r.1.posts[i].comments| == |b.posts[i].comments|
      && var after := r.1.posts[i].comments[j].likes;
         && r.0.liked == (user !in before)
         && (user in after <==> r.0.liked)
         && r.0.likes == |after|
         && (forall y :: y != user ==> (y in after <==> y in before))
         && r.1 == b.(posts := b.posts[i := b.posts[i].(comments :=
              b.posts[i].comments[j := b.posts[i].comments[j].(likes := after)])])
  {
    match FindPostWithComment(b.posts, commentId)
    case None => (LikeAnswer(404, 0, false), b)
    case Some((i, j)) =>
      var p := b.posts[i];
      var c := p.comments[j];
      var likes := Toggle(c.likes, user);
      var p' := p.(comments := p.comments[j := c.(likes := likes)]);
      (LikeAnswer(200, |likes|, user !in c.likes), b.(posts := b.posts[i := p']))
  }

  /** Liking twice restores who likes the post. */
  lemma LikePostTwice(b: Board, user: Id, postId: Id)
    requires FindPost(b.posts, postId).Some?
    requires Distinct(b.posts[FindPost(b.posts, postId).value].likes)
    ensures var once := LikePost(b, user, postId);
      var twice := LikePost(once.1, user, postId);
      var i := FindPost(b.posts, postId).value;
      && twice.0.code == 200
      && twice.0.liked == !once.0.liked
      && (forall y :: y in twice.1.posts[i].likes <==> y in b.posts[i].likes)
  {
    var i := FindPost(b.posts, postId).value;
    var once := LikePost(b, user, postId);
    assert once.1.posts[i].id == postId;
    FindPostSameIds(b.posts, once.1.posts, postId);
    ToggleTwice(b.posts[i].likes, user);
  }

  /** Lookup by id sees only the ids. */
  lemma {:induction false} FindPostSameIds(before: seq<Post>, after: seq<Post>, id: Id)
    requires |after| == |before|
    requires forall k :: 0 <= k < |before| ==> after[k].id == before[k].id
    ensures FindPost(after, id) == FindPost(before, id)
    decreases |before|
  {
    if |before| > 0 {
      var n := |before| - 1;
      var b', a' := before[..n], after[..n];
      assert forall k :: 0 <= k < n ==> a'[k].id == b'[k].id by {
        forall k | 0 <= k < n ensures a'[k].id == b'[k].id {
          assert a'[k] == after[k] && b'[k] == before[k];
        }
      }
      FindPostSameIds(b', a', id);
    }
  }

  /** `addComment`: 400 without content, 404 for an unknown post, otherwise
      the comment is appended to the post. */
  function AddComment(b: Board, user: Id, postId: Id, content: string, newId: Id): (r: (int, Board))
    ensures r.0 in {201, 400, 404}
    ensures r.0 == 400 <==> content == ""
    ensures r.0 == 404 <==> content != "" && FindPost(b.posts, postId).None?
    ensures r.0 != 201 ==> r.1 == b
    ensures r.0 == 201 ==>
      var i := FindPost(b.posts, postId).value;
      && |r.1.posts| == |b.posts|
      && r.1.posts[i].comments == b.posts[i].comments + [Comment(newId, content, user, [], [])]
      && forall k :: 0 <= k < |b.posts| && k != i ==> r.1.posts[k] == b.posts[k]
  {
    if content == "" then (400, b)
    else match FindPost(b.posts, postId)
      case None => (404, b)
      case Some(i) =>
        var p := b.posts[i];
        (201, b.(posts := b.posts[i := p.(comments := p.comments + [Comment(newId, content, user, [], [])])]))
  }

  /** `replyToComment`: 400 without content, 404 when no post holds the
      comment, otherwise the reply is appended to the comment. */
  function ReplyToComment(b: Board, user: Id, commentId: Id, content: string): (r: (int, Board))
    ensures r.0 in {201, 400, 404}
    ensures r.0 == 400 <==> content == ""
    ensures r.0 == 404 <==> content != "" && FindPostWithComment(b.posts, commentId).None?
    ensures r.0 != 201 ==> r.1 == b
    ensures r.0 == 201 ==>
      var (i, j) := FindPostWithComment(b.posts, commentId).value;
      && |r.1.posts| == |b.posts| && |r.1.posts[i].comments| == |b.posts[i].comments|
      && r.1.posts[i].comments[j].replies == b.posts[i].comments[j].replies + [Reply(content, user, [])]
      && r.1 == b.(posts := b.posts[i := b.posts[i].(comments :=
           b.posts[i].comments[j := b.posts[i].comments[j].(replies := r.1.posts[i].comments[j].replies)])])
  {
    if content == "" then (400, b)
    else match FindPostWithComment(b.posts, commentId)
      case None => (404, b)
      case Some((i, j)) =>
        var p := b.posts[i];
        var c := p.comments[j];
        var c' := c.(replies := c.replies + [Reply(content, user, [])]);
        (201, b.(posts := b.posts[i := p.(comments := p.comments[j := c'])]))
  }

  /** `reportPost`: 400 without a post id or reason, 404 for an unknown
      post, otherwise 200. The report is never stored. */
  function ReportPost(b: Board, postId: Id, reason: string): (code: int)
    ensures code in {200, 400, 404}
    ensures code == 400 <==> postId == "" || reason == ""
    ensures code == 200 <==> postId != "" && reason != "" && FindPost(b.posts, postId).Some?
  {
    if postId == "" || reason == "" then 400
    else if FindPost(b.posts, postId).None? then 404
    else 200
  }

  /** `getPostDetail`'s view counter: every successful read adds one. */
  function ViewPost(b: Board, postId: Id): (r: (int, Board))
    ensures r.0 in {200, 404}
    ensures r.0 == 404 <==> FindPost(b.posts, postId).None?
    ensures r.0 == 404 ==> r.1 == b
    ensures r.0 == 200 ==>
      var i := FindPost(b.posts, postId).value;
      r.1 == b.(posts := b.posts[i := b.posts[i].(views := b.posts[i].views + 1)])
  {
    match FindPost(b.posts, postId)
    case None => (404, b)
    case Some(i) => (200, b.(posts := b.posts[i := b.posts[i].(views := b.posts[i].views + 1)]))
  }

  // ---------------------------------------------------------------- deleting and editing

  /** Who may delete: the author or an admin. */
  predicate MayDelete(caller: Caller, p: Post) {
    p.author == caller.id || caller.role == AdminRole
  }

  /** Who may edit: the author only. */
  predicate MayEdit(caller: Caller, p: Post) {
    p.author == caller.id
  }

  /** `$inc: n` on a category's counter; an unknown id changes nothing. */
  function Bump(cats: map<Id, Category>, id: Id, n: int): (r: map<Id, Category>)
    ensures r.Keys == cats.Keys
    ensures id in cats ==> r[id] == cats[id].(postCount := cats[id].postCount + n)
    ensures forall c :: c in cats && c != id ==> r[c] == cats[c]
  {
    if id in cats then cats[id := cats[id].(postCount := cats[id].postCount + n)] else cats
  }

  /** `deletePost`: 404 for an unknown post, 403 unless the caller wrote it
      or is an admin; otherwise its category and each of its hashtags lose
      one post and the post is removed. */
  function DeletePost(b: Board, caller: Caller, postId: Id): (r: (int, Board))
    ensures r.0 in {200, 403, 404}
    ensures r.0 == 404 <==> FindPost(b.posts, postId).None?
    ensures r.0 == 403 <==> FindPost(b.posts, postId).Some? && !MayDelete(caller, b.posts[FindPost(b.posts, postId).value])
    ensures r.0 != 200 ==> r.1 == b
    ensures r.0 == 200 ==>
      var i := FindPost(b.posts, postId).value;
      && r.1.posts == b.posts[..i] + b.posts[i + 1..]
      && r.1.categories == Bump(b.categories, b.posts[i].category, -1)
      && r.1.hashtags == DropTags(b.hashtags, b.posts[i].hashtags)
  {
    match FindPost(b.posts, postId)
    case None => (404, b)
    case Some(i) =>
      var p := b.posts[i];
      if !MayDelete(caller, p) then (403, b)
      else (200, Board(b.posts[..i] + b.posts[i + 1..], Bump(b.categories, p.category, -1), DropTags(b.hashtags, p.hashtags)))
  }

  /** The category part of `editPost`: only a given, different category
      moves the counters and the post. */
  function MoveCategory(cats: map<Id, Category>, from: Id, to: Id): (r: map<Id, Category>)
    ensures to == "" || to == from ==> r == cats
  {
    if to != "" && to != from then Bump(Bump(cats, from, -1), to, 1) else cats
  }

  /** The post `editPost` saves: a falsy title or content keeps the old
      one, an image replaces the old one only when a file was uploaded. */
  function Edited(p: Post, body: PostBody, names: Option<seq<string>>): (q: Post)
    ensures q.id == p.id && q.author == p.author && q.likes == p.likes && q.comments == p.comments
    ensures q.title == (if body.title != "" then body.title else p.title)
    ensures q.content == (if body.content != "" then body.content else p.content)
    ensures q.hashtags == names.GetOr(p.hashtags)
    ensures q.category == (if body.categoryId != "" then body.categoryId else p.category)
    ensures q.image == (if body.image.Some? then body.image else p.image)
  {
    p.(title := if body.title != "" then body.title else p.title,
       content := if body.content != "" then body.content else p.content,
       hashtags := names.GetOr(p.hashtags),
       category := if body.categoryId != "" then body.categoryId else p.category,
       image := if body.image.Some? then body.image else p.image)
  }

  /** `editPost` as written: 404, then 403 for anyone but the author
      (admins included); given hashtags replace the old ones, which each
      lose a post first; a changed category moves one post between the
      counters. */
  function EditPost(b: Board, caller: Caller, postId: Id, body: PostBody): (r: (int, Board))
    ensures r.0 in {200, 403, 404}
    ensures r.0 == 404 <==> FindPost(b.posts, postId).None?
    ensures r.0 == 403 <==> FindPost(b.posts, postId).Some? && !MayEdit(caller, b.posts[FindPost(b.posts, postId).value])
    ensures r.0 != 200 ==> r.1 == b
    ensures r.0 == 200 ==>
      var i := FindPost(b.posts, postId).value;
      && |r.1.posts| == |b.posts|
      && r.1.posts[i].author == b.posts[i].author
      && (forall k :: 0 <= k < |b.posts| && k != i ==> r.1.posts[k] == b.posts[k])
      && r.1.categories == MoveCategory(b.categories, b.posts[i].category, body.categoryId)
      && (body.hashtags.None? ==> r.1.hashtags == b.hashtags && r.1.posts[i].hashtags == b.posts[i].hashtags)
    ensures r.0 == 200 && body.hashtags.None? ==>
      var i := FindPost(b.posts, postId).value;
      r.1.posts[i] == Edited(b.posts[i], body, None)
    ensures r.0 == 200 && body.hashtags.Some? ==>
      var i := FindPost(b.posts, postId).value;
      && r.1.posts[i] == Edited(b.posts[i], body, Some(TagNames(body.hashtags.value)))
      && r.1.hashtags == ApplyTags(DropTags(b.hashtags, b.posts[i].hashtags), TagNames(body.hashtags.value))
  {
    match FindPost(b.posts, postId)
    case None => (404, b)
    case Some(i) =>
      var p := b.posts[i];
      if !MayEdit(caller, p) then (403, b)
      else
        var names := if body.hashtags.Some? then Some(TagNames(body.hashtags.value)) else None;
        var counts := if body.hashtags.Some? then ApplyTags(DropTags(b.hashtags, p.hashtags), names.value) else b.hashtags;
        (200, Board(b.posts[i := Edited(p, body, names)], MoveCategory(b.categories, p.category, body.categoryId), counts))
  }

  /** `editPost` with the hashtag handling of `CreatePostFixed`. */
  function EditPostFixed(b: Board, caller: Caller, postId: Id, body: PostBody): (r: (int, Board))
    ensures r.0 in {200, 403, 404}
    ensures r.0 == 404 <==> FindPost(b.posts, postId).None?
    ensures r.0 == 403 <==> FindPost(b.posts, postId).Some? && !MayEdit(caller, b.posts[FindPost(b.posts, postId).value])
    ensures r.0 != 200 ==> r.1 == b
    ensures r.0 == 200 ==>
      var i := FindPost(b.posts, postId).value;
      && |r.1.posts| == |b.posts|
      && (forall k :: 0 <= k < |b.posts| && k != i ==> r.1.posts[k] == b.posts[k])
      && r.1.categories == MoveCategory(b.categories, b.posts[i].category, body.categoryId)
      && (body.hashtags.None? ==> r.1.hashtags == b.hashtags && r.1.posts[i] == Edited(b.posts[i], body, None))
      && (body.hashtags.Some? ==>
            && r.1.posts[i] == Edited(b.posts[i], body, Some(TagNamesFixed(body.hashtags.value)))
            && r.1.hashtags == ApplyTagsFixed(DropTags(b.hashtags, b.posts[i].hashtags), TagNamesFixed(body.hashtags.value)))
  {
    match FindPost(b.posts, postId)
    case None => (404, b)
    case Some(i) =>
      var p := b.posts[i];
      if !MayEdit(caller, p) then (403, b)
      else
        var names := if body.hashtags.Some? then Some(TagNamesFixed(body.hashtags.value)) else None;
        var counts := if body.hashtags.Some? then ApplyTagsFixed(DropTags(b.hashtags, p.hashtags), names.value) else b.hashtags;
        (200, Board(b.posts[i := Edited(p, body, names)], MoveCategory(b.categories, p.category, body.categoryId), counts))
  }

  /** An admin who is not the author may delete a post but not edit it. */
  lemma AdminDeletesButCannotEdit(b: Board, caller: Caller, postId: Id, body: PostBody)
    requires FindPost(b.posts, postId).Some?
    requires caller.role == AdminRole && b.posts[FindPost(b.posts, postId).value].author != caller.id
    ensures DeletePost(b, caller, postId).0 == 200
    ensures EditPost(b, caller, postId, body).0 == 403
  {
  }
}

=== FILE: discussion_client.dfy ===
/** The forum's browser side (public/assets/js/discussion.js,
    public/assets/js/edit.js) and its upload route
    (routes/discussion.route.js): the tag picker's `createTag`, the search
    results, the form checks, the edit form's hashtag field, and the
    upload's file name and filter. */
module DiscussionClient {
  import opened Wrappers
  import opened Text
  import opened Lists
  import opened Forum
  import Discussion

  // ---------------------------------------------------------------- the tag picker

  /** A tag picker entry: `id` and `text` are the same name. */
  datatype Choice = Choice(id: string, text: string, newTag: bool)

  /** `createTag` as both scripts write it: trim, refuse a blank term,
      drop one leading `#`, trim and lower-case, refuse an empty result. */
  function CreateTag(term: string): (r: Option<Choice>)
    ensures r.Some? ==> r.value.id == r.value.text && r.value.newTag
    ensures IsBlank(term) ==> r.None?
  {
    var t := Trim(term);
    if t == "" then None
    else
      var name := Lower(Trim(StripHash(t)));
      if name == "" then None else Some(Choice(name, name, true))
  }

  /** Dropping a `#` and lower-casing commute: `#` is not a capital. */
  lemma StripHashLower(s: string)
    ensures StripHash(Lower(s)) == Lower(StripHash(s))
  {
    if |s| > 0 {
      assert Lower(s)[0] == LowerChar(s[0]);
      assert Lower(s)[..1] == [LowerChar(s[0])];
      assert s[..1] == [s[0]];
      assert StartsWith(Lower(s), "#") <==> StartsWith(s, "#");
      LowerTail(s);
    }
  }

  /** The browser and the server clean a tag the same way: the picker
      offers exactly the name the server will store. */
  lemma CreateTagMatchesServer(term: string)
    ensures CreateTag(term).Some? <==> NormalizeTag(term).Some?
    ensures CreateTag(term).Some? ==> CreateTag(term).value.text == NormalizeTag(term).value
  {
    var t := Trim(term);
    StripHashLower(t);
    TrimLower(StripHash(t));
    assert Lower(Trim(StripHash(t))) == Trim(StripHash(Lower(t)));
    if t == "" {
      assert Lower(t) == "";
    }
  }

  /** `processResults`: one choice per hashtag name, none without data. */
  function ProcessResults(names: Option<seq<string>>): (r: seq<Choice>)
    ensures names.None? ==> r == []
    ensures names.Some? ==> |r| == |names.value|
    ensures names.Some? ==> forall i :: 0 <= i < |r| ==> r[i].id == r[i].text == names.value[i] && !r[i].newTag
  {
    match names
    case None => []
    case Some(ns) => seq(|ns|, i requires 0 <= i < |ns| => Choice(ns[i], ns[i], false))
  }

  /** A stored hashtag name typed back into the picker is offered as it
      is. */
  lemma StoredNameRetyped(name: string)
    requires NormalizeTag(name).Some? && NormalizeTag(name).value == name
    requires !StartsWith(name, "#")
    ensures CreateTag(name) == Some(Choice(name, name, true))
  {
    CreateTagMatchesServer(name);
  }

  // ---------------------------------------------------------------- form checks

  /** `submitPost`'s check: title, content and category are required. */
  predicate PostFormOk(title: string, content: string, categoryId: string) {
    title != "" && content != "" && categoryId != ""
  }

  /** A post the form lets through passes the server's 400 check. */
  lemma PostFormPassesServer(b: Board, user: Option<Id>, body: Discussion.PostBody, newId: Id)
    requires PostFormOk(body.title, body.content, body.categoryId)
    ensures Discussion.CreatePost(b, user, body, newId).0 != 400
  {
  }

  /** `submitComment`'s check: a missing or blank comment is refused. */
  predicate CommentFormOk(content: string) {
    !IsBlank(content)
  }

  /** A comment the form lets through passes the server's 400 check. */
  lemma CommentFormPassesServer(b: Board, user: Id, postId: Id, content: string, newId: Id)
    requires CommentFormOk(content)
    ensures Discussion.AddComment(b, user, postId, content, newId).0 != 400
  {
  }

  /** `submitReport`: the details are read, and must not be blank, only
      for the reason "other"; the result is the details sent. */
  function ReportDetails(reason: string, otherText: string): (r: Option<string>)
    ensures reason != "other" ==> r == Some("")
    ensures reason == "other" ==> (r.Some? <==> !IsBlank(otherText))
    ensures reason == "other" && r.Some? ==> r.value == otherText
  {
    if reason == "other" then
      if IsBlank(otherText) then None else Some(otherText)
    else Some("")
  }

  /** A report the form sends, with a radio reason (never empty) about a
      post of the page (whose id is never empty), is not refused with 400,
      and is answered 200 while the post exists. */
  lemma ReportFormPassesServer(b: Board, postId: Id, reason: string, otherText: string)
    requires postId != "" && reason != ""
    requires ReportDetails(reason, otherText).Some?
    ensures Discussion.ReportPost(b, postId, reason) != 400
    ensures Discussion.ReportPost(b, postId, reason) == 200 <==> exists i :: 0 <= i < |b.posts| && b.posts[i].id == postId
  {
    if exists i :: 0 <= i < |b.posts| && b.posts[i].id == postId {
      var i :| 0 <= i < |b.posts| && b.posts[i].id == postId;
      assert Discussion.FindPost(b.posts, postId).Some?;
    }
  }

  /** `loadMorePosts`: the page after the button's page, which defaults to
      1 when missing or 0. */
  function NextPage(page: Option<int>): (r: int)
    ensures page.None? || page.value == 0 ==> r == 2
    ensures page.Some? && page.value != 0 ==> r == page.value + 1
    ensures page.None? || page.value >= 0 ==> r >= 2
  {
    var p := page.GetOr(0);
    (if p == 0 then 1 else p) + 1
  }

  // ---------------------------------------------------------------- the edit form

  /** The edit form's `hashtags` field as written: the chosen names joined
      by `,` into one value; an empty selection is an empty, falsy value,
      which leaves the stored tags alone. */
  function EditHashtagsField(selected: seq<string>): (r: Option<seq<string>>)
    ensures r.None? <==> Join(selected, ',') == ""
    ensures r.Some? ==> r.value == [Join(selected, ',')]
  {
    var joined := Join(selected, ',');
    if joined == "" then None else Some([joined])
  }

  /** As written, two chosen tags reach the server as one: editing a post
      to the tags `a` and `b` stores the single hashtag `a,b`. */
  lemma JoinedTagsMerge()
    ensures EditHashtagsField(["a", "b"]) == Some(["a,b"])
    ensures TagNames(["a,b"]) == ["a,b"]
  {
    JoinAB();
    CommaTag();
  }

  lemma JoinAB()
    ensures Join(["a", "b"], ',') == "a,b"
  {
    assert ["a", "b"][1..] == ["b"];
    assert Join(["b"], ',') == "b";
  }

  lemma CommaTag()
    ensures TagNames(["a,b"]) == ["a,b"]
  {
    var t := "a,b";
    assert t[0] == 'a' && t[|t| - 1] == 'b' && t[..1] == "a";
    assert NoUpper(t) by {
      forall i | 0 <= i < |t| ensures !IsUpper(t[i]) {
        assert t[i] in "a,b";
      }
    }
    PlainTagKept(t);
  }

  /** The server reading of the edit form's field with the value split at
      `,` again. */
  function SplitHashtagsField(field: Option<seq<string>>): (r: Option<seq<string>>)
    ensures r.None? <==> field.None?
  {
    match field
    case None => None
    case Some(vs) => if |vs| == 1 then Some(Split(vs[0], ',')) else Some(vs)
  }

  /** Splitting the joined field gives back exactly the chosen names: the
      picker's `,` separator keeps `,` out of every name. */
  lemma SplitRecoversSelection(selected: seq<string>)
    requires |selected| >= 1 && Join(selected, ',') != ""
    requires forall i :: 0 <= i < |selected| ==> ',' !in selected[i]
    ensures SplitHashtagsField(EditHashtagsField(selected)) == Some(selected)
  {
    SplitJoin(selected, ',');
  }

  /** The remove-image checkbox and the file input. */
  datatype ImageControls = ImageControls(removeChecked: bool, inputDisabled: bool)

  /** The checkbox's change handler: the file input is disabled exactly
      while the box is checked. */
  function OnRemoveChange(c: ImageControls, checked: bool): (r: ImageControls)
    ensures r.removeChecked == checked && r.inputDisabled == checked
  {
    ImageControls(checked, checked)
  }

  /** Choosing a new image unchecks the box when a preview is shown; the
      input keeps its state (setting `checked` fires no change event). */
  function OnImageChosen(c: ImageControls, hasPreview: bool): (r: ImageControls)
    ensures hasPreview ==> !r.removeChecked
    ensures !hasPreview ==> r.removeChecked == c.removeChecked
    ensures r.inputDisabled == c.inputDisabled
  {
    if hasPreview then c.(removeChecked := false) else c
  }

  /** The input is disabled exactly while removal is asked for. */
  predicate ControlsAgree(c: ImageControls) {
    c.inputDisabled == c.removeChecked
  }

  /** Both handlers keep the controls in agreement; a file can only be
      chosen through an enabled input. */
  lemma ControlsStayInAgreement(c: ImageControls, checked: bool, hasPreview: bool)
    requires ControlsAgree(c)
    ensures ControlsAgree(OnRemoveChange(c, checked))
    ensures !c.inputDisabled ==> ControlsAgree(OnImageChosen(c, hasPreview))
  {
  }

  // ---------------------------------------------------------------- uploads

  /** The characters an uploaded file name keeps. */
  predicate NameChar(c: char) {
    ('a' <= c <= 'z') || ('A' <= c <= 'Z') || ('0' <= c <= '9') || c == '.'
  }

  /** `replace(/[^a-zA-Z0-9.]/g, '_')`. */
  function SanitizeName(name: string): (r: string)
    ensures |r| == |name|
    ensures forall i :: 0 <= i < |r| ==> NameChar(r[i]) || r[i] == '_'
    ensures forall i :: 0 <= i < |r| ==> (NameChar(name[i]) ==> r[i] == name[i]) && (!NameChar(name[i]) ==> r[i] == '_')
  {
    seq(|name|, i requires 0 <= i < |name| => if NameChar(name[i]) then name[i] else '_')
  }

  /** A sanitised name is its own sanitised form. */
  lemma SanitizeIdempotent(name: string)
    ensures SanitizeName(SanitizeName(name)) == SanitizeName(name)
  {
  }

  /** The stored file name: time, a random number, and the sanitised
      original name, joined by `-`. */
  function StoredName(now: nat, random: nat, original: string): (r: string)
    ensures |r| == |NatToString(now)| + |NatToString(random)| + 2 + |original|
    ensures r[|r| - |original|..] == SanitizeName(original)
    ensures r[..|NatToString(now)|] == NatToString(now)
  {
    var prefix := NatToString(now) + "-" + NatToString(random) + "-";
    var r := prefix + SanitizeName(original);
    assert r[|r| - |original|..] == SanitizeName(original);
    assert r[..|NatToString(now)|] == NatToString(now);
    r
  }

  /** The route's file filter: any `image/` type. */
  predicate AcceptsUpload(mimetype: string) {
    StartsWith(mimetype, "image/")
  }

  /** The route's size limit in bytes. */
  const MaxUploadBytes: nat := 5 * 1024 * 1024

  /** Whether the route keeps an upload. */
  predicate UploadKept(mimetype: string, size: nat) {
    AcceptsUpload(mimetype) && size <= MaxUploadBytes
  }

  /** The filter and limit: a 5 MB `image/png` is kept; a larger one or a
      PDF is not. */
  lemma UploadBounds(mimetype: string, size: nat)
    ensures UploadKept(mimetype, size) ==> size <= 5242880
    ensures UploadKept("image/png", 5242880)
    ensures !UploadKept("image/png", 5242881)
    ensures !UploadKept("application/pdf", 1)
  {
    assert "image/png"[..6] == "image/";
    assert "application/pdf"[0] != "image/"[0];
  }
}

=== FILE: discussion_counts.dfy ===
/** The forum's post counters (`Category.postCount`, `Hashtag.postCount`)
    against the posts they count. A board is consistent when every counter
    equals the number of posts that reference its document. The handlers
    as written break this; the corrected ones keep it. */
module DiscussionCounts {
  import opened Wrappers
  import opened Lists
  import opened Forum
  import opened Discussion

  /** The total weight of the posts. */
  function Sum(posts: seq<Post>, w: Post -> nat): nat
    decreases |posts|
  {
    if |posts| == 0 then 0 else Sum(posts[..|posts| - 1], w) + w(posts[|posts| - 1])
  }

  /** Adding one post adds its weight. */
  lemma SumAppend(posts: seq<Post>, p: Post, w: Post -> nat)
    ensures Sum(posts + [p], w) == Sum(posts, w) + w(p)
  {
    assert (posts + [p])[..|posts|] == posts;
  }

  /** The weight of a concatenation is the sum of the weights. */
  lemma {:induction false} SumConcat(a: seq<Post>, c: seq<Post>, w: Post -> nat)
    ensures Sum(a + c, w) == Sum(a, w) + Sum(c, w)
    decreases |c|
  {
    if |c| == 0 {
      assert a + c == a;
    } else {
      var init := c[..|c| - 1];
      var last := c[|c| - 1];
      assert a + c == (a + init) + [last];
      assert c == init + [last];
      SumAppend(a + init, last, w);
      SumAppend(init, last, w);
      SumConcat(a, init, w);
    }
  }

  /** A list is its part before `i`, its entry at `i` and its part after. */
  lemma SplitAt(posts: seq<Post>, i: nat)
    requires i < |posts|
    ensures posts == (posts[..i] + [posts[i]]) + posts[i + 1..]
  {
  }

  /** Removing the post at `i` removes its weight, and no post weighs more
      than all of them. */
  lemma SumRemove(posts: seq<Post>, i: nat, w: Post -> nat)
    requires i < |posts|
    ensures Sum(posts[..i] + posts[i + 1..], w) == Sum(posts, w) - w(posts[i])
    ensures w(posts[i]) <= Sum(posts, w)
  {
    var front, back := posts[..i], posts[i + 1..];
    SplitAt(posts, i);
    SumConcat(front + [posts[i]], back, w);
    SumAppend(front, posts[i], w);
    SumConcat(front, back, w);
  }

  /** Replacing the post at `i` swaps its weight for the new one's. */
  lemma SumReplace(posts: seq<Post>, i: nat, q: Post, w: Post -> nat)
    requires i < |posts|
    ensures Sum(posts[i := q], w) == Sum(posts, w) - w(posts[i]) + w(q)
  {
    var after := posts[i := q];
    assert after[..i] == posts[..i] && after[i + 1..] == posts[i + 1..];
    assert after[i] == q;
    SumRemove(posts, i, w);
    SumRemove(after, i, w);
  }

  /** How often a post references hashtag `n`. */
  function TagWeight(n: string): Post -> nat {
    (p: Post) => Count(p.hashtags, n)
  }

  /** Whether a post belongs to category `c`. */
  function CatWeight(c: Id): Post -> nat {
    (p: Post) => if p.category == c then 1 else 0
  }

  /** The number of references to hashtag `n` among the posts. */
  function TagRefs(posts: seq<Post>, n: string): nat {
    Sum(posts, TagWeight(n))
  }

  /** The number of posts in category `c`. */
  function CatRefs(posts: seq<Post>, c: Id): nat {
    Sum(posts, CatWeight(c))
  }

  /** A hashtag's counter, 0 for a hashtag with no document. */
  function TagCount(h: map<string, int>, n: string): int {
    if n in h then h[n] else 0
  }

  ghost predicate TagsConsistent(b: Board) {
    forall n :: TagRefs(b.posts, n) == TagCount(b.hashtags, n)
  }

  ghost predicate CatsConsistent(b: Board) {
    forall c :: c in b.categories ==> b.categories[c].postCount == CatRefs(b.posts, c)
  }

  /** Every counter counts the posts referencing its document. */
  ghost predicate Consistent(b: Board) {
    TagsConsistent(b) && CatsConsistent(b)
  }

  /** An empty forum with fresh categories is consistent. */
  lemma EmptyConsistent(cats: map<Id, Category>)
    requires forall c :: c in cats ==> cats[c].postCount == 0
    ensures Consistent(Board([], cats, map[]))
  {
  }

  // ---------------------------------------------------------------- counter updates

  /** The upsert loop adds each hashtag's occurrences to its counter. */
  lemma ApplyFixedCount(h: map<string, int>, names: seq<string>, n: string)
    ensures TagCount(ApplyTagsFixed(h, names), n) == TagCount(h, n) + Count(names, n)
  {
    ApplyTagsFixedAt(h, names, n);
    CountIn(names, n);
  }

  /** Dropping the tags of a post the counters include takes its
      occurrences off each counter. */
  lemma DropCount(b: Board, i: nat, n: string)
    requires TagsConsistent(b) && i < |b.posts|
    ensures TagCount(DropTags(b.hashtags, b.posts[i].hashtags), n) == TagCount(b.hashtags, n) - Count(b.posts[i].hashtags, n)
  {
    DropTagsAt(b.hashtags, b.posts[i].hashtags, n);
    SumRemove(b.posts, i, TagWeight(n));
    assert TagRefs(b.posts, n) == TagCount(b.hashtags, n);
  }

  // ---------------------------------------------------------------- the corrected handlers

  /** A post created by the corrected handler is counted once by its
      category and once by each of its hashtags. */
  lemma CreateFixedConsistent(b: Board, user: Option<Id>, body: PostBody, newId: Id)
    requires Consistent(b)
    ensures Consistent(CreatePostFixed(b, user, body, newId).1)
  {
    var r := CreatePostFixed(b, user, body, newId);
    if r.0 == 201 {
      var p := r.1.posts[|b.posts|];
      assert r.1.posts == b.posts + [p];
      CreateFixedTags(b, p, r.1);
      CreateFixedCats(b, p, r.1, body.categoryId);
    }
  }

  lemma CreateFixedTags(b: Board, p: Post, after: Board)
    requires TagsConsistent(b)
    requires after.posts == b.posts + [p] && after.hashtags == ApplyTagsFixed(b.hashtags, p.hashtags)
    ensures TagsConsistent(after)
  {
    forall n ensures TagRefs(after.posts, n) == TagCount(after.hashtags, n) {
      SumAppend(b.posts, p, TagWeight(n));
      ApplyFixedCount(b.hashtags, p.hashtags, n);
      assert TagRefs(b.posts, n) == TagCount(b.hashtags, n);
    }
  }

  lemma CreateFixedCats(b: Board, p: Post, after: Board, cat: Id)
    requires CatsConsistent(b) && cat in b.categories && p.category == cat
    requires after.posts == b.posts + [p]
    requires after.categories == b.categories[cat := b.categories[cat].(postCount := b.categories[cat].postCount + 1)]
    ensures CatsConsistent(after)
  {
    forall c | c in after.categories ensures after.categories[c].postCount == CatRefs(after.posts, c) {
      SumAppend(b.posts, p, CatWeight(c));
      assert CatRefs(b.posts, c) == b.categories[c].postCount;
    }
  }

  /** Deleting, as written, keeps the counters consistent: the post's
      category and each of its hashtags lose exactly its references. */
  lemma DeleteConsistent(b: Board, caller: Caller, postId: Id)
    requires Consistent(b)
    ensures Consistent(DeletePost(b, caller, postId).1)
  {
    var r := DeletePost(b, caller, postId);
    if r.0 == 200 {
      var i := FindPost(b.posts, postId).value;
      var p := b.posts[i];
      forall n ensures TagRefs(r.1.posts, n) == TagCount(r.1.hashtags, n) {
        DropCount(b, i, n);
        SumRemove(b.posts, i, TagWeight(n));
      }
      forall c | c in r.1.categories ensures r.1.categories[c].postCount == CatRefs(r.1.posts, c) {
        SumRemove(b.posts, i, CatWeight(c));
        assert CatRefs(b.posts, c) == b.categories[c].postCount;
      }
    }
  }

  /** Editing with the corrected hashtag handling keeps the counters
      consistent: the old tags and category lose the post, the new ones
      gain it. */
  lemma EditFixedConsistent(b: Board, caller: Caller, postId: Id, body: PostBody)
    requires Consistent(b)
    ensures Consistent(EditPostFixed(b, caller, postId, body).1)
  {
    var r := EditPostFixed(b, caller, postId, body);
    if r.0 == 200 {
      var i := FindPost(b.posts, postId).value;
      var p := b.posts[i];
      var names := if body.hashtags.Some? then Some(TagNamesFixed(body.hashtags.value)) else None;
      var q := Edited(p, body, names);
      assert r.1.posts == b.posts[i := q];
      EditFixedTags(b, i, q, r.1, body.hashtags.Some?);
      EditFixedCats(b, i, q, r.1, body.categoryId);
    }
  }

  lemma EditFixedTags(b: Board, i: nat, q: Post, after: Board, retag: bool)
    requires TagsConsistent(b) && i < |b.posts|
    requires after.posts == b.posts[i := q]
    requires !retag ==> q.hashtags == b.posts[i].hashtags && after.hashtags == b.hashtags
    requires retag ==> after.hashtags == ApplyTagsFixed(DropTags(b.hashtags, b.posts[i].hashtags), q.hashtags)
    ensures TagsConsistent(after)
  {
    forall n ensures TagRefs(after.posts, n) == TagCount(after.hashtags, n) {
      SumReplace(b.posts, i, q, TagWeight(n));
      assert TagRefs(b.posts, n) == TagCount(b.hashtags, n);
      if retag {
        DropCount(b, i, n);
        ApplyFixedCount(DropTags(b.hashtags, b.posts[i].hashtags), q.hashtags, n);
      }
    }
  }

  lemma EditFixedCats(b: Board, i: nat, q: Post, after: Board, to: Id)
    requires CatsConsistent(b) && i < |b.posts|
    requires after.posts == b.posts[i := q]
    requires q.category == (if to != "" then to else b.posts[i].category)
    requires after.categories == MoveCategory(b.categories, b.posts[i].category, to)
    ensures CatsConsistent(after)
  {
    var from := b.posts[i].category;
    forall c | c in after.categories ensures after.categories[c].postCount == CatRefs(after.posts, c) {
      SumReplace(b.posts, i, q, CatWeight(c));
      assert CatRefs(b.posts, c) == b.categories[c].postCount;
    }
  }

  /** Replacing a post by one with the same hashtags and category keeps
      the counters consistent. */
  lemma {:induction false} ReplaceKeepsCounts(b: Board, i: nat, q: Post)
    requires Consistent(b) && i < |b.posts|
    requires q.hashtags == b.posts[i].hashtags && q.category == b.posts[i].category
    ensures Consistent(b.(posts := b.posts[i := q]))
  {
    var after := b.(posts := b.posts[i := q]);
    forall n ensures TagRefs(after.posts, n) == TagCount(after.hashtags, n) {
      SumReplace(b.posts, i, q, TagWeight(n));
      assert TagRefs(b.posts, n) == TagCount(b.hashtags, n);
    }
    forall c | c in after.categories ensures after.categories[c].postCount == CatRefs(after.posts, c) {
      SumReplace(b.posts, i, q, CatWeight(c));
      assert CatRefs(b.posts, c) == b.categories[c].postCount;
    }
  }

  /** Liking a post touches no counter. */
  lemma LikePostConsistent(b: Board, user: Id, postId: Id)
    requires Consistent(b)
    ensures Consistent(LikePost(b, user, postId).1)
  {
    var r := LikePost(b, user, postId);
    if r.0.code == 200 {
      var i := FindPost(b.posts, postId).value;
      ReplaceKeepsCounts(b, i, r.1.posts[i]);
    }
  }

  /** Liking a comment touches no counter. */
  lemma LikeCommentConsistent(b: Board, user: Id, commentId: Id)
    requires Consistent(b)
    ensures Consistent(LikeComment(b, user, commentId).1)
  {
    var r := LikeComment(b, user, commentId);
    if r.0.code == 200 {
      var (i, j) := FindPostWithComment(b.posts, commentId).value;
      ReplaceKeepsCounts(b, i, r.1.posts[i]);
    }
  }

  /** Commenting touches no counter. */
  lemma CommentConsistent(b: Board, user: Id, postId: Id, content: string, newId: Id)
    requires Consistent(b)
    ensures Consistent(AddComment(b, user, postId, content, newId).1)
  {
    var r := AddComment(b, user, postId, content, newId);
    if r.0 == 201 {
      var i := FindPost(b.posts, postId).value;
      ReplaceKeepsCounts(b, i, r.1.posts[i]);
    }
  }

  /** Replying to a comment touches no counter. */
  lemma ReplyConsistent(b: Board, user: Id, commentId: Id, content: string)
    requires Consistent(b)
    ensures Consistent(ReplyToComment(b, user, commentId, content).1)
  {
    var r := ReplyToComment(b, user, commentId, content);
    if r.0 == 201 {
      var (i, j) := FindPostWithComment(b.posts, commentId).value;
      ReplaceKeepsCounts(b, i, r.1.posts[i]);
    }
  }

  /** Viewing a post touches no counter. */
  lemma ViewConsistent(b: Board, postId: Id)
    requires Consistent(b)
    ensures Consistent(ViewPost(b, postId).1)
  {
    var r := ViewPost(b, postId);
    if r.0 == 200 {
      var i := FindPost(b.posts, postId).value;
      ReplaceKeepsCounts(b, i, r.1.posts[i]);
    }
  }

  // ---------------------------------------------------------------- the handlers as written

  const Maths: Category := Category("Maths", "maths", 0)

  /** A forum with one empty category "c" and no posts. */
  const Fresh: Board := Board([], map["c" := Maths], map[])

  /** The request body of a post tagged `tags` in category `cat`. */
  function Tagged(cat: Id, tags: seq<string>): PostBody {
    PostBody("Title", "Text", cat, Some(tags), None)
  }

  lemma MathTagNames()
    ensures TagNames(["math"]) == ["math"]
  {
    var t := "math";
    assert t[0] == 'm' && t[|t| - 1] == 'h';
    assert Text.NoUpper(t) by {
      forall i | 0 <= i < |t| ensures !Text.IsUpper(t[i]) {
        assert t[i] in "math";
      }
    }
    assert !Text.StartsWith(t, "#") by {
      assert t[..1] == "m";
    }
    PlainTagKept(t);
  }

  /** As written, the first post with a new hashtag leaves that hashtag's
      counter at 0 (`Hashtag.create` without an increment), although one
      post references it. */
  lemma NewTagCountedZero()
    ensures var r := CreatePost(Fresh, Some("u"), Tagged("c", ["math"]), "p");
      && r.0 == 201
      && r.1.hashtags == map["math" := 0]
      && TagRefs(r.1.posts, "math") == 1
      && !Consistent(r.1)
  {
    var r := CreatePost(Fresh, Some("u"), Tagged("c", ["math"]), "p");
    FreshMathPost();
    OnlyPost(r.1.posts[0], "math");
    NotConsistent(r.1, "math");
  }

  lemma FreshConsistent()
    ensures Consistent(Fresh)
  {
    EmptyConsistent(Fresh.categories);
  }

  lemma FreshMathPost()
    ensures var r := CreatePost(Fresh, Some("u"), Tagged("c", ["math"]), "p");
      && r.0 == 201 && r.1.hashtags == map["math" := 0]
      && r.1.posts == [] + [r.1.posts[0]] && r.1.posts[0].hashtags == ["math"]
  {
    MathTagNames();
    ApplyOne(map[], "math");
  }

  /** A lone post tagged once with `n` is its one reference. */
  lemma OnlyPost(p: Post, n: string)
    requires p.hashtags == [n]
    ensures TagRefs([] + [p], n) == 1
  {
    SumAppend([], p, TagWeight(n));
    assert Count([n], n) == 1;
  }

  /** A hashtag whose counter differs from its references. */
  lemma NotConsistent(b: Board, n: string)
    requires TagRefs(b.posts, n) != TagCount(b.hashtags, n)
    ensures !Consistent(b)
  {
  }

  /** One post in "c", tagged "math", with both counters at 1. */
  const Seeded: Board :=
    Board([NewPost("p0", "Title", "Text", "u", "c", ["math"], None)], map["c" := Maths.(postCount := 1)], map["math" := 1])

  lemma SeededConsistent()
    ensures Consistent(Seeded)
  {
    var p := Seeded.posts[0];
    assert Seeded.posts == [] + [p];
    forall n ensures TagRefs(Seeded.posts, n) == TagCount(Seeded.hashtags, n) {
      SumAppend([], p, TagWeight(n));
    }
    forall c | c in Seeded.categories ensures Seeded.categories[c].postCount == CatRefs(Seeded.posts, c) {
      SumAppend([], p, CatWeight(c));
    }
  }

  /** As written, a post refused for an unknown category has already
      counted its hashtags: the counter reads 2 with one post. */
  lemma UnknownCategoryCountsTags()
    ensures var r := CreatePost(Seeded, Some("u"), Tagged("nope", ["math"]), "p1");
      && r.0 == 404
      && r.1.posts == Seeded.posts
      && TagCount(r.1.hashtags, "math") == 2
      && !Consistent(r.1)
  {
    var r := CreatePost(Seeded, Some("u"), Tagged("nope", ["math"]), "p1");
    SeededMathPost();
    OnlyPost(Seeded.posts[0], "math");
    assert Seeded.posts == [] + [Seeded.posts[0]];
    NotConsistent(r.1, "math");
  }

  lemma SeededMathPost()
    ensures var r := CreatePost(Seeded, Some("u"), Tagged("nope", ["math"]), "p1");
      r.0 == 404 && r.1.posts == Seeded.posts && TagCount(r.1.hashtags, "math") == 2
  {
    MathTagNames();
    ApplyOne(map["math" := 1], "math");
  }

  /** The same tag with a leading `#` has the same normal form. */
  lemma HashTagNormal(t: string)
    requires t != "" && Text.NoUpper(t) && !Text.StartsWith(t, "#")
    requires !Text.IsSpace(t[0]) && !Text.IsSpace(t[|t| - 1])
    ensures NormalizeTag("#" + t) == Some(t)
  {
    var h := "#" + t;
    assert h[0] == '#' && h[|h| - 1] == t[|t| - 1];
    assert Text.TrimStart(h) == h;
    assert Text.TrimEnd(h) == h;
    assert Text.Trim(h) == h;
    assert Text.NoUpper(h) by {
      forall i | 0 <= i < |h| ensures !Text.IsUpper(h[i]) {
        if i > 0 { assert h[i] == t[i - 1]; }
      }
    }
    assert Text.Lower(h) == h;
    assert h[..1] == "#" && h[1..] == t;
    assert StripHash(h) == t;
    PlainTagKept(t);
  }

  /** Two raw tags with the same normal form `n`, the second not equal
      to `n` itself, are both kept by the loop as written. */
  lemma ProcessTwoSame(tags: seq<RawTag>, n: string)
    requires |tags| == 2
    requires tags[0].raw != "" && tags[0].norm == Some(n)
    requires tags[1].raw != "" && tags[1].raw != n && tags[1].norm == Some(n)
    ensures ProcessTags(tags, []) == [n, n]
  {
    var rest := tags[1..];
    assert rest[1..] == [];
    assert ProcessTags(tags, []) == ProcessTags(rest, [] + [n]);
    assert [] + [n] == [n];
    assert tags[1].raw !in [n];
    assert ProcessTags(rest, [n]) == ProcessTags(rest[1..], [n] + [n]);
    assert [n] + [n] == [n, n];
  }

  /** The raw tags `t` and `#t` and their (equal) normal forms. */
  lemma RepeatedCleaned(t: string)
    requires t != "" && Text.NoUpper(t) && !Text.StartsWith(t, "#")
    requires !Text.IsSpace(t[0]) && !Text.IsSpace(t[|t| - 1])
    ensures var c := Cleaned([t, "#" + t]);
      && |c| == 2
      && c[0] == RawTag(t, Some(t))
      && c[1] == RawTag("#" + t, Some(t))
  {
    PlainTagKept(t);
    HashTagNormal(t);
  }

  /** As written, a tag followed by the same tag with a `#` is stored
      twice: the repeat check compares the raw `#` form with the cleaned
      names. */
  lemma RepeatedTagKept(t: string)
    requires t != "" && Text.NoUpper(t) && !Text.StartsWith(t, "#")
    requires !Text.IsSpace(t[0]) && !Text.IsSpace(t[|t| - 1])
    ensures TagNames([t, "#" + t]) == [t, t]
    ensures !Distinct(TagNames([t, "#" + t]))
  {
    RepeatedCleaned(t);
    assert |"#" + t| == |t| + 1;
    ProcessTwoSame(Cleaned([t, "#" + t]), t);
    var r := TagNames([t, "#" + t]);
    assert r[0] == r[1];
  }

  /** The corrected loop keeps that tag once. */
  lemma RepeatedTagOnce(t: string)
    requires t != "" && Text.NoUpper(t) && !Text.StartsWith(t, "#")
    requires !Text.IsSpace(t[0]) && !Text.IsSpace(t[|t| - 1])
    ensures Distinct(TagNamesFixed([t, "#" + t]))
    ensures forall x :: x in TagNamesFixed([t, "#" + t]) <==> x == t
  {
    RepeatedCleaned(t);
    var tags := Cleaned([t, "#" + t]);
    forall x ensures NormalOf(tags, x) <==> x == t {
      if x == t { assert tags[0].norm == Some(x); }
      if NormalOf(tags, x) {
        var j :| 0 <= j < |tags| && tags[j].norm == Some(x);
        assert j == 0 || j == 1;
      }
    }
  }

  /** The corrected handler refuses the same request without touching any
      counter. */
  lemma UnknownCategoryFixed()
    ensures CreatePostFixed(Seeded, Some("u"), Tagged("nope", ["math"]), "p1") == (404, Seeded)
  {
  }
}

=== FILE: forum.dfy ===
/** The discussion forum's records (models/discussion.model.js) and the
    hashtag handling shared by `createPost` and `editPost`
    (controllers/discussion.controller.js). Document ids are strings; a
    hashtag is identified by its (unique) name. */
module Forum {
  import opened Wrappers
  import opened Text
  import opened Lists

  /** A category: `name` and `slug` are required and unique, `postCount`
      starts at 0. Counters are plain integers: `$inc: -1` can take them
      below zero. */
  datatype Category = Category(name: string, slug: string, postCount: int)

  function NewCategory(name: string, slug: string): (c: Category)
    ensures c.postCount == 0 && c.name == name && c.slug == slug
  {
    Category(name, slug, 0)
  }

  /** A reply nests inside a comment; both need content and an author. */
  datatype Reply = Reply(content: string, author: Id, likes: seq<Id>)

  datatype Comment = Comment(id: Id, content: string, author: Id, likes: seq<Id>, replies: seq<Reply>)

  /** A post: title, content, author and category are required; `views`
      starts at 0. `hashtags` holds hashtag names. */
  datatype Post = Post(
    id: Id,
    title: string,
    content: string,
    author: Id,
    category: Id,
    hashtags: seq<string>,
    likes: seq<Id>,
    comments: seq<Comment>,
    views: nat,
    image: Option<string>)

  /** The required fields of each record are present. */
  predicate PostComplete(p: Post) {
    p.title != "" && p.content != "" && p.author != "" && p.category != ""
    && forall i :: 0 <= i < |p.comments| ==> CommentComplete(p.comments[i])
  }

  predicate CommentComplete(c: Comment) {
    c.content != "" && c.author != ""
    && forall j :: 0 <= j < |c.replies| ==> c.replies[j].content != "" && c.replies[j].author != ""
  }

  /** A freshly created post: no likes, comments or views yet. */
  function NewPost(id: Id, title: string, content: string, author: Id, category: Id,
                   hashtags: seq<string>, image: Option<string>): (p: Post)
    ensures p.views == 0 && p.likes == [] && p.comments == []
    ensures title != "" && content != "" && author != "" && category != "" ==> PostComplete(p)
  {
    Post(id, title, content, author, category, hashtags, [], [], 0, image)
  }

  /** The forum's collections: posts in creation order, categories by id,
      hashtag post counters by name. */
  datatype Board = Board(posts: seq<Post>, categories: map<Id, Category>, hashtags: map<string, int>)

  // ---------------------------------------------------------------- tag normalisation

  /** One leading `#` dropped. */
  function StripHash(t: string): (u: string)
    ensures StartsWith(t, "#") ==> u == t[1..]
    ensures !StartsWith(t, "#") ==> u == t
    ensures NoUpper(t) ==> NoUpper(u)
  {
    if StartsWith(t, "#") then t[1..] else t
  }

  /** One tag as the handlers clean it: trimmed and lower-cased, one
      leading `#` dropped, trimmed again; an empty result is skipped. */
  function NormalizeTag(raw: string): (r: Option<string>)
    ensures r.Some? ==> r.value != "" && Trim(r.value) == r.value && NoUpper(r.value)
    ensures IsBlank(raw) ==> r.None?
  {
    var u := StripHash(Lower(Trim(raw)));
    TrimNoUpper(u);
    TrimIdempotent(u);
    var v := Trim(u);
    if v == "" then None else Some(v)
  }

  /** A tag that does not start with `#` is its own normal form. */
  lemma NormalizeFixes(tag: string)
    requires NormalizeTag(tag).Some? && !StartsWith(NormalizeTag(tag).value, "#")
    ensures NormalizeTag(NormalizeTag(tag).value) == NormalizeTag(tag)
  {
    var v := NormalizeTag(tag).value;
    assert Trim(v) == v && NoUpper(v) && v != "";
    assert Lower(Trim(v)) == v;
    assert StripHash(Lower(Trim(v))) == v;
    TrimIdempotent(v);
  }

  /** A raw tag beside its normal form. */
  datatype RawTag = RawTag(raw: string, norm: Option<string>)

  /** The normal form of every raw tag, computed once. */
  function Cleaned(raws: seq<string>): (r: seq<RawTag>)
    ensures |r| == |raws|
    ensures forall i :: 0 <= i < |raws| ==> r[i] == RawTag(raws[i], NormalizeTag(raws[i]))
  {
    seq(|raws|, i requires 0 <= i < |raws| => RawTag(raws[i], NormalizeTag(raws[i])))
  }

  /** `n` is the normal form of one of the tags. */
  predicate NormalOf(tags: seq<RawTag>, n: string) {
    exists j :: 0 <= j < |tags| && tags[j].norm == Some(n)
  }

  /** The tag loop as written: a raw tag is skipped when it is empty or
      when it equals a tag already processed (the comparison uses the raw
      value, not its normal form); otherwise its normal form, if any, is
      added. `acc` is the list processed so far. */
  function ProcessTags(tags: seq<RawTag>, acc: seq<string>): (r: seq<string>)
    ensures |acc| <= |r| && r[..|acc|] == acc
    ensures forall k :: |acc| <= k < |r| ==> NormalOf(tags, r[k])
    decreases |tags|
  {
    if |tags| == 0 then acc
    else
      var t := tags[0];
      var rest := tags[1..];
      var next :=
        if t.raw == "" || t.raw in acc || t.norm.None? then acc
        else acc + [t.norm.value];
      var r := ProcessTags(rest, next);
      forall k | |acc| <= k < |r| ensures NormalOf(tags, r[k]) {
        if k < |next| {
          assert r[k] == t.norm.value && tags[0] == t;
        } else {
          var j :| 0 <= j < |rest| && rest[j].norm == Some(r[k]);
          assert tags[j + 1] == rest[j];
        }
      }
      r
  }

  /** The names `createPost` and `editPost` keep from a request's raw
      tags: each one the normal form of some raw tag. */
  function TagNames(raws: seq<string>): (r: seq<string>)
    ensures forall k :: 0 <= k < |r| ==> NormalOf(Cleaned(raws), r[k])
  {
    ProcessTags(Cleaned(raws), [])
  }

  /** The tag loop with duplicates judged by the normal form: each name is
      kept once, and every raw tag that has a normal form is represented. */
  function DistinctTags(tags: seq<RawTag>, acc: seq<string>): (r: seq<string>)
    ensures |acc| <= |r| && r[..|acc|] == acc
    ensures Distinct(acc) ==> Distinct(r)
    ensures forall k :: |acc| <= k < |r| ==> NormalOf(tags, r[k])
    ensures forall j :: 0 <= j < |tags| && tags[j].norm.Some? ==> tags[j].norm.value in r
    decreases |tags|
  {
    if |tags| == 0 then acc
    else
      var t := tags[0];
      var rest := tags[1..];
      var next :=
        if t.norm.None? || t.norm.value in acc then acc
        else acc + [t.norm.value];
      var r := DistinctTags(rest, next);
      forall k | |acc| <= k < |r| ensures NormalOf(tags, r[k]) {
        if k < |next| {
          assert r[k] == t.norm.value && tags[0] == t;
        } else {
          var j :| 0 <= j < |rest| && rest[j].norm == Some(r[k]);
          assert tags[j + 1] == rest[j];
        }
      }
      forall j | 0 <= j < |tags| && tags[j].norm.Some? ensures tags[j].norm.value in r {
        if j == 0 {
          var i :| 0 <= i < |next| && next[i] == t.norm.value;
          assert r[..|next|][i] == r[i];
        } else {
          assert rest[j - 1] == tags[j];
        }
      }
      r
  }

  /** The names the corrected handlers keep: each normal form of a raw
      tag, once. */
  function TagNamesFixed(raws: seq<string>): (r: seq<string>)
    ensures Distinct(r)
    ensures forall x :: x in r <==> NormalOf(Cleaned(raws), x)
  {
    var tags := Cleaned(raws);
    var r := DistinctTags(tags, []);
    forall x | NormalOf(tags, x) ensures x in r {
      var j :| 0 <= j < |tags| && tags[j].norm == Some(x);
    }
    forall x | x in r ensures NormalOf(tags, x) {
      var k :| 0 <= k < |r| && r[k] == x;
    }
    r
  }

  /** The counter updates as written: an existing hashtag gains one, a new
      one is created with the schema default 0. */
  function ApplyTags(counts: map<string, int>, names: seq<string>): map<string, int>
    decreases |names|
  {
    if |names| == 0 then counts
    else
      var n := names[0];
      var next := if n in counts then counts[n := counts[n] + 1] else counts[n := 0];
      ApplyTags(next, names[1..])
  }

  /** What the loop leaves for each name: an existing hashtag gains one per
      occurrence, a new one one fewer than its occurrences (its first
      occurrence only creates it); other hashtags are untouched. */
  lemma {:induction false} ApplyTagsAt(counts: map<string, int>, names: seq<string>, m: string)
    ensures m in ApplyTags(counts, names) <==> m in counts || Count(names, m) > 0
    ensures m in ApplyTags(counts, names) ==>
      ApplyTags(counts, names)[m] == if m in counts then counts[m] + Count(names, m) else Count(names, m) - 1
    decreases |names|
  {
    if |names| > 0 {
      var n := names[0];
      var next := if n in counts then counts[n := counts[n] + 1] else counts[n := 0];
      ApplyTagsAt(next, names[1..], m);
    }
  }

  /** The counter updates of an upsert with `$inc: 1`: every occurrence
      adds one, starting from 0 for a new hashtag. */
  function ApplyTagsFixed(counts: map<string, int>, names: seq<string>): map<string, int>
    decreases |names|
  {
    if |names| == 0 then counts
    else
      var n := names[0];
      var next := counts[n := (if n in counts then counts[n] else 0) + 1];
      ApplyTagsFixed(next, names[1..])
  }

  /** Each hashtag ends up counting exactly its occurrences more. */
  lemma {:induction false} ApplyTagsFixedAt(counts: map<string, int>, names: seq<string>, m: string)
    ensures m in ApplyTagsFixed(counts, names) <==> m in counts || Count(names, m) > 0
    ensures m in ApplyTagsFixed(counts, names) ==>
      ApplyTagsFixed(counts, names)[m] == (if m in counts then counts[m] else 0) + Count(names, m)
    decreases |names|
  {
    if |names| > 0 {
      var n := names[0];
      var next := counts[n := (if n in counts then counts[n] else 0) + 1];
      ApplyTagsFixedAt(next, names[1..], m);
    }
  }

  /** `$inc: -1` on each listed hashtag; an id with no document changes
      nothing. */
  function DropTags(counts: map<string, int>, names: seq<string>): map<string, int>
    decreases |names|
  {
    if |names| == 0 then counts
    else
      var n := names[0];
      var next := if n in counts then counts[n := counts[n] - 1] else counts;
      DropTags(next, names[1..])
  }

  /** Each existing hashtag loses one per occurrence; none is created. */
  lemma {:induction false} DropTagsAt(counts: map<string, int>, names: seq<string>, m: string)
    ensures m in DropTags(counts, names) <==> m in counts
    ensures m in counts ==> DropTags(counts, names)[m] == counts[m] - Count(names, m)
    decreases |names|
  {
    if |names| > 0 {
      var n := names[0];
      var next := if n in counts then counts[n := counts[n] - 1] else counts;
      DropTagsAt(next, names[1..], m);
    }
  }

  /** A tag already in normal form is kept as it is. */
  lemma PlainTagKept(t: string)
    requires t != "" && NoUpper(t) && !StartsWith(t, "#")
    requires !IsSpace(t[0]) && !IsSpace(t[|t| - 1])
    ensures NormalizeTag(t) == Some(t)
    ensures TagNames([t]) == [t]
  {
    assert TrimStart(t) == t;
    assert TrimEnd(t) == t;
    assert Trim(t) == t;
    assert Lower(t) == t;
    assert StripHash(t) == t;
    TrimIdempotent(t);
    var tags := Cleaned([t]);
    assert tags == [RawTag(t, Some(t))];
    assert tags[1..] == [];
    assert ProcessTags(tags, []) == ProcessTags(tags[1..], [t]);
  }

  /** The loop over a single name. */
  lemma ApplyOne(counts: map<string, int>, n: string)
    ensures ApplyTags(counts, [n]) == if n in counts then counts[n := counts[n] + 1] else counts[n := 0]
  {
    assert [n][1..] == [];
  }
}

=== FILE: lists.dfy ===
/** Membership lists as the Mongoose arrays of ids are used throughout the
    program: likes, followers, following, saved posts. */
module Lists {
  import opened Wrappers

  /** A document id (an `ObjectId` in its string form). */
  type Id = string

  /** `filter(x => x !== v)`: every entry equal to `v` removed, the rest in
      order. */
  function Without(xs: seq<Id>, v: Id): (r: seq<Id>)
    ensures v !in r
    ensures forall y :: y != v ==> (y in r <==> y in xs)
    ensures |r| <= |xs|
    ensures v !in xs ==> r == xs
    decreases |xs|
  {
    if |xs| == 0 then []
    else
      var rest := Without(xs[..|xs| - 1], v);
      var last := xs[|xs| - 1];
      assert xs == xs[..|xs| - 1] + [last];
      if last == v then rest else rest + [last]
  }

  /** The like/follow/save toggle: remove every entry of a present member,
      append an absent one. */
  function Toggle(xs: seq<Id>, v: Id): (r: seq<Id>)
    ensures v in r <==> v !in xs
    ensures forall y :: y != v ==> (y in r <==> y in xs)
    ensures v !in xs ==> r == xs + [v]
  {
    if v in xs then Without(xs, v) else xs + [v]
  }

  /** No repeated entries. */
  predicate Distinct(xs: seq<Id>) {
    forall i, j :: 0 <= i < j < |xs| ==> xs[i] != xs[j]
  }

  /** How many entries equal `v`. */
  function Count(xs: seq<Id>, v: Id): (k: nat)
    ensures k <= |xs|
    decreases |xs|
  {
    if |xs| == 0 then 0 else (if xs[0] == v then 1 else 0) + Count(xs[1..], v)
  }

  /** A value occurs in a list exactly when it is counted there, and at
      most once in a list without repeats. */
  lemma {:induction false} CountIn(xs: seq<Id>, v: Id)
    ensures Count(xs, v) > 0 <==> v in xs
    ensures Distinct(xs) ==> Count(xs, v) <= 1
    decreases |xs|
  {
    if |xs| > 0 {
      CountIn(xs[1..], v);
      assert v in xs <==> xs[0] == v || v in xs[1..];
      if Distinct(xs) {
        assert Distinct(xs[1..]);
        assert xs[0] !in xs[1..];
      }
    }
  }

  /** Without repeats, a toggle changes the length by exactly one. */
  lemma {:induction false} WithoutDistinct(xs: seq<Id>, v: Id)
    requires Distinct(xs)
    ensures Distinct(Without(xs, v))
    ensures |Without(xs, v)| == if v in xs then |xs| - 1 else |xs|
    decreases |xs|
  {
    if |xs| > 0 {
      var init := xs[..|xs| - 1];
      var last := xs[|xs| - 1];
      assert xs == init + [last];
      assert last !in init;
      WithoutDistinct(init, v);
      var rest := Without(init, v);
      if last != v {
        assert last !in rest;
      }
    }
  }

  /** Toggling twice restores membership, and a list without repeats keeps
      none, so the count the handlers report moves by one each time. */
  lemma ToggleTwice(xs: seq<Id>, v: Id)
    requires Distinct(xs)
    ensures forall y :: y in Toggle(Toggle(xs, v), v) <==> y in xs
    ensures Distinct(Toggle(xs, v))
    ensures |Toggle(xs, v)| == if v in xs then |xs| - 1 else |xs| + 1
  {
    WithoutDistinct(xs, v);
  }

  /** The position of an entry whose key is `k` (`findById` over a list of
      documents or subdocuments); none when no entry has that key. The
      search runs from the end, so with repeated keys it finds the last
      entry where `findById` finds the first; the stores keep ids unique,
      and there the two agree. */
  function FindKey<T, K(==)>(xs: seq<T>, key: T -> K, k: K): (r: Option<nat>)
    ensures r.Some? ==> r.value < |xs| && key(xs[r.value]) == k
    ensures r.None? ==> forall i :: 0 <= i < |xs| ==> key(xs[i]) != k
    decreases |xs|
  {
    if |xs| == 0 then None
    else if key(xs[|xs| - 1]) == k then Some(|xs| - 1)
    else FindKey(xs[..|xs| - 1], key, k)
  }
}

=== FILE: paging.dfy ===
/** Page arithmetic shared by the activity history (controllers/user.controller.js
    `getUserActivity`, public/assets/js/app.js `renderPagination`) and the
    user directory (`exploreUsers`): `Math.ceil` of a page count, the
    window of at most five page links around the current page, and the
    rendered strip of controls. */
module Paging {

  function Max(a: int, b: int): int {
    if a >= b then a else b
  }

  function Min(a: int, b: int): int {
    if a <= b then a else b
  }

  /** `Math.ceil(a / b)` on integers, for a divisor of either sign. */
  function CeilDiv(a: int, b: int): (r: int)
    requires b != 0
    ensures b > 0 ==> r * b >= a && (r - 1) * b < a
    ensures b < 0 ==> r * -b >= -a && (r - 1) * -b < -a
    decreases if b > 0 then 0 else 1
  {
    if b > 0 then (a + b - 1) / b else CeilDiv(-a, -b)
  }

  /** Enough pages of `limit` rows for `total` rows, and no page to
      spare; a positive total needs at least one page. */
  lemma CeilDivPages(total: nat, limit: int)
    requires limit > 0
    ensures CeilDiv(total, limit) >= 0
    ensures total > 0 <==> CeilDiv(total, limit) >= 1
    ensures total <= limit <==> CeilDiv(total, limit) <= 1
  {
    var r := CeilDiv(total, limit);
    if total > limit {
      assert r * limit >= total;
    }
    if r >= 2 {
      assert (r - 1) * limit >= limit;
    }
  }

  /** One numbered link: its page and whether it is the current one. */
  datatype PageLink = PageLink(page: int, active: bool)

  /** The links `lo`, `lo + 1`, …, `hi`. */
  function Span(lo: int, hi: int, current: int): (r: seq<PageLink>)
    ensures |r| == if lo > hi then 0 else hi - lo + 1
    ensures forall k :: 0 <= k < |r| ==> r[k].page == lo + k && (r[k].active <==> lo + k == current)
    decreases hi - lo
  {
    if lo > hi then [] else [PageLink(lo, lo == current)] + Span(lo + 1, hi, current)
  }

  /** Whether the links show page `i`. */
  predicate Shows(links: seq<PageLink>, i: int) {
    exists k :: 0 <= k < |links| && links[k].page == i
  }

  /** The window `max(1, page - 2) .. min(pages, page + 2)`, the link of
      `page` marked active. */
  function Window(page: int, pages: int): (r: seq<PageLink>)
    ensures |r| <= 5
    ensures forall k :: 0 <= k < |r| ==> 1 <= r[k].page <= pages && page - 2 <= r[k].page <= page + 2
    ensures forall k :: 0 <= k < |r| ==> (r[k].active <==> r[k].page == page)
    ensures forall k :: 0 <= k < |r| - 1 ==> r[k + 1].page == r[k].page + 1
    ensures forall i :: Shows(r, i) <==> 1 <= i <= pages && page - 2 <= i <= page + 2
  {
    var lo := Max(1, page - 2);
    var hi := Min(pages, page + 2);
    var r := Span(lo, hi, page);
    forall i ensures Shows(r, i) <==> 1 <= i <= pages && page - 2 <= i <= page + 2 {
      if lo <= i <= hi {
        assert r[i - lo].page == i;
      }
    }
    r
  }

  /** Exactly one link is active when the current page is a real page,
      and none otherwise. */
  lemma WindowActive(page: int, pages: int)
    ensures 1 <= page <= pages ==> Shows(Window(page, pages), page)
    ensures forall j, k :: 0 <= j < k < |Window(page, pages)| ==> !(Window(page, pages)[j].active && Window(page, pages)[k].active)
    ensures (exists k :: 0 <= k < |Window(page, pages)| && Window(page, pages)[k].active) <==> 1 <= page <= pages
  {
    var r := Window(page, pages);
    if 1 <= page <= pages {
      assert Shows(r, page);
      var k :| 0 <= k < |r| && r[k].page == page;
      assert r[k].active;
    }
  }

  // ---------------------------------------------------------------- the rendered controls

  /** One control of the pagination bar. */
  datatype Control = Prev(disabled: bool) | Link(page: int, active: bool) | Gap | Next(disabled: bool)

  function Links(ws: seq<PageLink>): (r: seq<Control>)
    ensures |r| == |ws|
    ensures forall k :: 0 <= k < |r| ==> r[k] == Link(ws[k].page, ws[k].active)
  {
    seq(|ws|, k requires 0 <= k < |ws| => Link(ws[k].page, ws[k].active))
  }

  /** The first page and a gap, as the window starts after page 1 or 2. */
  function Head(lo: int): seq<Control> {
    if lo > 1 then [Link(1, false)] + (if lo > 2 then [Gap] else []) else []
  }

  /** A gap and the last page, as the window ends before it. */
  function Tail(hi: int, pages: int): seq<Control> {
    if hi < pages then (if hi < pages - 1 then [Gap] else []) + [Link(pages, false)] else []
  }

  /** `renderPagination`: previous, the first page and a gap when the
      window starts later, the window, a gap and the last page when it ends
      earlier, next. */
  function Render(page: int, pages: int): (r: seq<Control>)
    ensures |r| >= 2
    ensures r[0] == Prev(page <= 1) && r[|r| - 1] == Next(page >= pages)
  {
    var bar := Head(Max(1, page - 2)) + Links(Window(page, pages)) + Tail(Min(pages, page + 2), pages);
    [Prev(page <= 1)] + bar + [Next(page >= pages)]
  }

  /** The list of activities shows the bar only beyond one page. */
  predicate ShowsBar(pages: int) {
    pages > 1
  }

  /** A run of page links and gaps from page `first` to page `last`:
      adjacent links are consecutive pages, and a gap stands exactly for
      pages skipped between the links on either side of it. */
  ghost predicate Strip(cs: seq<Control>, first: int, last: int) {
    && |cs| >= 1
    && cs[0].Link? && cs[0].page == first
    && cs[|cs| - 1].Link? && cs[|cs| - 1].page == last
    && (forall j :: 0 <= j < |cs| ==> cs[j].Link? || cs[j].Gap?)
    && (forall j :: 0 <= j < |cs| - 1 ==> cs[j].Link? && cs[j + 1].Link? ==> cs[j + 1].page == cs[j].page + 1)
    && (forall j :: 0 < j < |cs| - 1 ==> cs[j].Gap? ==> cs[j - 1].Link? && cs[j + 1].Link? && cs[j + 1].page > cs[j - 1].page + 1)
  }

  /** A window that is not empty is a strip. */
  lemma WindowStrip(page: int, pages: int)
    requires 1 <= page <= pages
    ensures Strip(Links(Window(page, pages)), Max(1, page - 2), Min(pages, page + 2))
  {
    var w := Window(page, pages);
    var lo := Max(1, page - 2);
    var hi := Min(pages, page + 2);
    assert Shows(w, lo) && Shows(w, hi);
    assert w[0].page == lo by {
      var k :| 0 <= k < |w| && w[k].page == lo;
    }
    assert w[|w| - 1].page == hi by {
      var k :| 0 <= k < |w| && w[k].page == hi;
    }
  }

  /** Two strips joined directly, when the second starts at the next
      page. */
  lemma JoinStrips(a: seq<Control>, b: seq<Control>, x: int, y: int, z: int)
    requires Strip(a, x, y) && Strip(b, y + 1, z)
    ensures Strip(a + b, x, z)
  {
    var c := a + b;
    forall j | 0 <= j < |c| - 1 && c[j].Link? && c[j + 1].Link?
      ensures c[j + 1].page == c[j].page + 1
    {
      if j < |a| - 1 {
        assert c[j] == a[j] && c[j + 1] == a[j + 1];
      } else if j >= |a| {
        assert c[j] == b[j - |a|] && c[j + 1] == b[j - |a| + 1];
      }
    }
    forall j | 0 < j < |c| - 1 && c[j].Gap?
      ensures c[j - 1].Link? && c[j + 1].Link? && c[j + 1].page > c[j - 1].page + 1
    {
      if j < |a| - 1 {
        assert c[j - 1] == a[j - 1] && c[j] == a[j] && c[j + 1] == a[j + 1];
      } else if j > |a| {
        assert c[j - 1] == b[j - 1 - |a|] && c[j] == b[j - |a|] && c[j + 1] == b[j + 1 - |a|];
      }
    }
  }

  /** Two strips joined by a gap, when pages lie between them. */
  lemma GapStrips(a: seq<Control>, b: seq<Control>, x: int, y: int, y2: int, z: int)
    requires Strip(a, x, y) && Strip(b, y2, z) && y2 > y + 1
    ensures Strip(a + [Gap] + b, x, z)
  {
    var c := a + [Gap] + b;
    var n := |a|;
    forall j | 0 <= j < |c| - 1 && c[j].Link? && c[j + 1].Link?
      ensures c[j + 1].page == c[j].page + 1
    {
      if j < n - 1 {
        assert c[j] == a[j] && c[j + 1] == a[j + 1];
      } else if j > n {
        assert c[j] == b[j - n - 1] && c[j + 1] == b[j - n];
      }
    }
    forall j | 0 < j < |c| - 1 && c[j].Gap?
      ensures c[j - 1].Link? && c[j + 1].Link? && c[j + 1].page > c[j - 1].page + 1
    {
      if j < n - 1 {
        assert c[j - 1] == a[j - 1] && c[j] == a[j] && c[j + 1] == a[j + 1];
      } else if j == n {
        assert c[j - 1] == a[n - 1] && c[j + 1] == b[0];
      } else if j > n + 1 {
        assert c[j - 1] == b[j - n - 2] && c[j] == b[j - n - 1] && c[j + 1] == b[j - n];
      }
    }
  }

  /** The first page, a gap if needed, and a strip that starts at `lo`. */
  lemma HeadThen(lo: int, mid: seq<Control>, hi: int)
    requires lo >= 1 && Strip(mid, lo, hi)
    ensures Strip(Head(lo) + mid, 1, hi)
  {
    if lo > 2 {
      HeadGap(lo, mid, hi);
    } else if lo > 1 {
      HeadOne(lo, mid, hi);
    } else {
      HeadNone(lo, mid, hi);
    }
  }

  lemma HeadGap(lo: int, mid: seq<Control>, hi: int)
    requires lo > 2 && Strip(mid, lo, hi)
    ensures Strip(Head(lo) + mid, 1, hi)
  {
    GapStrips([Link(1, false)], mid, 1, 1, lo, hi);
    assert Head(lo) + mid == [Link(1, false)] + [Gap] + mid;
  }

  lemma HeadOne(lo: int, mid: seq<Control>, hi: int)
    requires lo == 2 && Strip(mid, lo, hi)
    ensures Strip(Head(lo) + mid, 1, hi)
  {
    JoinStrips([Link(1, false)], mid, 1, 1, hi);
    assert Head(lo) + mid == [Link(1, false)] + mid;
  }

  lemma HeadNone(lo: int, mid: seq<Control>, hi: int)
    requires lo == 1 && Strip(mid, lo, hi)
    ensures Strip(Head(lo) + mid, 1, hi)
  {
    assert Head(lo) + mid == mid;
  }

  /** A strip that ends at `hi`, then a gap if needed and the last page. */
  lemma ThenTail(left: seq<Control>, hi: int, pages: int)
    requires Strip(left, 1, hi) && hi <= pages
    ensures Strip(left + Tail(hi, pages), 1, pages)
  {
    var last := [Link(pages, false)];
    if hi < pages - 1 {
      GapStrips(left, last, 1, hi, pages, pages);
      assert left + Tail(hi, pages) == left + [Gap] + last;
    } else if hi < pages {
      JoinStrips(left, last, 1, hi, pages);
      assert left + Tail(hi, pages) == left + last;
    } else {
      assert left + Tail(hi, pages) == left;
    }
  }

  /** The bar between its arrows, for a real current page, runs from page
      1 to the last page. */
  lemma RenderStrip(page: int, pages: int)
    ensures 1 <= page <= pages ==> var r := Render(page, pages);
      Strip(r[1..|r| - 1], 1, pages)
  {
    if 1 <= page <= pages {
      var hi := Min(pages, page + 2);
      var left := Head(Max(1, page - 2)) + Links(Window(page, pages));
      WindowStrip(page, pages);
      HeadThen(Max(1, page - 2), Links(Window(page, pages)), hi);
      ThenTail(left, hi, pages);
      var r := Render(page, pages);
      assert r[1..|r| - 1] == left + Tail(hi, pages);
    }
  }

  /** The only active control of the bar is the current page's link. */
  lemma RenderActive(page: int, pages: int, j: int)
    requires 0 <= j < |Render(page, pages)|
    requires Render(page, pages)[j].Link? && Render(page, pages)[j].active
    ensures Render(page, pages)[j].page == page
  {
    var lo := Max(1, page - 2);
    var h := Head(lo);
    var m := Links(Window(page, pages));
    var r := Render(page, pages);
    assert r == [Prev(page <= 1)] + h + m + Tail(Min(pages, page + 2), pages) + [Next(page >= pages)];
    if |h| < j <= |h| + |m| {
      assert r[j] == m[j - 1 - |h|];
    }
  }

  // ---------------------------------------------------------------- row numbers

  /** The number printed in front of the `index`-th row of a page. */
  function RowNumber(page: int, limit: int, index: int): int {
    (page - 1) * limit + index + 1
  }

  /** Every one of `total` records gets a number on exactly one page
      within the page count. */
  lemma RowNumberCovers(total: nat, limit: int, n: int)
    requires limit > 0 && 1 <= n <= total
    ensures var page := (n - 1) / limit + 1;
      var index := (n - 1) % limit;
      && 1 <= page <= CeilDiv(total, limit)
      && 0 <= index < limit
      && RowNumber(page, limit, index) == n
  {
    var page := (n - 1) / limit + 1;
    var index := (n - 1) % limit;
    assert (page - 1) * limit + index == n - 1;
  }

  /** Distinct rows of distinct pages carry distinct numbers. */
  lemma RowNumberUnique(limit: int, p1: int, i1: int, p2: int, i2: int)
    requires limit > 0 && 0 <= i1 < limit && 0 <= i2 < limit
    requires RowNumber(p1, limit, i1) == RowNumber(p2, limit, i2)
    ensures p1 == p2 && i1 == i2
  {
    assert (p1 - p2) * limit == i2 - i1;
    if p1 > p2 {
      AtLeastOnce(p1 - p2, limit);
    } else if p2 > p1 {
      AtLeastOnce(p2 - p1, limit);
    }
  }

  lemma AtLeastOnce(k: int, limit: int)
    requires k >= 1 && limit > 0
    ensures k * limit >= limit
  {
  }
}

=== FILE: suggestion_engine.dfy ===
/** The suggestion generator of controllers/suggestion.controller.js:
    reading the user's major from their chats (`analyzeUserMajor`) and
    turning the generative model's reply into storable drafts
    (`generateMultipleSuggestions`). The model and `JSON.parse` are oracles:
    the reply is a parameter, and parsing is a function parameter that
    either yields the parsed value or fails. */
module SuggestionEngine {
  import opened Wrappers
  import opened Text
  import opened TimeSlots
  import opened SuggestionModel

  // ---------------------------------------------------------------- chats and the major

  datatype Message = Message(role: string, content: string)
  datatype Chat = Chat(title: string, messages: seq<Message>)

  /** What the major analysis answers. `detected` is the truthiness of the
      parsed field; a field that is absent or not an array is `None`. */
  datatype Profile = Profile(
    detected: bool,
    major: Option<string>,
    subjects: Option<seq<string>>,
    keywords: Option<seq<string>>)

  /** The answer used whenever nothing was detected or anything failed. */
  const Undetected := Profile(false, None, Some([]), Some([]))

  /** `userProfile.detected && userProfile.major`: both truthy. */
  predicate MajorKnown(p: Profile) {
    p.detected && p.major.Some? && p.major.value != ""
  }

  /** Every user message's content followed by one space, message by message. */
  function MessagesText(ms: seq<Message>): string
    decreases |ms|
  {
    if |ms| == 0 then ""
    else (if ms[0].role == "user" then ms[0].content + " " else "") + MessagesText(ms[1..])
  }

  /** The text collected from the chats, chat by chat. */
  function UserText(chats: seq<Chat>): string
    decreases |chats|
  {
    if |chats| == 0 then "" else MessagesText(chats[0].messages) + UserText(chats[1..])
  }

  lemma BlankAppend(a: string, b: string)
    ensures IsBlank(a + b) <==> IsBlank(a) && IsBlank(b)
  {
    assert forall i :: 0 <= i < |a| ==> (a + b)[i] == a[i];
    assert forall i :: 0 <= i < |b| ==> (a + b)[|a| + i] == b[i];
  }

  /** The collected text of a chat is blank exactly when each of its user
      messages is blank. */
  lemma {:induction false} MessagesTextBlank(ms: seq<Message>)
    ensures IsBlank(MessagesText(ms)) <==>
      forall j :: 0 <= j < |ms| && ms[j].role == "user" ==> IsBlank(ms[j].content)
    decreases |ms|
  {
    if |ms| > 0 {
      var head := if ms[0].role == "user" then ms[0].content + " " else "";
      BlankAppend(head, MessagesText(ms[1..]));
      if ms[0].role == "user" {
        BlankAppend(ms[0].content, " ");
      }
      MessagesTextBlank(ms[1..]);
      assert forall j :: 1 <= j < |ms| ==> ms[j] == ms[1..][j - 1];
    }
  }

  /** The model is consulted about the major only when some user message, in
      some chat, holds a non-blank character. */
  lemma {:induction false} UserTextBlank(chats: seq<Chat>)
    ensures IsBlank(UserText(chats)) <==>
      forall i, j :: 0 <= i < |chats| && 0 <= j < |chats[i].messages| ==>
        (chats[i].messages[j].role == "user" ==> IsBlank(chats[i].messages[j].content))
    decreases |chats|
  {
    if |chats| > 0 {
      BlankAppend(MessagesText(chats[0].messages), UserText(chats[1..]));
      MessagesTextBlank(chats[0].messages);
      UserTextBlank(chats[1..]);
      assert forall i :: 1 <= i < |chats| ==> chats[i] == chats[1..][i - 1];
    }
  }

  /** `analyzeUserMajor`, given the ten most recent chats, the model's reply
      and the JSON parser. The second component says whether the model was
      asked at all. Every failure yields `Undetected`. */
  function AnalyzeMajor(chats: seq<Chat>, reply: Outcome<string>,
                        parse: string -> Option<Profile>): (r: (Profile, bool))
    ensures r.1 <==> |chats| > 0 && !IsBlank(UserText(chats))
    ensures !r.1 || reply.Err? ==> r.0 == Undetected
  {
    if |chats| == 0 then (Undetected, false)
    else if Trim(UserText(chats)) == "" then (Undetected, false)
    else if reply.Err? then (Undetected, true)
    else match Enclosed(reply.value, '{', '}')
      case None => (Undetected, true)
      case Some(m) => (parse(m).GetOr(Undetected), true)
  }

  /** A detected profile is exactly what the parser made of the braced
      slice of the model's reply. */
  lemma AnalyzeMajorSource(chats: seq<Chat>, reply: Outcome<string>, parse: string -> Option<Profile>)
    ensures var r := AnalyzeMajor(chats, reply, parse);
      r.0 != Undetected ==>
        && reply.Ok? && Enclosed(reply.value, '{', '}').Some?
        && parse(Enclosed(reply.value, '{', '}').value) == Some(r.0)
  {
  }

  // ---------------------------------------------------------------- candidates

  /** One element of the array the model returned. `Null` is a JSON `null`
      element: reading a field of it throws. */
  datatype Candidate =
    | Entry(title: Option<string>, topic: Option<string>, kind: Option<string>,
            text: Option<string>, priority: Option<int>)
    | Null

  /** How a template literal renders a possibly absent string. */
  function JsText(o: Option<string>): string {
    if o.None? then "undefined" else o.value
  }

  /** `${userId}-${topic}-${type}`, whitespace runs to `-`, lower-cased. */
  function UniqueKey(userId: string, topic: Option<string>, kind: Option<string>): (k: string)
    ensures NoSpace(k) && NoUpper(k)
  {
    Lower(CollapseSpaces(userId + "-" + JsText(topic) + "-" + JsText(kind)))
  }

  lemma LowerJoin3(a: string, b: string, c: string)
    ensures Lower(a + "-" + b + "-" + c) == Lower(a) + "-" + Lower(b) + "-" + Lower(c)
  {
    LowerAppend(a + "-" + b + "-", c);
    LowerAppend(a + "-" + b, "-");
    LowerAppend(a + "-", b);
    LowerAppend(a, "-");
    assert Lower("-") == "-";
  }

  /** Keys are blind to letter case: a topic that differs only in case from a
      dismissed one produces the dismissed key again. */
  lemma KeyIgnoresCase(userId: string, topic: string, kind: Option<string>)
    ensures UniqueKey(userId, Some(Lower(topic)), kind) == UniqueKey(Lower(userId), Some(topic), kind)
  {
    var k := JsText(kind);
    var mixed := userId + "-" + Lower(topic) + "-" + k;
    var other := Lower(userId) + "-" + topic + "-" + k;
    LowerJoin3(userId, Lower(topic), k);
    LowerJoin3(Lower(userId), topic, k);
    LowerIdempotent(topic);
    LowerIdempotent(userId);
    assert Lower(mixed) == Lower(other);
    CollapseLower(mixed);
    CollapseLower(other);
  }

  /** The draft built for candidate `c` in slot `s`: `type || "study-session"`
      and `priority || 3` replace falsy values, while the key is built from the
      raw `type`. */
  function DraftFor(userId: string, c: Candidate, s: Slot): (d: Draft)
    requires c.Entry?
    ensures d.userId == Some(userId) && d.start == Some(s.start) && d.end == Some(s.end)
    ensures d.title == c.title && d.topic == c.topic && d.text == c.text
    ensures d.kind.Some? && d.kind.value != ""
    ensures d.kind.value != "study-session" ==> c.kind == d.kind
    ensures d.priority.Some? && d.priority.value != 0
    ensures d.priority.value != DefaultPriority ==> c.priority == d.priority
    ensures d.uniqueKey == Some(UniqueKey(userId, c.topic, c.kind))
  {
    Draft(Some(userId), c.title, c.topic, c.text, Some(s.start), Some(s.end),
          Some(if c.kind.None? || c.kind.value == "" then "study-session" else c.kind.value),
          Some(if c.priority.None? || c.priority.value == 0 then DefaultPriority else c.priority.value),
          Some(UniqueKey(userId, c.topic, c.kind)))
  }

  function KeyOf(userId: string, c: Candidate): string
    requires c.Entry?
  {
    UniqueKey(userId, c.topic, c.kind)
  }

  /** Reference definition of the pairing loop: candidate `i` goes with slot
      `i`, up to the shorter list; a candidate whose key was dismissed is
      skipped without giving its slot to the next one; a `null` candidate
      aborts the whole generation. */
  function Pair(userId: string, data: seq<Candidate>, slots: seq<Slot>, dismissed: seq<string>): Outcome<seq<Draft>>
    decreases |data|
  {
    if |data| == 0 || |slots| == 0 then Ok([])
    else if data[0].Null? then Err
    else
      var rest := Pair(userId, data[1..], slots[1..], dismissed);
      if rest.Err? then Err
      else if KeyOf(userId, data[0]) in dismissed then rest
      else Ok([DraftFor(userId, data[0], slots[0])] + rest.value)
  }

  function Min(a: int, b: int): int {
    if a <= b then a else b
  }

  /** The outcome of pairing once `out` has been produced for the earlier
      candidates and `r` is the outcome for the rest. */
  function Prepend(out: seq<Draft>, r: Outcome<seq<Draft>>): Outcome<seq<Draft>> {
    if r.Err? then Err else Ok(out + r.value)
  }

  /** One step of the reference definition, seen from position `i` with
      `out` produced so far: a `null` candidate fails the whole pairing, an
      entry adds its draft unless its key was dismissed. */
  lemma PairStep(userId: string, data: seq<Candidate>, slots: seq<Slot>, dismissed: seq<string>, i: nat, out: seq<Draft>)
    requires i < |data| && i < |slots|
    ensures data[i].Null? ==> Prepend(out, Pair(userId, data[i..], slots[i..], dismissed)) == Err
    ensures data[i].Entry? ==>
      Prepend(out, Pair(userId, data[i..], slots[i..], dismissed)) ==
      Prepend(if KeyOf(userId, data[i]) in dismissed then out else out + [DraftFor(userId, data[i], slots[i])],
              Pair(userId, data[i + 1..], slots[i + 1..], dismissed))
  {
    assert data[i..][0] == data[i] && slots[i..][0] == slots[i];
    assert data[i..][1..] == data[i + 1..];
    assert slots[i..][1..] == slots[i + 1..];
    var rest := Pair(userId, data[i + 1..], slots[i + 1..], dismissed);
    if data[i].Entry? && rest.Ok? {
      assert out + ([DraftFor(userId, data[i], slots[i])] + rest.value) ==
             (out + [DraftFor(userId, data[i], slots[i])]) + rest.value;
    }
  }

  /** The loop as written, checked against the reference definition. */
  method PairCandidates(userId: string, data: seq<Candidate>, slots: seq<Slot>, dismissed: seq<string>)
    returns (r: Outcome<seq<Draft>>)
    ensures r == Pair(userId, data, slots, dismissed)
  {
    var n := Min(|data|, |slots|);
    var i := 0;
    var out: seq<Draft> := [];
    PairStart(userId, data, slots, dismissed);
    while i < n
      invariant 0 <= i <= n
      invariant Pair(userId, data, slots, dismissed) == Prepend(out, Pair(userId, data[i..], slots[i..], dismissed))
    {
      PairStep(userId, data, slots, dismissed, i, out);
      if data[i].Null? {
        return Err;
      }
      if KeyOf(userId, data[i]) !in dismissed {
        out := out + [DraftFor(userId, data[i], slots[i])];
      }
      i := i + 1;
    }
    PairEnd(userId, data, slots, dismissed, i, out);
    r := Ok(out);
  }

  lemma PairStart(userId: string, data: seq<Candidate>, slots: seq<Slot>, dismissed: seq<string>)
    ensures Pair(userId, data, slots, dismissed) == Prepend([], Pair(userId, data[0..], slots[0..], dismissed))
  {
    assert data[0..] == data && slots[0..] == slots;
    var whole := Pair(userId, data, slots, dismissed);
    assert whole.Ok? ==> [] + whole.value == whole.value;
  }

  lemma PairEnd(userId: string, data: seq<Candidate>, slots: seq<Slot>, dismissed: seq<string>, i: nat, out: seq<Draft>)
    requires i == Min(|data|, |slots|)
    ensures Prepend(out, Pair(userId, data[i..], slots[i..], dismissed)) == Ok(out)
  {
    assert out + [] == out;
  }

  /** Pairing fails exactly when one of the paired candidates is `null`. */
  lemma {:induction false} PairFails(userId: string, data: seq<Candidate>, slots: seq<Slot>, dismissed: seq<string>)
    ensures Pair(userId, data, slots, dismissed).Err? <==>
      exists j :: 0 <= j < Min(|data|, |slots|) && data[j].Null?
    decreases |data|
  {
    if |data| > 0 && |slots| > 0 {
      PairFails(userId, data[1..], slots[1..], dismissed);
      assert forall j :: 1 <= j < Min(|data|, |slots|) ==> data[j] == data[1..][j - 1];

    }
  }

  /** Draft `d` is the one built from candidate `j` in slot `j`, whose key
      is not dismissed. */
  predicate SourcedAt(userId: string, d: Draft, data: seq<Candidate>, slots: seq<Slot>, dismissed: seq<string>, j: int) {
    && 0 <= j < Min(|data|, |slots|) && data[j].Entry?
    && d == DraftFor(userId, data[j], slots[j]) && KeyOf(userId, data[j]) !in dismissed
  }

  ghost predicate Sourced(userId: string, d: Draft, data: seq<Candidate>, slots: seq<Slot>, dismissed: seq<string>) {
    exists j :: SourcedAt(userId, d, data, slots, dismissed, j)
  }

  /** The positions of the candidates the pairing keeps, in order. */
  ghost function Kept(userId: string, data: seq<Candidate>, slots: seq<Slot>, dismissed: seq<string>): seq<int>
    decreases |data|
  {
    if |data| == 0 || |slots| == 0 || data[0].Null? then []
    else
      var later := Shift(Kept(userId, data[1..], slots[1..], dismissed));
      if KeyOf(userId, data[0]) in dismissed then later else [0] + later
  }

  /** Positions in the rest of the list, seen from its start. */
  ghost function Shift(k: seq<int>): (r: seq<int>)
    ensures |r| == |k| && forall i :: 0 <= i < |k| ==> r[i] == k[i] + 1
  {
    seq(|k|, i requires 0 <= i < |k| => k[i] + 1)
  }

  ghost predicate Increasing(xs: seq<int>) {
    forall i, k :: 0 <= i < k < |xs| ==> xs[i] < xs[k]
  }

  /** Every draft comes from one candidate and THE SAME position's slot, and
      no draft carries a dismissed key; the drafts follow the candidates'
      order with strictly increasing positions, so no slot is used twice. */
  lemma PairSound(userId: string, data: seq<Candidate>, slots: seq<Slot>, dismissed: seq<string>)
    ensures var r := Pair(userId, data, slots, dismissed);
      r.Ok? ==>
        && |r.value| <= Min(|data|, |slots|)
        && forall d :: d in r.value ==> Sourced(userId, d, data, slots, dismissed)
    ensures var r := Pair(userId, data, slots, dismissed);
      var k := Kept(userId, data, slots, dismissed);
      r.Ok? ==>
        && |k| == |r.value|
        && Increasing(k)
        && forall i :: 0 <= i < |r.value| ==> SourcedAt(userId, r.value[i], data, slots, dismissed, k[i])
  {
    var r := Pair(userId, data, slots, dismissed);
    PairKept(userId, data, slots, dismissed);
    if r.Ok? {
      SourcedAll(userId, data, slots, dismissed, r.value, Kept(userId, data, slots, dismissed));
    }
  }

  /** The kept positions, one per draft, in order. */
  lemma {:induction false} PairKept(userId: string, data: seq<Candidate>, slots: seq<Slot>, dismissed: seq<string>)
    ensures var r := Pair(userId, data, slots, dismissed);
      var k := Kept(userId, data, slots, dismissed);
      r.Ok? ==>
        && |k| == |r.value|
        && Increasing(k)
        && forall i :: 0 <= i < |r.value| ==> SourcedAt(userId, r.value[i], data, slots, dismissed, k[i])
    decreases |data|
  {
    var r := Pair(userId, data, slots, dismissed);
    if |data| > 0 && |slots| > 0 && data[0].Entry? && r.Ok? {
      PairKept(userId, data[1..], slots[1..], dismissed);
      var rest := Pair(userId, data[1..], slots[1..], dismissed).value;
      var kr := Kept(userId, data[1..], slots[1..], dismissed);
      ShiftSourced(userId, data, slots, dismissed, rest, kr);
      if KeyOf(userId, data[0]) !in dismissed {
        var d0 := DraftFor(userId, data[0], slots[0]);
        assert r.value == [d0] + rest;
        assert SourcedAt(userId, d0, data, slots, dismissed, 0);
        var tied := (d: Draft, j: int) => SourcedAt(userId, d, data, slots, dismissed, j);
        ConsTied(d0, rest, Shift(kr), tied);
        assert Kept(userId, data, slots, dismissed) == [0] + Shift(kr);
      } else {
        assert r.value == rest;
      }
    }
  }

  /** Positions of the rest, shifted by one, source the same drafts in the
      whole list. */
  lemma ShiftSourced(userId: string, data: seq<Candidate>, slots: seq<Slot>, dismissed: seq<string>,
                     rest: seq<Draft>, kr: seq<int>)
    requires |data| > 0 && |slots| > 0
    requires |kr| == |rest| && Increasing(kr)
    requires forall i :: 0 <= i < |rest| ==> SourcedAt(userId, rest[i], data[1..], slots[1..], dismissed, kr[i])
    ensures Increasing(Shift(kr)) && forall i :: 0 <= i < |kr| ==> Shift(kr)[i] >= 1
    ensures forall i :: 0 <= i < |rest| ==> SourcedAt(userId, rest[i], data, slots, dismissed, Shift(kr)[i])
  {
    forall i | 0 <= i < |rest|
      ensures SourcedAt(userId, rest[i], data, slots, dismissed, Shift(kr)[i])
    {
      assert SourcedAt(userId, rest[i], data[1..], slots[1..], dismissed, kr[i]);
      assert data[1..][kr[i]] == data[kr[i] + 1] && slots[1..][kr[i]] == slots[kr[i] + 1];
    }
  }

  /** An item tied to position 0 in front of items tied to later positions
      keeps the positions increasing and every item tied to its own. */
  lemma ConsTied<T>(x: T, xs: seq<T>, later: seq<int>, tied: (T, int) -> bool)
    requires |later| == |xs| && Increasing(later) && forall i :: 0 <= i < |later| ==> later[i] >= 1
    requires forall i :: 0 <= i < |xs| ==> tied(xs[i], later[i])
    requires tied(x, 0)
    ensures Increasing([0] + later)
    ensures forall i :: 0 <= i < |xs| + 1 ==> tied(([x] + xs)[i], ([0] + later)[i])
  {
    var k := [0] + later;
    var r := [x] + xs;
    forall i, j | 0 <= i < j < |k| ensures k[i] < k[j] {
      assert k[j] == later[j - 1];
      if i > 0 {
        assert k[i] == later[i - 1];
      }
    }
    forall i | 1 <= i < |r| ensures tied(r[i], k[i]) {
      assert r[i] == xs[i - 1] && k[i] == later[i - 1];
    }
  }

  /** Drafts tied to strictly increasing positions below the shorter list
      are sourced and no more numerous than that list. */
  lemma SourcedAll(userId: string, data: seq<Candidate>, slots: seq<Slot>, dismissed: seq<string>,
                   r: seq<Draft>, k: seq<int>)
    requires |k| == |r| && Increasing(k)
    requires forall i :: 0 <= i < |r| ==> SourcedAt(userId, r[i], data, slots, dismissed, k[i])
    ensures |r| <= Min(|data|, |slots|)
    ensures forall d :: d in r ==> Sourced(userId, d, data, slots, dismissed)
  {
    if |r| > 0 {
      IncreasingBound(k, Min(|data|, |slots|));
    }
  }

  /** Strictly increasing naturals below `n` are at most `n` in number. */
  lemma {:induction false} IncreasingBound(k: seq<int>, n: int)
    requires n >= 0 && Increasing(k) && forall i :: 0 <= i < |k| ==> 0 <= k[i] < n
    ensures |k| <= n
    decreases |k|
  {
    if |k| > 0 {
      var init := k[..|k| - 1];
      assert forall i :: 0 <= i < |init| ==> init[i] < k[|k| - 1];
      IncreasingBound(init, k[|k| - 1]);
    }
  }

  /** Conversely, every paired candidate whose key is not dismissed yields
      its draft. */
  lemma {:induction false} PairComplete(userId: string, data: seq<Candidate>, slots: seq<Slot>, dismissed: seq<string>)
    ensures var r := Pair(userId, data, slots, dismissed);
      r.Ok? ==> forall j :: 0 <= j < Min(|data|, |slots|) ==>
        (data[j].Entry? && KeyOf(userId, data[j]) !in dismissed ==> DraftFor(userId, data[j], slots[j]) in r.value)
    decreases |data|
  {
    if |data| > 0 && |slots| > 0 && data[0].Entry? {
      PairComplete(userId, data[1..], slots[1..], dismissed);
      assert forall j :: 1 <= j < Min(|data|, |slots|) ==> data[j] == data[1..][j - 1] && slots[j] == slots[1..][j - 1];
    }
  }

  // ---------------------------------------------------------------- fallbacks

  // the texts of the canned suggestions
  const MajorTopicPrefix: string := "Ôn tập kiến thức "
  const MajorTitlePrefix: string := "Buổi học "
  const MajorTextPrefix: string := "Hãy dành thời gian ôn tập lại kiến thức gần đây về "
  const MajorTextSuffix: string := " để củng cố hiểu biết của bạn."
  const GenericTitle: string := "Buổi học tập trung"
  const GenericTopic: string := "Ôn tập kiến thức"
  const GenericText: string := "Hãy dành thời gian ôn tập lại kiến thức gần đây để củng cố hiểu biết của bạn."
  const FailureTitle: string := "Buổi ôn tập kiến thức"
  const FailureTopic: string := "Ôn tập tổng hợp"
  const FailureText: string := "Hãy dành thời gian ôn tập lại những kiến thức gần đây và chuẩn bị cho những bài học sắp tới."


  /** The entry repeated when the reply holds no parsable array. */
  function FallbackEntry(p: Profile): (c: Candidate)
    ensures c.Entry? && c.kind == Some("study-session") && c.priority == Some(DefaultPriority)
    ensures c.title.Some? && c.topic.Some? && c.text.Some?
    ensures MajorKnown(p) ==> EndsWith(c.topic.value, p.major.value)
  {
    if MajorKnown(p) then
      var m := p.major.value;
      assert EndsWith(MajorTopicPrefix + m, m) by {
        var t := MajorTopicPrefix + m;
        assert t[|t| - |m|..] == m;
      }
      Entry(Some(MajorTitlePrefix + m), Some(MajorTopicPrefix + m), Some("study-session"),
            Some(MajorTextPrefix + m + MajorTextSuffix),
            Some(DefaultPriority))
    else
      Entry(Some(GenericTitle), Some(GenericTopic), Some("study-session"),
            Some(GenericText),
            Some(DefaultPriority))
  }

  /** `Array(count).fill(entry)`. */
  function Fallback(count: nat, p: Profile): (r: seq<Candidate>)
    ensures |r| == count
    ensures forall i :: 0 <= i < count ==> r[i] == FallbackEntry(p)
  {
    seq(count, _ => FallbackEntry(p))
  }

  /** Pairing a list of copies of one entry: all of the shared slots are
      used, or none is when the entry's key was dismissed. */
  lemma {:induction false} PairCopies(userId: string, e: Candidate, data: seq<Candidate>, slots: seq<Slot>, dismissed: seq<string>)
    requires e.Entry?
    requires forall i :: 0 <= i < |data| ==> data[i] == e
    ensures var r := Pair(userId, data, slots, dismissed);
      && r.Ok?
      && (KeyOf(userId, e) in dismissed ==> r.value == [])
      && (KeyOf(userId, e) !in dismissed ==> |r.value| == Min(|data|, |slots|))
    decreases |data|
  {
    if |data| > 0 && |slots| > 0 {
      PairCopies(userId, e, data[1..], slots[1..], dismissed);
    }
  }

  /** The fallback's copies share one key, so either all of its slots are
      used or, when that key was dismissed before, none is. */
  lemma FallbackAllOrNothing(userId: string, count: nat, p: Profile, slots: seq<Slot>, dismissed: seq<string>)
    ensures var r := Pair(userId, Fallback(count, p), slots, dismissed);
      && r.Ok?
      && (KeyOf(userId, FallbackEntry(p)) in dismissed ==> r.value == [])
      && (KeyOf(userId, FallbackEntry(p)) !in dismissed ==> |r.value| == Min(count, |slots|))
  {
    PairCopies(userId, FallbackEntry(p), Fallback(count, p), slots, dismissed);
  }

  /** The single suggestion returned when anything in generation throws.
      Its key is not normalised and ends with the current time. */
  function FailureKey(userId: string, stamp: nat): string {
    userId + "-on-tap-tong-hop-" + NatToString(stamp)
  }

  /** Failure keys of different instants differ. */
  lemma FailureKeysDistinct(userId: string, a: nat, b: nat)
    requires a != b
    ensures FailureKey(userId, a) != FailureKey(userId, b)
  {
    var p := userId + "-on-tap-tong-hop-";
    if FailureKey(userId, a) == FailureKey(userId, b) {
      assert FailureKey(userId, a)[|p|..] == NatToString(a);
      assert FailureKey(userId, b)[|p|..] == NatToString(b);
      NatToStringInjective(a, b);
    }
  }

  function FailureDraft(userId: string, s: Slot, stamp: nat): Draft {
    Draft(Some(userId), Some(FailureTitle), Some(FailureTopic),
          Some(FailureText),
          Some(s.start), Some(s.end), Some("study-session"), Some(DefaultPriority),
          Some(FailureKey(userId, stamp)))
  }

  // ---------------------------------------------------------------- generation

  /** The candidates the reply yields: the parsed array, or the fallback when
      there is no bracketed slice or it does not parse. */
  function Candidates(reply: string, parse: string -> Option<seq<Candidate>>, count: nat, p: Profile): seq<Candidate> {
    match Enclosed(reply, '[', ']')
    case None => Fallback(count, p)
    case Some(m) => match parse(m)
      case None => Fallback(count, p)
      case Some(arr) => arr
  }

  /** The drafts generation pairs, or `Err` when it throws: when the major
      is known but `subjects` or `keywords` cannot be joined, when the model
      call throws, or when a paired candidate is `null`. */
  function Attempt(userId: string, now: int, p: Profile, count: nat, reply: Outcome<string>,
                   parse: string -> Option<seq<Candidate>>, dismissed: seq<string>): Outcome<seq<Draft>> {
    if MajorKnown(p) && (p.subjects.None? || p.keywords.None?) then Err
    else if reply.Err? then Err
    else Pair(userId, Candidates(reply.value, parse, count, p), PlanSlots(now), dismissed)
  }

  /** What generation hands back: the drafts, and whether they are the
      single canned draft of the `catch` branch. */
  datatype Generation = Generation(drafts: seq<Draft>, threw: bool)

  /** `generateMultipleSuggestions`: `stamp` is the instant the failure path
      would read from the clock. */
  function Generate(userId: string, now: int, p: Profile, count: nat, reply: Outcome<string>,
                    parse: string -> Option<seq<Candidate>>, dismissed: seq<string>, stamp: nat): Generation
  {
    match Attempt(userId, now, p, count, reply, parse, dismissed)
    case Err => Generation([FailureDraft(userId, PlanSlots(now)[0], stamp)], true)
    case Ok(ds) => Generation(ds, false)
  }

  /** Generation throws exactly when the major is known but its lists are
      missing, when the model call fails, or when a candidate that would be
      paired with a slot is `null`. */
  lemma GenerateThrows(userId: string, now: int, p: Profile, count: nat, reply: Outcome<string>,
                       parse: string -> Option<seq<Candidate>>, dismissed: seq<string>, stamp: nat)
    ensures Generate(userId, now, p, count, reply, parse, dismissed, stamp).threw <==>
      || (MajorKnown(p) && (p.subjects.None? || p.keywords.None?))
      || reply.Err?
      || exists j :: 0 <= j < Min(|Candidates(reply.value, parse, count, p)|, |PlanSlots(now)|)
                  && Candidates(reply.value, parse, count, p)[j].Null?
  {
    if reply.Ok? {
      PairFails(userId, Candidates(reply.value, parse, count, p), PlanSlots(now), dismissed);
    }
  }

  /** Every generated draft belongs to the user; unless generation threw,
      none carries a dismissed key, and if it threw there is one draft,
      placed in the first planned slot. */
  lemma GenerateOwned(userId: string, now: int, p: Profile, count: nat, reply: Outcome<string>,
                      parse: string -> Option<seq<Candidate>>, dismissed: seq<string>, stamp: nat)
    ensures var g := Generate(userId, now, p, count, reply, parse, dismissed, stamp);
      && (forall d :: d in g.drafts ==> d.userId == Some(userId))
      && (g.threw ==> g.drafts == [FailureDraft(userId, PlanSlots(now)[0], stamp)])
      && (!g.threw ==> forall d :: d in g.drafts ==> d.uniqueKey.Some? && d.uniqueKey.value !in dismissed)
  {
    var a := Attempt(userId, now, p, count, reply, parse, dismissed);
    if a.Ok? {
      PairSound(userId, Candidates(reply.value, parse, count, p), PlanSlots(now), dismissed);
    }
  }

  /** Every generated draft sits in one of the planned slots, and there are
      never more drafts than slots. */
  lemma GenerateInSlots(userId: string, now: int, p: Profile, count: nat, reply: Outcome<string>,
                        parse: string -> Option<seq<Candidate>>, dismissed: seq<string>, stamp: nat)
    ensures var r := Generate(userId, now, p, count, reply, parse, dismissed, stamp).drafts;
      && |r| <= |PlanSlots(now)|
      && forall d :: d in r ==> exists s :: s in PlanSlots(now) && d.start == Some(s.start) && d.end == Some(s.end)
  {
    var slots := PlanSlots(now);
    if Attempt(userId, now, p, count, reply, parse, dismissed).Ok? {
      var data := Candidates(reply.value, parse, count, p);
      PairSound(userId, data, slots, dismissed);
      var r := Pair(userId, data, slots, dismissed).value;
      forall d | d in r
        ensures exists s :: s in slots && d.start == Some(s.start) && d.end == Some(s.end)
      {
        var j :| SourcedAt(userId, d, data, slots, dismissed, j);
        assert slots[j] in slots;
      }
    } else {
      assert slots[0] in slots;
    }
  }
}

=== FILE: suggestion_laws.dfy ===
/** Properties of `getSuggestions` as a whole: what it lists, what it
    writes and what it keeps out of the collection. Each property is
    proved for the two branches of the handler separately (three or more
    active suggestions, or fewer) and then put together. */
module SuggestionLaws {
  import opened Wrappers
  import opened SuggestionModel
  import opened SuggestionEngine
  import opened SuggestionStore

  /** The generating branch of `getSuggestions` saves what it generates. */
  lemma GetSuggestionsUnfold(store: Store, userId: string, now: int, o: Oracle)
    requires |ActiveTop(store, userId, now)| < 3
    ensures GetSuggestions(store, userId, now, o) ==
      Save(store, ActiveTop(store, userId, now), Generated(store, userId, now, o).drafts, now)
  {
  }

  /** The merged list starts from stored, active suggestions. */
  lemma ActiveTopActive(store: Store, userId: string, now: int)
    ensures forall x :: x in ActiveTop(store, userId, now) ==> x in store && IsActive(x, userId, now)
  {
    TopFiveSubset(ActiveOf(store, userId, now));
  }

  /** On the generating branch the answer is the best five of the active
      suggestions together with the ones just saved: it is drawn from them,
      as long as five allows, and nothing left out outranks anything
      listed. */
  lemma ListedAreBest(store: Store, userId: string, now: int, o: Oracle)
    requires |ActiveTop(store, userId, now)| < 3
    ensures var r := GetSuggestions(store, userId, now, o);
      var pool := ActiveTop(store, userId, now) + r.1[|store|..];
      r.0.Listed? ==>
        && multiset(r.0.items) <= multiset(pool)
        && |r.0.items| == (if |pool| < Limit then |pool| else Limit)
        && forall x, y :: x in multiset(pool) - multiset(r.0.items) && y in r.0.items ==> x.priority <= y.priority
  {
    var r := GetSuggestions(store, userId, now, o);
    if r.0.Listed? {
      TopFiveKeepsBest(ActiveTop(store, userId, now) + r.1[|store|..]);
    }
  }

  // ------------------------------------------------------------ listed items

  predicate ListsActive(r: (Response, Store), userId: string, now: int) {
    r.0.Listed? ==> forall x :: x in r.0.items ==> x in r.1 && IsActive(x, userId, now)
  }

  lemma ListedWhenGenerating(store: Store, userId: string, now: int, o: Oracle)
    requires |ActiveTop(store, userId, now)| < 3
    ensures ListsActive(GetSuggestions(store, userId, now, o), userId, now)
  {
    ActiveTopActive(store, userId, now);
    SaveListsActive(store, ActiveTop(store, userId, now), Generated(store, userId, now, o).drafts, now, userId);
    GetSuggestionsUnfold(store, userId, now, o);
  }

  lemma ListedWhenEnough(store: Store, userId: string, now: int, o: Oracle)
    requires |ActiveTop(store, userId, now)| >= 3
    ensures ListsActive(GetSuggestions(store, userId, now, o), userId, now)
  {
    ActiveTopActive(store, userId, now);
  }

  /** Every suggestion the handler lists is stored and active at `now`:
      the user's, not dismissed, not added to the calendar, and suggested
      within the last 24 hours. */
  lemma ListedAreActive(store: Store, userId: string, now: int, o: Oracle)
    ensures var r := GetSuggestions(store, userId, now, o);
      r.0.Listed? ==> forall x :: x in r.0.items ==> x in r.1 && IsActive(x, userId, now)
  {
    if |ActiveTop(store, userId, now)| < 3 {
      ListedWhenGenerating(store, userId, now, o);
    } else {
      ListedWhenEnough(store, userId, now, o);
    }
  }

  // ------------------------------------------------------------ well-formedness

  lemma WellFormedWhenGenerating(store: Store, userId: string, now: int, o: Oracle)
    requires WellFormed(store)
    requires |ActiveTop(store, userId, now)| < 3
    ensures WellFormed(GetSuggestions(store, userId, now, o).1)
  {
    SaveWellFormed(store, ActiveTop(store, userId, now), Generated(store, userId, now, o).drafts, now);
    GetSuggestionsUnfold(store, userId, now, o);
  }

  /** `getSuggestions` keeps the collection well formed. */
  lemma GetSuggestionsWellFormed(store: Store, userId: string, now: int, o: Oracle)
    requires WellFormed(store)
    ensures WellFormed(GetSuggestions(store, userId, now, o).1)
  {
    if |ActiveTop(store, userId, now)| < 3 {
      WellFormedWhenGenerating(store, userId, now, o);
    }
  }

  // ------------------------------------------------------------ dismissed keys

  /** The request generates, and generation throws. */
  predicate GenerationThrows(store: Store, userId: string, now: int, o: Oracle) {
    |ActiveTop(store, userId, now)| < 3 && Generated(store, userId, now, o).threw
  }

  /** The new records all carry a key outside `avoid`. */
  predicate NewKeysAvoid(store: Store, next: Store, avoid: seq<string>) {
    forall i :: |store| <= i < |next| ==> next[i].uniqueKey.Some? && next[i].uniqueKey.value !in avoid
  }

  lemma KeysWhenGenerating(store: Store, userId: string, now: int, o: Oracle)
    requires |ActiveTop(store, userId, now)| < 3
    requires !Generated(store, userId, now, o).threw
    ensures NewKeysAvoid(store, GetSuggestions(store, userId, now, o).1, DismissedKeys(store, userId))
  {
    SaveKeepsKeys(store, ActiveTop(store, userId, now), Generated(store, userId, now, o).drafts, now, DismissedKeys(store, userId));
    GetSuggestionsUnfold(store, userId, now, o);
  }

  lemma OneRecordWhenThrowing(store: Store, userId: string, now: int, o: Oracle)
    requires |ActiveTop(store, userId, now)| < 3
    requires Generated(store, userId, now, o).threw
    ensures |GetSuggestions(store, userId, now, o).1| <= |store| + 1
  {
    GetSuggestionsUnfold(store, userId, now, o);
  }

  /** What generation writes never repeats a key the user dismissed; only
      the failure path, which writes a single record whose key is built from
      the clock, is exempt. */
  lemma NoDismissedKeyReturns(store: Store, userId: string, now: int, o: Oracle)
    ensures var next := GetSuggestions(store, userId, now, o).1;
      && (GenerationThrows(store, userId, now, o) ==> |next| <= |store| + 1)
      && (!GenerationThrows(store, userId, now, o) ==>
            forall i :: |store| <= i < |next| ==>
              next[i].uniqueKey.Some? && next[i].uniqueKey.value !in DismissedKeys(store, userId))
  {
    if |ActiveTop(store, userId, now)| < 3 {
      if Generated(store, userId, now, o).threw {
        OneRecordWhenThrowing(store, userId, now, o);
      } else {
        KeysWhenGenerating(store, userId, now, o);
      }
    }
  }
}

=== FILE: suggestion_model.dfy ===
/** The suggestion-history record (models/suggestion-history.model.js):
    its fields, the `type` enumeration, the defaults Mongoose fills in and
    the validators it runs before a document is stored. */
module SuggestionModel {
  import opened Wrappers

  /** The five values the schema's `type` enum admits. `exam`, which the
      calendar-event schema has, is not among them. */
  datatype SuggestionType = StudySession | Assignment | ExamPrep | GroupStudy | StudyBreak

  function TypeName(t: SuggestionType): string {
    match t
    case StudySession => "study-session"
    case Assignment => "assignment"
    case ExamPrep => "exam-prep"
    case GroupStudy => "group-study"
    case StudyBreak => "study-break"
  }

  /** The enum validator: which stored string, if any, a type name denotes. */
  function ParseType(s: string): (r: Option<SuggestionType>)
    ensures r.Some? ==> TypeName(r.value) == s
    ensures forall t :: TypeName(t) == s ==> r == Some(t)
    ensures s == "exam" ==> r.None?
  {
    if s == "study-session" then Some(StudySession)
    else if s == "assignment" then Some(Assignment)
    else if s == "exam-prep" then Some(ExamPrep)
    else if s == "group-study" then Some(GroupStudy)
    else if s == "study-break" then Some(StudyBreak)
    else None
  }

  const DefaultPriority: int := 3
  const MinPriority: int := 1
  const MaxPriority: int := 5

  /** A stored suggestion. `id` stands for the generated `_id`; instants are
      integer milliseconds. `uniqueKey` is indexed but not unique. */
  datatype Suggestion = Suggestion(
    id: nat,
    userId: string,
    title: string,
    topic: string,
    text: string,
    start: int,
    end: int,
    kind: SuggestionType,
    priority: int,
    suggestedAt: int,
    dismissed: bool,
    addedToCalendar: bool,
    uniqueKey: Option<string>)

  /** A plain object handed to `insertMany`: a field that is `undefined` in
      JavaScript is `None` here. */
  datatype Draft = Draft(
    userId: Option<string>,
    title: Option<string>,
    topic: Option<string>,
    text: Option<string>,
    start: Option<int>,
    end: Option<int>,
    kind: Option<string>,
    priority: Option<int>,
    uniqueKey: Option<string>)

  datatype SchemaError =
    | MissingField(name: string)
    | TypeNotInEnum(given: string)
    | PriorityOutOfRange(priority: int)

  /** Mongoose's `required` on a string: absent and empty both fail. */
  predicate Present(o: Option<string>) {
    o.Some? && o.value != ""
  }

  /** The draft passes every validator of the schema. */
  predicate Admissible(d: Draft) {
    && Present(d.userId) && Present(d.title) && Present(d.topic) && Present(d.text)
    && d.start.Some? && d.end.Some?
    && (d.kind.None? || ParseType(d.kind.value).Some?)
    && (d.priority.None? || MinPriority <= d.priority.value <= MaxPriority)
  }

  /** Building a document from a draft: defaults first (`type`, `priority`,
      `suggestedAt`, both flags), then the validators. */
  function Validate(d: Draft, id: nat, now: int): (r: Result<Suggestion, SchemaError>)
    ensures r.Success? <==> Admissible(d)
    ensures r.Success? ==>
      && r.value.id == id
      && Some(r.value.userId) == d.userId && Some(r.value.title) == d.title
      && Some(r.value.topic) == d.topic && Some(r.value.text) == d.text
      && Some(r.value.start) == d.start && Some(r.value.end) == d.end
      && r.value.uniqueKey == d.uniqueKey
      && (d.kind.None? ==> r.value.kind == StudySession)
      && (d.kind.Some? ==> TypeName(r.value.kind) == d.kind.value)
      && (d.priority.None? ==> r.value.priority == DefaultPriority)
      && (d.priority.Some? ==> r.value.priority == d.priority.value)
      && MinPriority <= r.value.priority <= MaxPriority
      && r.value.suggestedAt == now
      && !r.value.dismissed && !r.value.addedToCalendar
  {
    if !Present(d.userId) then Failure(MissingField("userId"))
    else if !Present(d.title) then Failure(MissingField("title"))
    else if d.start.None? then Failure(MissingField("start"))
    else if d.end.None? then Failure(MissingField("end"))
    else if !Present(d.topic) then Failure(MissingField("topic"))
    else if !Present(d.text) then Failure(MissingField("text"))
    else
      var kind := if d.kind.None? then Some(StudySession) else ParseType(d.kind.value);
      var priority := d.priority.GetOr(DefaultPriority);
      if kind.None? then Failure(TypeNotInEnum(d.kind.value))
      else if !(MinPriority <= priority <= MaxPriority) then Failure(PriorityOutOfRange(priority))
      else Success(Suggestion(id, d.userId.value, d.title.value, d.topic.value, d.text.value,
                              d.start.value, d.end.value, kind.value, priority, now,
                              false, false, d.uniqueKey))
  }
}

=== FILE: suggestion_store.dfy ===
/** The suggestion-history collection and the three request handlers of
    controllers/suggestion.controller.js that read and write it:
    `getSuggestions`, `dismissSuggestion` and `addSuggestionToCalendar`.
    The collection is an append-only sequence whose record `i` has id `i`. */
module SuggestionStore {
  import opened Wrappers
  import opened Clock
  import opened TimeSlots
  import opened SuggestionModel
  import opened SuggestionEngine

  type Store = seq<Suggestion>

  /** Record `i` carries id `i` and every record passed the schema. */
  predicate WellFormed(store: Store) {
    forall i :: 0 <= i < |store| ==> store[i].id == i && Valid(store[i])
  }

  /** What the schema's validators guarantee about a stored record. */
  predicate Valid(s: Suggestion) {
    s.userId != "" && s.title != "" && s.topic != "" && s.text != ""
    && MinPriority <= s.priority <= MaxPriority
  }

  // ---------------------------------------------------------------- the active query

  /** The query window: suggestions younger than one day. */
  const ActiveWindow: int := 24 * MsPerHour

  /** The filter of the active query: the user's own, neither dismissed nor
      added to the calendar, and suggested within the last day. */
  predicate IsActive(s: Suggestion, userId: string, now: int) {
    s.userId == userId && !s.dismissed && !s.addedToCalendar && s.suggestedAt >= now - ActiveWindow
  }

  function ActiveOf(store: Store, userId: string, now: int): (r: seq<Suggestion>)
    ensures forall x :: x in r <==> x in store && IsActive(x, userId, now)
    ensures |r| <= |store|
    decreases |store|
  {
    if |store| == 0 then []
    else
      var rest := ActiveOf(store[..|store| - 1], userId, now);
      var last := store[|store| - 1];
      assert store == store[..|store| - 1] + [last];
      if IsActive(last, userId, now) then rest + [last] else rest
  }

  predicate SortedDesc(xs: seq<Suggestion>) {
    forall i, j :: 0 <= i < j < |xs| ==> xs[i].priority >= xs[j].priority
  }

  predicate AtMost(xs: seq<Suggestion>, p: int) {
    forall k :: 0 <= k < |xs| ==> xs[k].priority <= p
  }

  /** A bound on every element carries over to a sub-multiset. */
  lemma AtMostSub(a: seq<Suggestion>, b: seq<Suggestion>, p: int)
    requires multiset(a) <= multiset(b) && AtMost(b, p)
    ensures AtMost(a, p)
  {
    forall k | 0 <= k < |a| ensures a[k].priority <= p {
      assert a[k] in multiset(b);
    }
  }

  /** Places `x` after the records of higher priority and before the others,
      so records of equal priority keep their order. */
  function InsertDesc(x: Suggestion, ys: seq<Suggestion>): (r: seq<Suggestion>)
    requires SortedDesc(ys)
    ensures SortedDesc(r)
    ensures multiset(r) == multiset(ys) + multiset{x}
    ensures |r| == |ys| + 1
    decreases |ys|
  {
    if |ys| == 0 || x.priority >= ys[0].priority then
      [x] + ys
    else
      assert ys == [ys[0]] + ys[1..];
      var rest := InsertDesc(x, ys[1..]);
      assert AtMost(ys[1..] + [x], ys[0].priority);
      assert multiset(ys[1..] + [x]) == multiset(ys[1..]) + multiset{x};
      AtMostSub(rest, ys[1..] + [x], ys[0].priority);
      [ys[0]] + rest
  }

  /** Ordering by priority, highest first (`sort({ priority: -1 })`,
      `sort((a, b) => b.priority - a.priority)`). */
  function SortDesc(xs: seq<Suggestion>): (r: seq<Suggestion>)
    ensures SortedDesc(r)
    ensures multiset(r) == multiset(xs)
    ensures |r| == |xs|
    decreases |xs|
  {
    if |xs| == 0 then []
    else
      assert xs == [xs[0]] + xs[1..];
      InsertDesc(xs[0], SortDesc(xs[1..]))
  }

  const Limit: nat := 5

  /** In a sorted list nothing after position `n` outranks anything before. */
  lemma SortedSplit(s: seq<Suggestion>, n: nat, x: Suggestion, y: Suggestion)
    requires SortedDesc(s) && n <= |s|
    requires x in multiset(s[n..]) && y in s[..n]
    ensures x.priority <= y.priority
  {
    var a :| 0 <= a < |s[n..]| && s[n..][a] == x;
    var b :| 0 <= b < n && s[..n][b] == y;
    assert s[n + a] == x && s[b] == y;
  }

  /** A prefix and the rest make up the whole list. */
  lemma PrefixSplit(s: seq<Suggestion>, n: nat)
    requires n <= |s|
    ensures multiset(s) == multiset(s[..n]) + multiset(s[n..])
  {
    assert s == s[..n] + s[n..];
  }

  /** `limit(5)` / `slice(0, 5)` after the sort: the first five records in
      priority order. */
  function TopFive(xs: seq<Suggestion>): (r: seq<Suggestion>)
    ensures |r| == if |xs| < Limit then |xs| else Limit
    ensures SortedDesc(r)
    ensures multiset(r) <= multiset(xs)
  {
    var s := SortDesc(xs);
    var n := if |s| < Limit then |s| else Limit;
    PrefixSplit(s, n);
    s[..n]
  }

  /** Nothing `TopFive` leaves out outranks anything it keeps. */
  lemma TopFiveKeepsBest(xs: seq<Suggestion>)
    ensures forall x, y :: x in multiset(xs) - multiset(TopFive(xs)) && y in TopFive(xs) ==> x.priority <= y.priority
  {
    var s := SortDesc(xs);
    var n := if |s| < Limit then |s| else Limit;
    PrefixSplit(s, n);
    forall x, y | x in multiset(xs) - multiset(s[..n]) && y in s[..n]
      ensures x.priority <= y.priority
    {
      SortedSplit(s, n, x, y);
    }
  }

  /** The active query: at most five, highest priority first. */
  function ActiveTop(store: Store, userId: string, now: int): seq<Suggestion> {
    TopFive(ActiveOf(store, userId, now))
  }

  /** The keys of the user's dismissed suggestions that have one. */
  function DismissedKeys(store: Store, userId: string): (r: seq<string>)
    ensures forall k :: k in r <==>
      exists i :: 0 <= i < |store| && store[i].userId == userId && store[i].dismissed
        && store[i].uniqueKey == Some(k)
    decreases |store|
  {
    if |store| == 0 then []
    else
      var rest := DismissedKeys(store[..|store| - 1], userId);
      var last := store[|store| - 1];
      assert forall i :: 0 <= i < |store| - 1 ==> store[..|store| - 1][i] == store[i];
      if last.userId == userId && last.dismissed && last.uniqueKey.Some? then rest + [last.uniqueKey.value]
      else rest
  }

  // ---------------------------------------------------------------- saving

  /** `insertMany`: every draft is validated; one invalid draft rejects the
      whole batch and nothing is written. */
  function InsertAll(store: Store, drafts: seq<Draft>, now: int): (r: Result<Store, SchemaError>)
    ensures r.Success? <==> forall i :: 0 <= i < |drafts| ==> Admissible(drafts[i])
    ensures r.Success? ==>
      && |r.value| == |store| + |drafts|
      && r.value[..|store|] == store
      && forall i :: 0 <= i < |drafts| ==>
           Validate(drafts[i], |store| + i, now) == Success(r.value[|store| + i])
    decreases |drafts|
  {
    if |drafts| == 0 then Success(store)
    else match Validate(drafts[0], |store|, now)
      case Failure(e) => Failure(e)
      case Success(s) =>
        var r := InsertAll(store + [s], drafts[1..], now);
        assert forall i :: 1 <= i < |drafts| ==> drafts[i] == drafts[1..][i - 1];
        if r.Success? then
          assert r.value[..|store|] == (store + [s])[..|store|];
          r
        else r
  }

  // ---------------------------------------------------------------- getSuggestions

  /** Everything the handler learns from outside the database: the recent
      chats, the two replies of the generative model with their parsers, and
      the clock reading taken if generation fails. */
  datatype Oracle = Oracle(
    chats: seq<Chat>,
    majorReply: Outcome<string>,
    parseProfile: string -> Option<Profile>,
    reply: Outcome<string>,
    parseList: string -> Option<seq<Candidate>>,
    stamp: nat)

  datatype Response = Listed(items: seq<Suggestion>) | ServerError

  /** Generation as `getSuggestions` asks for it: as many suggestions as
      the five-item list lacks, with the user's dismissed keys to avoid.
      The drafts are the user's; one draft if generation threw, and
      otherwise none whose key the user dismissed. */
  function Generated(store: Store, userId: string, now: int, o: Oracle): (g: Generation)
    ensures g == Generate(userId, now, AnalyzeMajor(o.chats, o.majorReply, o.parseProfile).0,
                          Limit - |ActiveTop(store, userId, now)|, o.reply, o.parseList,
                          DismissedKeys(store, userId), o.stamp)
    ensures forall d :: d in g.drafts ==> d.userId == Some(userId)
    ensures g.threw ==> |g.drafts| == 1
    ensures !g.threw ==> forall d :: d in g.drafts ==>
      d.uniqueKey.Some? && d.uniqueKey.value !in DismissedKeys(store, userId)
  {
    var profile := AnalyzeMajor(o.chats, o.majorReply, o.parseProfile).0;
    var count := Limit - |ActiveTop(store, userId, now)|;
    var avoid := DismissedKeys(store, userId);
    GenerateOwned(userId, now, profile, count, o.reply, o.parseList, avoid, o.stamp);
    Generate(userId, now, profile, count, o.reply, o.parseList, avoid, o.stamp)
  }

  /** Saving the generated drafts and answering with the merged top five;
      a draft the schema rejects makes the whole request fail. */
  function Save(store: Store, active: seq<Suggestion>, drafts: seq<Draft>, now: int): (r: (Response, Store))
    ensures |store| <= |r.1| && r.1[..|store|] == store
    ensures r.0.ServerError? <==> exists i :: 0 <= i < |drafts| && !Admissible(drafts[i])
    ensures r.0.ServerError? ==> r.1 == store
    ensures r.0.Listed? ==> |r.1| == |store| + |drafts| && |r.0.items| <= Limit && SortedDesc(r.0.items)
    ensures r.0.Listed? ==> forall i :: 0 <= i < |drafts| ==>
      Validate(drafts[i], |store| + i, now) == Success(r.1[|store| + i])
    ensures r.0.Listed? ==> r.0.items == TopFive(active + r.1[|store|..])
  {
    match InsertAll(store, drafts, now)
    case Failure(_) => (ServerError, store)
    case Success(next) => (Listed(TopFive(active + next[|store|..])), next)
  }

  /** `getSuggestions`: with three or more active suggestions they are
      returned and nothing is generated; otherwise `5 - active` are asked
      for, saved, merged with the active ones and cut back to five. */
  function GetSuggestions(store: Store, userId: string, now: int, o: Oracle): (r: (Response, Store))
    ensures |store| <= |r.1| && r.1[..|store|] == store
    ensures r.0.ServerError? ==> r.1 == store
    ensures |ActiveTop(store, userId, now)| >= 3 ==> r == (Listed(ActiveTop(store, userId, now)), store)
    ensures r.0.Listed? ==> |r.0.items| <= Limit && SortedDesc(r.0.items)
    ensures |ActiveTop(store, userId, now)| < 3 ==>
      r == Save(store, ActiveTop(store, userId, now), Generated(store, userId, now, o).drafts, now)
    ensures |ActiveTop(store, userId, now)| < 3 && r.0.Listed? ==>
      r.0.items == TopFive(ActiveTop(store, userId, now) + r.1[|store|..])
  {
    var active := ActiveTop(store, userId, now);
    if |active| >= 3 then (Listed(active), store)
    else Save(store, active, Generated(store, userId, now, o).drafts, now)
  }

  lemma TopFiveSubset(xs: seq<Suggestion>)
    ensures forall x :: x in TopFive(xs) ==> x in xs
  {
    forall x | x in TopFive(xs) ensures x in xs {
      assert x in multiset(TopFive(xs));
    }
  }

  /** Saved drafts of the user become active records, kept alongside the
      active ones they are merged with. */
  lemma SaveListsActive(store: Store, active: seq<Suggestion>, drafts: seq<Draft>, now: int, userId: string)
    requires forall x :: x in active ==> x in store && IsActive(x, userId, now)
    requires forall d :: d in drafts ==> d.userId == Some(userId)
    ensures var r := Save(store, active, drafts, now);
      r.0.Listed? ==> forall x :: x in r.0.items ==> x in r.1 && IsActive(x, userId, now)
  {
    var ins := InsertAll(store, drafts, now);
    if ins.Success? {
      var next := ins.value;
      var saved := next[|store|..];
      assert next == store + saved;
      forall x | x in saved ensures x in next && IsActive(x, userId, now) {
        var i :| 0 <= i < |saved| && saved[i] == x;
        assert next[|store| + i] == x;
        assert drafts[i] in drafts;
      }
      TopFiveSubset(active + saved);
    }
  }

  /** Saving keeps the collection well formed. */
  lemma SaveWellFormed(store: Store, active: seq<Suggestion>, drafts: seq<Draft>, now: int)
    requires WellFormed(store)
    ensures WellFormed(Save(store, active, drafts, now).1)
  {
    var ins := InsertAll(store, drafts, now);
    if ins.Success? {
      var next := ins.value;
      forall i | 0 <= i < |next| ensures next[i].id == i && Valid(next[i]) {
        if i < |store| {
          assert next[i] == next[..|store|][i];
        } else {
          assert drafts[i - |store|] in drafts;
        }
      }
    }
  }

  /** Saved records keep the keys of their drafts. */
  lemma SaveKeepsKeys(store: Store, active: seq<Suggestion>, drafts: seq<Draft>, now: int, avoid: seq<string>)
    requires forall d :: d in drafts ==> d.uniqueKey.Some? && d.uniqueKey.value !in avoid
    ensures var next := Save(store, active, drafts, now).1;
      forall i :: |store| <= i < |next| ==> next[i].uniqueKey.Some? && next[i].uniqueKey.value !in avoid
  {
    var ins := InsertAll(store, drafts, now);
    if ins.Success? {
      var next := ins.value;
      forall i | |store| <= i < |next|
        ensures next[i].uniqueKey.Some? && next[i].uniqueKey.value !in avoid
      {
        assert drafts[i - |store|] in drafts;
      }
    }
  }

  // ---------------------------------------------------------------- dismissing and promoting

  /** `dismissSuggestion`: 400 without an id, 404 for an unknown one, 403
      for another user's suggestion, otherwise the flag is set and 200. */
  function Dismiss(store: Store, userId: string, id: Option<nat>): (r: (int, Store))
    ensures r.0 == 400 <==> id.None?
    ensures r.0 == 404 <==> id.Some? && id.value >= |store|
    ensures r.0 == 403 <==> id.Some? && id.value < |store| && store[id.value].userId != userId
    ensures r.0 == 200 <==> id.Some? && id.value < |store| && store[id.value].userId == userId
    ensures r.0 != 200 ==> r.1 == store
    ensures |r.1| == |store|
    ensures r.0 == 200 ==>
      && r.1[id.value].dismissed
      && r.1[id.value].(dismissed := false) == store[id.value].(dismissed := false)
      && forall j :: 0 <= j < |store| && j != id.value ==> r.1[j] == store[j]
  {
    if id.None? then (400, store)
    else if id.value >= |store| then (404, store)
    else if store[id.value].userId != userId then (403, store)
    else (200, store[id.value := store[id.value].(dismissed := true)])
  }

  /** Dismissing twice is dismissing once. */
  lemma DismissIdempotent(store: Store, userId: string, id: Option<nat>)
    ensures var once := Dismiss(store, userId, id);
      Dismiss(once.1, userId, id) == (once.0, once.1)
  {
    var once := Dismiss(store, userId, id);
    if once.0 == 200 {
      assert once.1[id.value := once.1[id.value].(dismissed := true)] == once.1;
    }
  }

  /** After a successful dismissal the suggestion leaves the active query and
      its key, if any, joins the keys generation avoids. */
  lemma DismissTakesEffect(store: Store, userId: string, id: nat, now: int)
    requires WellFormed(store)
    requires Dismiss(store, userId, Some(id)).0 == 200
    ensures var after := Dismiss(store, userId, Some(id)).1;
      && (forall x :: x in ActiveOf(after, userId, now) ==> x.id != id)
      && (store[id].uniqueKey.Some? ==> store[id].uniqueKey.value in DismissedKeys(after, userId))
  {
    var after := Dismiss(store, userId, Some(id)).1;
    forall x | x in ActiveOf(after, userId, now) ensures x.id != id {
      var j :| 0 <= j < |after| && after[j] == x;
      if j != id {
        assert after[j] == store[j];
      }
    }
    assert after[id].userId == userId && after[id].uniqueKey == store[id].uniqueKey;
  }

  /** `addSuggestionToCalendar`: marks the user's own suggestion as added and
      always passes the request on; an unknown or foreign id changes nothing. */
  function Promote(store: Store, userId: string, id: Option<nat>): (r: Store)
    ensures |r| == |store|
    ensures forall j :: 0 <= j < |store| && (id != Some(j) || store[j].userId != userId) ==> r[j] == store[j]
    ensures id.Some? && id.value < |store| && store[id.value].userId == userId ==>
      && r[id.value].addedToCalendar
      && r[id.value].(addedToCalendar := false) == store[id.value].(addedToCalendar := false)
  {
    if id.Some? && id.value < |store| && store[id.value].userId == userId then
      store[id.value := store[id.value].(addedToCalendar := true)]
    else store
  }

  /** Promoting twice is promoting once, and a promoted suggestion is no
      longer active. */
  lemma PromoteIdempotent(store: Store, userId: string, id: Option<nat>, now: int)
    ensures Promote(Promote(store, userId, id), userId, id) == Promote(store, userId, id)
    ensures id.Some? && id.value < |store| && store[id.value].userId == userId ==>
      !IsActive(Promote(store, userId, id)[id.value], userId, now)
  {
    var once := Promote(store, userId, id);
    if id.Some? && id.value < |store| && store[id.value].userId == userId {
      assert once[id.value := once[id.value].(addedToCalendar := true)] == once;
    }
  }

  // ---------------------------------------------------------------- history only grows

  /** `b` is `a` with, at most, flags switched on. */
  predicate Evolves(a: Suggestion, b: Suggestion) {
    && b.(dismissed := a.dismissed, addedToCalendar := a.addedToCalendar) == a
    && (a.dismissed ==> b.dismissed)
    && (a.addedToCalendar ==> b.addedToCalendar)
  }

  /** No record is removed or rewritten; records may only be appended and
      flags only switched on. */
  predicate Grows(a: Store, b: Store) {
    |a| <= |b| && forall i :: 0 <= i < |a| ==> Evolves(a[i], b[i])
  }

  lemma ExtensionGrows(a: Store, b: Store)
    requires |a| <= |b| && b[..|a|] == a
    ensures Grows(a, b)
  {
    forall i | 0 <= i < |a| ensures Evolves(a[i], b[i]) {
      assert b[i] == b[..|a|][i];
    }
  }

  /** None of the three handlers removes or rewrites history. */
  lemma GetSuggestionsGrows(store: Store, userId: string, now: int, o: Oracle)
    ensures Grows(store, GetSuggestions(store, userId, now, o).1)
  {
    ExtensionGrows(store, GetSuggestions(store, userId, now, o).1);
  }

  lemma DismissGrows(store: Store, userId: string, id: Option<nat>)
    ensures Grows(store, Dismiss(store, userId, id).1)
  {
    var r := Dismiss(store, userId, id);
    forall i | 0 <= i < |store| ensures Evolves(store[i], r.1[i]) {
      if r.0 == 200 && i == id.value {
        assert r.1[i] == store[i].(dismissed := true);
      }
    }
  }

  lemma PromoteGrows(store: Store, userId: string, id: Option<nat>)
    ensures Grows(store, Promote(store, userId, id))
  {
    var r := Promote(store, userId, id);
    forall i | 0 <= i < |store| ensures Evolves(store[i], r[i]) {
      if id == Some(i) && store[i].userId == userId {
        assert r[i] == store[i].(addedToCalendar := true);
      }
    }
  }

  /** A dismissed or promoted suggestion never becomes active again, at any
      later instant, whatever the handlers do. */
  lemma FlagsStick(a: Store, b: Store, i: nat, userId: string, now: int)
    requires Grows(a, b) && i < |a|
    requires a[i].dismissed || a[i].addedToCalendar
    ensures !IsActive(b[i], userId, now)
  {
    assert Evolves(a[i], b[i]);
  }
}

=== FILE: text.dfy ===
/** String operations the JavaScript sources use (`trim`, `toLowerCase`,
    `startsWith`, regex replacements, `split`/`join`, decimal rendering),
    written over `seq<char>`. */
module Text {
  import opened Wrappers

  /** JavaScript's `\s` class, which is also what `trim` removes. */
  predicate IsSpace(c: char) {
    c == ' ' || c == '\t' || c == '\n' || c == '\r' || c == '\U{000B}' || c == '\U{000C}'
    || c == '\U{00A0}' || c == '\U{1680}' || ('\U{2000}' <= c <= '\U{200A}')
    || c == '\U{2028}' || c == '\U{2029}' || c == '\U{202F}' || c == '\U{205F}'
    || c == '\U{3000}' || c == '\U{FEFF}'
  }

  predicate NoSpace(s: string) {
    forall i :: 0 <= i < |s| ==> !IsSpace(s[i])
  }

  /** Empty or whitespace only: the strings whose `trim()` is `''`. */
  predicate IsBlank(s: string) {
    forall i :: 0 <= i < |s| ==> IsSpace(s[i])
  }

  predicate StartsWith(s: string, prefix: string) {
    |prefix| <= |s| && s[..|prefix|] == prefix
  }

  predicate EndsWith(s: string, suffix: string) {
    |suffix| <= |s| && s[|s| - |suffix|..] == suffix
  }

  predicate IsDigit(c: char) {
    '0' <= c <= '9'
  }

  predicate AllDigits(s: string) {
    forall i :: 0 <= i < |s| ==> IsDigit(s[i])
  }

  // ---------------------------------------------------------------- trimming

  /** `trimStart()`: the suffix left after the leading whitespace run. */
  function TrimStart(s: string): (r: string)
    ensures |r| <= |s| && r == s[|s| - |r|..]
    ensures r == [] || !IsSpace(r[0])
    ensures IsBlank(s[..|s| - |r|])
    decreases |s|
  {
    if |s| > 0 && IsSpace(s[0]) then
      var r := TrimStart(s[1..]);
      assert s[..|s| - |r|] == [s[0]] + s[1..][..|s| - 1 - |r|];
      r
    else s
  }

  /** `trimEnd()`: the prefix left before the trailing whitespace run. */
  function TrimEnd(s: string): (r: string)
    ensures |r| <= |s| && r == s[..|r|]
    ensures r == [] || !IsSpace(r[|r| - 1])
    ensures IsBlank(s[|r|..])
    decreases |s|
  {
    if |s| > 0 && IsSpace(s[|s| - 1]) then
      var r := TrimEnd(s[..|s| - 1]);
      assert s[|r|..] == s[..|s| - 1][|r|..] + [s[|s| - 1]];
      r
    else s
  }

  /** `trim()`. */
  function Trim(s: string): (r: string)
    ensures |r| <= |s|
    ensures r == [] || (!IsSpace(r[0]) && !IsSpace(r[|r| - 1]))
    ensures r == [] <==> IsBlank(s)
  {
    TrimBothEnds(s);
    TrimEnd(TrimStart(s))
  }

  /** Trimming the start leaves nothing exactly for a blank string. */
  lemma TrimStartBlank(s: string)
    ensures TrimStart(s) == [] <==> IsBlank(s)
  {
    var t := TrimStart(s);
    if t == [] {
      assert s[..|s|] == s;
    } else {
      assert s[|s| - |t|] == t[0];
    }
  }

  /** Trimming the end of a string that starts with a non-space keeps
      that first character. */
  lemma TrimEndKeepsFirst(t: string)
    requires t != [] && !IsSpace(t[0])
    ensures TrimEnd(t) != [] && TrimEnd(t)[0] == t[0]
  {
    var r := TrimEnd(t);
    assert t[0..] == t;
  }

  /** What trimming both ends leaves: nothing exactly for a blank string,
      otherwise a string that starts and ends with a non-space. */
  lemma TrimBothEnds(s: string)
    ensures var r := TrimEnd(TrimStart(s));
      && (r == [] <==> IsBlank(s))
      && (r == [] || (!IsSpace(r[0]) && !IsSpace(r[|r| - 1])))
  {
    TrimStartBlank(s);
    var t := TrimStart(s);
    if t != [] {
      TrimEndKeepsFirst(t);
    }
  }

  /** Trimming a trimmed string changes nothing. */
  lemma TrimIdempotent(s: string)
    ensures Trim(Trim(s)) == Trim(s)
  {
    var r := Trim(s);
    assert TrimStart(r) == r;
    assert TrimEnd(r) == r;
  }

  // ---------------------------------------------------------------- lower case

  /** The characters `toLowerCase` changes in the ASCII and Latin-1 ranges. */
  predicate IsUpper(c: char) {
    ('A' <= c <= 'Z') || ('\U{00C0}' <= c <= '\U{00DE}' && c != '\U{00D7}')
  }

  function LowerChar(c: char): (d: char)
    ensures !IsUpper(d)
    ensures IsSpace(d) <==> IsSpace(c)
    ensures d == c <==> !IsUpper(c)
  {
    if IsUpper(c) then (c as int + 32) as char else c
  }

  predicate NoUpper(s: string) {
    forall i :: 0 <= i < |s| ==> !IsUpper(s[i])
  }

  /** `toLowerCase()`, restricted to ASCII and Latin-1 letters. */
  function Lower(s: string): (r: string)
    ensures |r| == |s|
    ensures NoUpper(r)
    ensures NoSpace(s) ==> NoSpace(r)
    ensures NoUpper(s) ==> r == s
  {
    seq(|s|, i requires 0 <= i < |s| => LowerChar(s[i]))
  }

  /** Lower-casing twice is lower-casing once. */
  lemma LowerIdempotent(s: string)
    ensures Lower(Lower(s)) == Lower(s)
  {
  }

  // ---------------------------------------------------------------- searching

  function IndexOf(s: string, c: char): (k: nat)
    requires c in s
    ensures k < |s| && s[k] == c && c !in s[..k]
  {
    if s[0] == c then 0
    else
      var k := IndexOf(s[1..], c);
      assert s[..k + 1] == [s[0]] + s[1..][..k];
      k + 1
  }

  predicate OccursAt(s: string, pat: string, k: nat) {
    k + |pat| <= |s| && s[k..k + |pat|] == pat
  }

  /** An occurrence past the first character is an occurrence in the tail. */
  lemma OccursInTail(s: string, pat: string, j: nat)
    requires 1 <= j <= |s|
    ensures OccursAt(s, pat, j) <==> OccursAt(s[1..], pat, j - 1)
  {
    if j + |pat| <= |s| {
      assert s[1..][j - 1..j - 1 + |pat|] == s[j..j + |pat|];
    }
  }

  /** Index of the first occurrence of `pat` in `s`, as `String.indexOf`. */
  function FirstOccurrence(s: string, pat: string): (k: int)
    ensures -1 <= k <= |s|
    ensures k >= 0 ==> OccursAt(s, pat, k)
    ensures forall j :: 0 <= j < |s| + 1 && (k < 0 || j < k) ==> !OccursAt(s, pat, j)
    decreases |s|
  {
    if |pat| <= |s| && s[..|pat|] == pat then 0
    else if |s| == 0 then -1
    else
      var k := FirstOccurrence(s[1..], pat);
      forall j | 1 <= j <= |s| ensures OccursAt(s, pat, j) <==> OccursAt(s[1..], pat, j - 1) {
        OccursInTail(s, pat, j);
      }
      if k < 0 then -1 else k + 1
  }

  /** `String.prototype.replace` with a string pattern: only the first
      occurrence is replaced. */
  function ReplaceFirst(s: string, pat: string, rep: string): (r: string)
    ensures FirstOccurrence(s, pat) < 0 ==> r == s
    ensures var k := FirstOccurrence(s, pat);
      k >= 0 ==> r == s[..k] + rep + s[k + |pat|..]
  {
    var k := FirstOccurrence(s, pat);
    if k < 0 then s else s[..k] + rep + s[k + |pat|..]
  }

  /** Index of the last `c` in `s`, or -1 (`lastIndexOf`). */
  function LastIndexOf(s: string, c: char): (k: int)
    ensures -1 <= k < |s|
    ensures k >= 0 ==> s[k] == c
    ensures forall j :: k < j < |s| ==> s[j] != c
    decreases |s|
  {
    if |s| == 0 then -1
    else if s[|s| - 1] == c then |s| - 1
    else LastIndexOf(s[..|s| - 1], c)
  }

  /** A greedy match of `open [\s\S]* close` (`/\{[\s\S]*\}/`, `/\[[\s\S]*\]/`):
      from the first `open` to the last `close` after it. */
  function Enclosed(s: string, open: char, close: char): (r: Option<string>)
    ensures r.Some? <==> exists a, b :: 0 <= a < b < |s| && s[a] == open && s[b] == close
    ensures r.Some? ==> exists a, b ::
      && 0 <= a < b < |s| && r.value == s[a..b + 1]
      && s[a] == open && s[b] == close && open !in s[..a] && close !in s[b + 1..]
  {
    if open !in s then None
    else
      var a := IndexOf(s, open);
      var b := LastIndexOf(s, close);
      assert forall x :: 0 <= x < a ==> s[..a][x] == s[x];
      assert forall y :: b < y < |s| ==> s[b + 1..][y - b - 1] == s[y];
      if b <= a then
        None
      else Some(s[a..b + 1])
  }

  // ---------------------------------------------------------------- regex rewrites

  /** `s.replace(/\s+/g, '-')`: every maximal whitespace run becomes one `-`. */
  function CollapseSpaces(s: string): (r: string)
    ensures NoSpace(r)
    ensures |r| <= |s|
    ensures NoSpace(s) ==> r == s
    ensures NoUpper(s) ==> NoUpper(r)
    decreases |s|
  {
    if |s| == 0 then ""
    else if IsSpace(s[0]) then
      var t := TrimStart(s);
      assert s[0..] == s;
      "-" + CollapseSpaces(t)
    else [s[0]] + CollapseSpaces(s[1..])
  }

  /** Lower-casing keeps the whitespace runs where they are. */
  lemma {:induction false} TrimStartLower(s: string)
    ensures TrimStart(Lower(s)) == Lower(TrimStart(s))
    decreases |s|
  {
    if |s| > 0 {
      assert Lower(s)[1..] == Lower(s[1..]);
      TrimStartLower(s[1..]);
    }
  }

  lemma LowerTail(s: string)
    requires |s| > 0
    ensures Lower(s)[1..] == Lower(s[1..])
  {
    assert forall k :: 0 <= k < |s| - 1 ==> Lower(s)[1..][k] == Lower(s[1..])[k];
  }

  lemma LowerAppend(a: string, b: string)
    ensures Lower(a + b) == Lower(a) + Lower(b)
  {
  }

  lemma LowerInit(s: string)
    requires |s| > 0
    ensures Lower(s)[..|s| - 1] == Lower(s[..|s| - 1])
  {
    var t := s[..|s| - 1];
    forall k | 0 <= k < |t| ensures Lower(s)[k] == Lower(t)[k] {
      assert t[k] == s[k];
    }
  }

  lemma {:induction false} TrimEndLower(s: string)
    ensures TrimEnd(Lower(s)) == Lower(TrimEnd(s))
    decreases |s|
  {
    if |s| > 0 {
      LowerInit(s);
      TrimEndLower(s[..|s| - 1]);
    }
  }

  /** Trimming and lower-casing commute. */
  lemma TrimLower(s: string)
    ensures Trim(Lower(s)) == Lower(Trim(s))
  {
    TrimStartLower(s);
    TrimEndLower(TrimStart(s));
  }

  /** Trimming keeps a string free of upper-case letters. */
  lemma TrimNoUpper(s: string)
    requires NoUpper(s)
    ensures NoUpper(Trim(s))
  {
    TrimLower(s);
  }

  /** Collapsing whitespace and lower-casing commute. */
  lemma {:induction false} CollapseLower(s: string)
    ensures CollapseSpaces(Lower(s)) == Lower(CollapseSpaces(s))
    decreases |s|
  {
    if |s| > 0 {
      if IsSpace(s[0]) {
        CollapseLower(TrimStart(s));
        CollapseLowerSpace(s);
      } else {
        CollapseLower(s[1..]);
        CollapseLowerOther(s);
      }
    }
  }

  /** The step of `CollapseLower` for a leading whitespace run. */
  lemma CollapseLowerSpace(s: string)
    requires |s| > 0 && IsSpace(s[0])
    requires CollapseSpaces(Lower(TrimStart(s))) == Lower(CollapseSpaces(TrimStart(s)))
    ensures CollapseSpaces(Lower(s)) == Lower(CollapseSpaces(s))
  {
    TrimStartLower(s);
    LowerCons('-', CollapseSpaces(TrimStart(s)));
    CollapseRun(s);
    CollapseRun(Lower(s));
  }

  lemma CollapseRun(s: string)
    requires |s| > 0 && IsSpace(s[0])
    ensures CollapseSpaces(s) == "-" + CollapseSpaces(TrimStart(s))
  {
  }

  /** The step of `CollapseLower` for a leading non-space character. */
  lemma CollapseLowerOther(s: string)
    requires |s| > 0 && !IsSpace(s[0])
    requires CollapseSpaces(Lower(s[1..])) == Lower(CollapseSpaces(s[1..]))
    ensures CollapseSpaces(Lower(s)) == Lower(CollapseSpaces(s))
  {
    var c := LowerChar(s[0]);
    var t := CollapseSpaces(s[1..]);
    LowerTail(s);
    LowerCons(s[0], t);
    CollapseCons(Lower(s));
  }

  lemma LowerCons(c: char, t: string)
    ensures Lower([c] + t) == [LowerChar(c)] + Lower(t)
  {
    assert forall k :: 0 <= k < |t| + 1 ==> Lower([c] + t)[k] == ([LowerChar(c)] + Lower(t))[k];
  }

  lemma CollapseCons(s: string)
    requires |s| > 0 && !IsSpace(s[0])
    ensures CollapseSpaces(s) == [s[0]] + CollapseSpaces(s[1..])
  {
  }

  /** No `<` has a `>` anywhere after it: nothing `/<[^>]*>/` could match. */
  predicate NoTag(s: string) {
    forall i, j :: 0 <= i < j < |s| && s[i] == '<' ==> s[j] != '>'
  }

  /** `s.replace(/<[^>]*>/g, '')`: from each `<` that has a `>` somewhere
      after it, everything up to and including the first such `>` is removed. */
  function StripTags(s: string): (r: string)
    ensures |r| <= |s|
    ensures forall k :: 0 <= k < |r| ==> r[k] in s
    ensures NoTag(r)
    ensures NoTag(s) ==> r == s
    decreases |s|
  {
    if |s| == 0 then ""
    else if s[0] == '<' && '>' in s then
      var k := IndexOf(s, '>');
      var r := StripTags(s[k + 1..]);
      assert forall m :: 0 <= m < |r| ==> r[m] in s by {
        forall m | 0 <= m < |r| ensures r[m] in s {
          var c := r[m];
          assert c in s[k + 1..];
          var q :| 0 <= q < |s[k + 1..]| && s[k + 1..][q] == c;
          assert s[k + 1 + q] == c;
        }
      }
      assert 0 < k && s[0] == '<' && s[k] == '>';
      r
    else
      var t := StripTags(s[1..]);
      var r := [s[0]] + t;
      assert forall m :: 0 <= m < |r| ==> r[m] in s by {
        forall m | 0 <= m < |r| ensures r[m] in s {
          if m > 0 {
            var c := t[m - 1];
            assert c in s[1..];
            var q :| 0 <= q < |s[1..]| && s[1..][q] == c;
            assert s[1 + q] == c;
          }
        }
      }
      assert NoTag(r) by {
        forall i, j | 0 <= i < j < |r| && r[i] == '<' ensures r[j] != '>' {
          if i == 0 {
            assert '>' !in s;
            assert r[j] in s;
          } else {
            assert t[i - 1] == '<';
          }
        }
      }
      assert NoTag(s) ==> t == s[1..] by {
        if NoTag(s) {
          assert NoTag(s[1..]) by {
            forall i, j | 0 <= i < j < |s[1..]| && s[1..][i] == '<' ensures s[1..][j] != '>' {
              assert s[i + 1] == '<';
            }
          }
        }
      }
      r
  }

  /** Removing tags a second time removes nothing more. */
  lemma StripTagsIdempotent(s: string)
    ensures StripTags(StripTags(s)) == StripTags(s)
  {
  }

  // ---------------------------------------------------------------- split / join

  /** `parts.join(sep)`. */
  function Join(parts: seq<string>, sep: char): string
    decreases |parts|
  {
    if |parts| == 0 then ""
    else if |parts| == 1 then parts[0]
    else parts[0] + [sep] + Join(parts[1..], sep)
  }

  /** `s.split(sep)`: always at least one piece, none containing `sep`. */
  function Split(s: string, sep: char): (r: seq<string>)
    ensures |r| >= 1
    ensures forall i :: 0 <= i < |r| ==> sep !in r[i]
    decreases |s|
  {
    if sep in s then
      var k := IndexOf(s, sep);
      [s[..k]] + Split(s[k + 1..], sep)
    else [s]
  }

  /** Splitting a join gives the parts back, provided no part holds the
      separator and there is at least one part. */
  lemma {:induction false} SplitJoin(parts: seq<string>, sep: char)
    requires |parts| >= 1
    requires forall i :: 0 <= i < |parts| ==> sep !in parts[i]
    ensures Split(Join(parts, sep), sep) == parts
    decreases |parts|
  {
    if |parts| == 1 {
    } else {
      var rest := Join(parts[1..], sep);
      var s := parts[0] + [sep] + rest;
      assert s[|parts[0]|] == sep;
      assert sep in s;
      var k := IndexOf(s, sep);
      assert forall j :: 0 <= j < |parts[0]| ==> s[j] == parts[0][j];
      assert s[..k] == parts[0];
      assert s[k + 1..] == rest;
      SplitJoin(parts[1..], sep);
    }
  }

  // ---------------------------------------------------------------- decimals

  function DigitChar(d: nat): (c: char)
    requires d < 10
    ensures IsDigit(c) && c as int - '0' as int == d
  {
    ('0' as int + d) as char
  }

  /** `String(n)` for a non-negative integer. */
  function NatToString(n: nat): (r: string)
    ensures |r| >= 1
    ensures AllDigits(r)
    decreases n
  {
    if n < 10 then [DigitChar(n)] else NatToString(n / 10) + [DigitChar(n % 10)]
  }

  /** Reads a run of decimal digits back into its value. */
  function ParseNat(s: string): nat
    requires AllDigits(s)
    decreases |s|
  {
    if |s| == 0 then 0
    else ParseNat(s[..|s| - 1]) * 10 + (s[|s| - 1] as int - '0' as int)
  }

  lemma {:induction false} ParseNatToString(n: nat)
    ensures ParseNat(NatToString(n)) == n
    decreases n
  {
    if n >= 10 {
      var r := NatToString(n);
      assert r[..|r| - 1] == NatToString(n / 10);
      ParseNatToString(n / 10);
    }
  }

  /** Distinct numbers render as distinct strings. */
  lemma NatToStringInjective(a: nat, b: nat)
    requires NatToString(a) == NatToString(b)
    ensures a == b
  {
    ParseNatToString(a);
    ParseNatToString(b);
  }

  /** `String(n).padStart(2, '0')`. */
  function Pad2(n: nat): (r: string)
    ensures AllDigits(r)
    ensures n < 100 ==> |r| == 2
    ensures ParseNat(r) == n
  {
    ParseNatToString(n);
    var s := NatToString(n);
    if |s| < 2 then
      assert ParseNat("0" + s) == ParseNat(s) by {
        assert ("0" + s)[..1] == "0";
      }
      "0" + s
    else
      assert n < 100 ==> |s| == 2 by {
        if n < 100 && n >= 10 { assert NatToString(n / 10) == [DigitChar(n / 10)]; }
      }
      s
  }
}

=== FILE: time_slots.dfy ===
/** The time-slot planner of the suggestion engine
    (controllers/suggestion.controller.js, `generateMultipleSuggestions`):
    a fixed list of candidate study windows computed from the current
    instant only. */
module TimeSlots {
  import opened Clock

  datatype Slot = Slot(start: int, end: int)

  /** `(6 - day + 7) % 7 || 7`: the days from weekday `w` to the next
      Saturday, where "next" is never today. */
  function DaysUntilSaturday(w: int): (k: int)
    requires 0 <= w < 7
    ensures 1 <= k <= 7
    ensures (w + k) % 7 == 6
    ensures w == 6 <==> k == 7
  {
    var k := (6 - w + 7) % 7;
    if k == 0 then 7 else k
  }

  /** Slot A: the next full hour of today, one hour long (only before 20:00). */
  function SlotA(now: int): Slot {
    var d, h := DayOf(now), HourOf(now);
    Slot(At(d, h + 1, 0), At(d, h + 2, 0))
  }

  /** Slot B: today 19:00 to 20:30 (only before 17:00). */
  function SlotB(now: int): Slot {
    Slot(At(DayOf(now), 19, 0), At(DayOf(now), 20, 30))
  }

  /** Slot C: tomorrow 08:00 to 09:30. */
  function SlotC(now: int): Slot {
    Slot(At(DayOf(now) + 1, 8, 0), At(DayOf(now) + 1, 9, 30))
  }

  /** Slot D: tomorrow 15:00 to 16:30. */
  function SlotD(now: int): Slot {
    Slot(At(DayOf(now) + 1, 15, 0), At(DayOf(now) + 1, 16, 30))
  }

  /** Slot E: the next Saturday 10:00 to 12:00. */
  function SlotE(now: int): Slot {
    var d := DayOf(now) + DaysUntilSaturday(WeekdayOf(now));
    Slot(At(d, 10, 0), At(d, 12, 0))
  }

  predicate Disjoint(a: Slot, b: Slot) {
    a.end <= b.start || b.end <= a.start
  }

  /** The planner: A (if hour < 20), B (if hour < 17), then C, D, E. */
  function PlanSlots(now: int): (s: seq<Slot>)
    ensures 3 <= |s| <= 5
  {
    (if HourOf(now) < 20 then [SlotA(now)] else [])
    + (if HourOf(now) < 17 then [SlotB(now)] else [])
    + [SlotC(now), SlotD(now), SlotE(now)]
  }

  /** How many slots there are, and which optional slots lead the list. */
  lemma PlanShape(now: int)
    ensures var s := PlanSlots(now);
      && |s| == 3 + (if HourOf(now) < 20 then 1 else 0) + (if HourOf(now) < 17 then 1 else 0)
      && 3 <= |s| <= 5
      && (HourOf(now) < 20 <==> s[0] == SlotA(now))
      && (HourOf(now) < 17 <==> s[1] == SlotB(now))
      && s[|s| - 3..] == [SlotC(now), SlotD(now), SlotE(now)]
  {
    var h := HourOf(now);
    var d := DayOf(now);
    DayOfAt(d + 1, 8, 0);
    DayOfAt(d, 19, 0);
    // slot A, B and C start on different clock times, so none equals another
    assert SlotA(now).start != SlotC(now).start;
    assert SlotB(now).start != SlotC(now).start;
    assert SlotB(now).start != SlotD(now).start;
  }

  /** Every slot starts strictly after `now` and ends after it starts. */
  lemma SlotsInFuture(now: int)
    ensures forall i :: 0 <= i < |PlanSlots(now)| ==>
      now < PlanSlots(now)[i].start < PlanSlots(now)[i].end
  {
    BeforeNextHour(now);
    var d, h := DayOf(now), HourOf(now);
    assert now < At(d, h + 1, 0);
    assert At(d, 24, 0) <= At(d + 1, 8, 0);
  }

  /** The weekend slot falls on a Saturday, one to seven days ahead, so it is
      never today, even when today is Saturday. */
  lemma WeekendSlotIsNextSaturday(now: int)
    ensures var e := SlotE(now);
      && WeekdayOf(e.start) == 6
      && DayOf(now) + 1 <= DayOf(e.start) <= DayOf(now) + 7
      && HourOf(e.start) == 10
  {
    var d := DayOf(now) + DaysUntilSaturday(WeekdayOf(now));
    DayOfAt(d, 10, 0);
    assert (DayOf(now) + 4) % 7 == WeekdayOf(now);
    assert (d + 4) % 7 == (WeekdayOf(now) + DaysUntilSaturday(WeekdayOf(now))) % 7;
    assert At(d, 10, 0) % MsPerDay == 10 * MsPerHour;
  }

  /** No two planned slots overlap. */
  lemma SlotsDisjoint(now: int)
    ensures forall i, j :: 0 <= i < j < |PlanSlots(now)| ==>
      Disjoint(PlanSlots(now)[i], PlanSlots(now)[j])
  {
    var d, h := DayOf(now), HourOf(now);
    var k := DaysUntilSaturday(WeekdayOf(now));
    var s := PlanSlots(now);
    var a, b, c, dd, e := SlotA(now), SlotB(now), SlotC(now), SlotD(now), SlotE(now);
    assert h < 17 ==> Disjoint(a, b);
    assert Disjoint(a, c) && Disjoint(a, dd) && Disjoint(a, e);
    assert Disjoint(b, c) && Disjoint(b, dd) && Disjoint(b, e);
    assert Disjoint(c, dd);
    assert Disjoint(c, e) && Disjoint(dd, e) by {
      assert k >= 1;
    }
  }

  /** On a Friday the weekend slot (Saturday 10:00) starts before slot D
      (Saturday 15:00): the list keeps the A..E order rather than time order. */
  lemma FridayListIsNotChronological(now: int)
    requires WeekdayOf(now) == 5
    ensures var s := PlanSlots(now);
      s[|s| - 1].start < s[|s| - 2].start
  {
    PlanShape(now);
  }
}

=== FILE: users.dfy ===
/** The account handlers of controllers/user.controller.js: the profile
    update, the password change, the activity history page, following
    another user, saving a post, the user directory's pages and the avatar
    upload filter. Accounts live in a map from id to record; password
    hashing and checking are parameters. */
module Users {
  import opened Wrappers
  import opened Lists
  import Paging
  import DiscussionClient

  /** The fields of a user record the handlers read and write. */
  datatype Account = Account(
    name: string,
    username: string,
    email: string,
    phone: string,
    password: string,
    following: seq<Id>,
    followers: seq<Id>,
    savedPosts: seq<Id>)

  type Accounts = map<Id, Account>

  /** Whether an account other than `self` already uses a login name. */
  predicate UsernameTakenBy(users: Accounts, self: Id, username: string) {
    exists k | k in users :: k != self && users[k].username == username
  }

  predicate EmailTakenBy(users: Accounts, self: Id, email: string) {
    exists k | k in users :: k != self && users[k].email == email
  }

  /** No two accounts share a username or an email, as the user schema's
      unique indexes demand. */
  ghost predicate UniqueLogins(users: Accounts) {
    forall a, b :: a in users && b in users && a != b ==>
      users[a].username != users[b].username && users[a].email != users[b].email
  }

  // ---------------------------------------------------------------- updateProfile

  /** The request body; a missing field is the empty string. */
  datatype ProfileBody = ProfileBody(name: string, username: string, email: string, phone: string)

  datatype ProfileOutcome = NotSignedIn | Incomplete | NoAccount | NothingChanged | UsernameTaken | EmailTaken | ProfileUpdated

  function ProfileCode(o: ProfileOutcome): int {
    match o
    case NotSignedIn => 401
    case Incomplete => 400
    case NoAccount => 404
    case NothingChanged => 200
    case UsernameTaken => 400
    case EmailTaken => 400
    case ProfileUpdated => 200
  }

  predicate SameProfile(a: Account, b: ProfileBody) {
    a.name == b.name && a.username == b.username && a.email == b.email && a.phone == b.phone
  }

  /** `updateProfile`: signed in, all four fields, an existing account;
      identical values succeed without a write; a changed username, then a
      changed email, must not belong to another account. */
  function UpdateProfile(users: Accounts, caller: Option<Id>, b: ProfileBody): (r: (ProfileOutcome, Accounts))
    ensures r.0 == NotSignedIn <==> caller.None? || caller.value == ""
    ensures r.0 == Incomplete <==> caller.Some? && caller.value != "" && (b.name == "" || b.username == "" || b.email == "" || b.phone == "")
    ensures r.0 == UsernameTaken ==>
      && caller.Some? && caller.value in users
      && users[caller.value].username != b.username && UsernameTakenBy(users, caller.value, b.username)
    ensures r.0 == EmailTaken ==>
      && caller.Some? && caller.value in users
      && users[caller.value].email != b.email && EmailTakenBy(users, caller.value, b.email)
    ensures r.0 == NothingChanged ==> caller.Some? && caller.value in users && SameProfile(users[caller.value], b)
    ensures r.0 != ProfileUpdated ==> r.1 == users
    ensures r.0 == ProfileUpdated ==>
      && caller.Some? && caller.value in users
      && r.1.Keys == users.Keys
      && SameProfile(r.1[caller.value], b)
      && r.1[caller.value].password == users[caller.value].password
      && (forall k :: k in users && k != caller.value ==> r.1[k] == users[k])
  {
    if caller.None? || caller.value == "" then (NotSignedIn, users)
    else if b.name == "" || b.username == "" || b.email == "" || b.phone == "" then (Incomplete, users)
    else if caller.value !in users then (NoAccount, users)
    else
      var me := users[caller.value];
      if SameProfile(me, b) then (NothingChanged, users)
      else if me.username != b.username && UsernameTakenBy(users, caller.value, b.username) then (UsernameTaken, users)
      else if me.email != b.email && EmailTakenBy(users, caller.value, b.email) then (EmailTaken, users)
      else
        var me' := me.(name := b.name, username := b.username, email := b.email, phone := b.phone);
        (ProfileUpdated, users[caller.value := me'])
  }

  /** Checking a name only when it changes is enough: an update never lets
      two accounts share a username or an email. */
  lemma UpdateKeepsLoginsUnique(users: Accounts, caller: Option<Id>, b: ProfileBody)
    requires UniqueLogins(users)
    ensures UniqueLogins(UpdateProfile(users, caller, b).1)
  {
    var r := UpdateProfile(users, caller, b);
    if r.0 == ProfileUpdated {
      var c := caller.value;
      forall x, y | x in r.1 && y in r.1 && x != y
        ensures r.1[x].username != r.1[y].username && r.1[x].email != r.1[y].email
      {
        if x == c {
          UpdatedDiffers(users, c, b, y, r.1);
        } else if y == c {
          UpdatedDiffers(users, c, b, x, r.1);
        }
      }
    }
  }

  lemma UpdatedDiffers(users: Accounts, c: Id, b: ProfileBody, other: Id, after: Accounts)
    requires UniqueLogins(users)
    requires c in users && other in users && other != c
    requires !(users[c].username != b.username && UsernameTakenBy(users, c, b.username))
    requires !(users[c].email != b.email && EmailTakenBy(users, c, b.email))
    requires c in after && other in after
    requires after[c].username == b.username && after[c].email == b.email && after[other] == users[other]
    ensures after[c].username != after[other].username && after[c].email != after[other].email
  {
    if users[c].username == b.username {
      assert users[other].username != users[c].username;
    } else {
      assert !(users[other].username == b.username);
    }
    if users[c].email == b.email {
      assert users[other].email != users[c].email;
    } else {
      assert !(users[other].email == b.email);
    }
  }

  // ---------------------------------------------------------------- changePassword

  datatype PasswordOutcome = MissingField | NoMatch | TooShort | NoUser | WrongPassword | PasswordChanged

  function PasswordCode(o: PasswordOutcome): int {
    match o
    case MissingField => 400
    case NoMatch => 400
    case TooShort => 400
    case NoUser => 404
    case WrongPassword => 401
    case PasswordChanged => 200
  }

  /** What `changePassword` answers, the accounts after it, and the
      activity it logs, if any, by its success flag. */
  datatype PasswordResult = PasswordResult(outcome: PasswordOutcome, users: Accounts, logged: Option<bool>)

  const MinPasswordLength: nat := 6

  /** `changePassword`: all three fields, the confirmation equal to the new
      password, at least six characters, an existing account, then the
      current password checked against the stored hash by `matches`; on
      success the stored password becomes `newHash`, the hash of the new
      one. Every refusal after the field check is logged as a failure. */
  function ChangePassword(
    users: Accounts, caller: Id,
    current: string, proposed: string, confirm: string,
    matches: (string, string) -> bool, newHash: string): (r: PasswordResult)
    ensures r.outcome == MissingField <==> current == "" || proposed == "" || confirm == ""
    ensures r.outcome == NoMatch <==> current != "" && proposed != "" && confirm != "" && proposed != confirm
    ensures r.outcome == TooShort <==> current != "" && proposed != "" && proposed == confirm && |proposed| < MinPasswordLength
    ensures r.outcome == NoUser <==> current != "" && |proposed| >= MinPasswordLength && proposed == confirm && caller !in users
    ensures r.outcome == PasswordChanged <==>
      current != "" && |proposed| >= MinPasswordLength && proposed == confirm && caller in users && matches(current, users[caller].password)
    ensures r.outcome != PasswordChanged ==> r.users == users
    ensures r.outcome == PasswordChanged ==> r.users == users[caller := users[caller].(password := newHash)]
    ensures r.logged == None <==> r.outcome == MissingField || r.outcome == NoUser
    ensures r.logged == Some(true) <==> r.outcome == PasswordChanged
  {
    if current == "" || proposed == "" || confirm == "" then PasswordResult(MissingField, users, None)
    else if proposed != confirm then PasswordResult(NoMatch, users, Some(false))
    else if |proposed| < MinPasswordLength then PasswordResult(TooShort, users, Some(false))
    else if caller !in users then PasswordResult(NoUser, users, None)
    else if !matches(current, users[caller].password) then PasswordResult(WrongPassword, users, Some(false))
    else PasswordResult(PasswordChanged, users[caller := users[caller].(password := newHash)], Some(true))
  }

  /** The checks that need no database come first: a mismatched or short
      new password is refused whatever the current password and whether or
      not the account exists. */
  lemma PasswordChecksBeforeLookup(
    users: Accounts, users2: Accounts, caller: Id,
    current: string, proposed: string, confirm: string,
    matches: (string, string) -> bool, matches2: (string, string) -> bool, h: string, h2: string)
    requires current != "" && proposed != "" && confirm != ""
    requires proposed != confirm || |proposed| < MinPasswordLength
    ensures ChangePassword(users, caller, current, proposed, confirm, matches, h).outcome
         == ChangePassword(users2, caller, current, proposed, confirm, matches2, h2).outcome
    ensures PasswordCode(ChangePassword(users, caller, current, proposed, confirm, matches, h).outcome) == 400
  {
  }

  // ---------------------------------------------------------------- getUserActivity

  /** `parseInt(x) || d`: a value that does not parse (`None`) or parses
      to 0 becomes the default. */
  function OrDefault(x: Option<int>, d: int): (r: int)
    ensures r != 0 || d == 0
    ensures x.Some? && x.value != 0 ==> r == x.value
  {
    if x.None? || x.value == 0 then d else x.value
  }

  const ActivityPageSize: int := 10

  /** The `pagination` object of the activity history, with the number of
      records skipped. */
  datatype ActivityPage = ActivityPage(skip: int, total: nat, page: int, pages: int, limit: int)

  /** `getUserActivity`: without a user, an empty first page of one; else
      page defaults to 1 and limit to 10, `skip = (page - 1) * limit`, and
      the page count is `Math.ceil(total / limit)`, or 1 when that is 0. */
  function ActivityPaging(userId: Option<Id>, page: Option<int>, limit: Option<int>, total: nat): (r: ActivityPage)
    ensures userId.None? || userId.value == "" ==> r.total == 0 && r.page == 1 && r.pages == 1 && r.skip == 0
    ensures r.limit != 0 && r.page != 0 && r.pages != 0
    ensures userId.Some? && userId.value != "" ==>
      && r.total == total
      && r.skip == (r.page - 1) * r.limit
      && (r.limit > 0 ==> r.pages >= 1 && r.pages * r.limit >= total)
      && (r.limit > 0 && total > 0 ==> (r.pages - 1) * r.limit < total)
  {
    if userId.None? || userId.value == "" then
      ActivityPage(0, 0, 1, 1, OrDefault(limit, ActivityPageSize))
    else
      var p := OrDefault(page, 1);
      var l := OrDefault(limit, ActivityPageSize);
      var c := Paging.CeilDiv(total, l);
      var pages := if c == 0 then 1 else c;
      ActivityPage((p - 1) * l, total, p, pages, l)
  }

  /** The rows of a page are numbered after the rows skipped: the `index`-th
      activity of the reply is record `skip + index` of the whole history,
      shown as number `skip + index + 1`. */
  lemma ActivityRowsFollowSkip(userId: Id, page: Option<int>, limit: Option<int>, total: nat, index: int)
    requires userId != ""
    ensures var r := ActivityPaging(Some(userId), page, limit, total);
      Paging.RowNumber(r.page, r.limit, index) == r.skip + index + 1
  {
  }

  /** With the default page size each of the `total` activities appears
      on exactly one page in `1 .. pages`. */
  lemma ActivityPagesCover(userId: Id, total: nat, n: int)
    requires userId != "" && 1 <= n <= total
    ensures var pages := ActivityPaging(Some(userId), None, None, total).pages;
      && 1 <= (n - 1) / ActivityPageSize + 1 <= pages
      && Paging.RowNumber((n - 1) / ActivityPageSize + 1, ActivityPageSize, (n - 1) % ActivityPageSize) == n
  {
    Paging.RowNumberCovers(total, ActivityPageSize, n);
  }

  // ---------------------------------------------------------------- followUser

  datatype FollowOutcome = NoTargetId | SelfFollow | NoTarget | NoCaller | Following(now: bool)

  function FollowCode(o: FollowOutcome): int {
    match o
    case NoTargetId => 400
    case SelfFollow => 400
    case NoTarget => 404
    case NoCaller => 500
    case Following(_) => 200
  }

  /** Who follows whom, seen from both ends: `b` is in `a`'s following
      exactly when `a` is in `b`'s followers, and no list repeats an id. */
  ghost predicate Graph(users: Accounts) {
    && (forall a, b :: a in users && b in users ==> (b in users[a].following <==> a in users[b].followers))
    && (forall a :: a in users ==> Distinct(users[a].following) && Distinct(users[a].followers))
  }

  /** `followUser`: an id is required and must not be the caller's own;
      the target must exist; then a present follow is removed from both
      lists, an absent one appended to both. The caller's account is read
      only after the target check; a missing one fails with 500. */
  function Follow(users: Accounts, caller: Id, target: Id): (r: (FollowOutcome, Accounts))
    ensures r.0 == NoTargetId <==> target == ""
    ensures r.0 == SelfFollow <==> target != "" && target == caller
    ensures r.0.Following? <==> target != "" && target != caller && target in users && caller in users
    ensures !r.0.Following? ==> r.1 == users
    ensures r.0.Following? ==>
      && r.1.Keys == users.Keys
      && r.0.now == (target !in users[caller].following)
      && (target in r.1[caller].following <==> r.0.now)
      && (caller in r.1[target].followers <==> r.0.now)
      && (forall k :: k in users && k != caller && k != target ==> r.1[k] == users[k])
      && (forall y :: y != target ==> (y in r.1[caller].following <==> y in users[caller].following))
      && (forall y :: y != caller ==> (y in r.1[target].followers <==> y in users[target].followers))
      && r.1[caller].followers == users[caller].followers
      && r.1[target].following == users[target].following
  {
    if target == "" then (NoTargetId, users)
    else if target == caller then (SelfFollow, users)
    else if target !in users then (NoTarget, users)
    else if caller !in users then (NoCaller, users)
    else
      var me := users[caller];
      var them := users[target];
      if target in me.following then
        var users' := users[caller := me.(following := Without(me.following, target))]
                           [target := them.(followers := Without(them.followers, caller))];
        (Following(false), users')
      else
        var users' := users[caller := me.(following := me.following + [target])]
                           [target := them.(followers := them.followers + [caller])];
        (Following(true), users')
  }

  /** Following and unfollowing keep the two directions of the graph in
      step and free of repeats. */
  lemma FollowKeepsGraph(users: Accounts, caller: Id, target: Id)
    requires Graph(users)
    ensures Graph(Follow(users, caller, target).1)
  {
    var r := Follow(users, caller, target);
    if r.0.Following? {
      FollowKeepsDistinct(users, caller, target);
      forall a, b | a in r.1 && b in r.1
        ensures b in r.1[a].following <==> a in r.1[b].followers
      {
        FollowPair(users, caller, target, a, b);
      }
    }
  }

  lemma FollowKeepsDistinct(users: Accounts, caller: Id, target: Id)
    requires Graph(users) && Follow(users, caller, target).0.Following?
    ensures var u := Follow(users, caller, target).1;
      forall a :: a in u ==> Distinct(u[a].following) && Distinct(u[a].followers)
  {
    var me := users[caller];
    var them := users[target];
    if target in me.following {
      WithoutDistinct(me.following, target);
      WithoutDistinct(them.followers, caller);
    } else {
      assert caller !in them.followers;
      DistinctAppend(me.following, target);
      DistinctAppend(them.followers, caller);
    }
  }

  lemma FollowPair(users: Accounts, caller: Id, target: Id, a: Id, b: Id)
    requires Graph(users) && Follow(users, caller, target).0.Following?
    requires a in users && b in users
    ensures var u := Follow(users, caller, target).1;
      b in u[a].following <==> a in u[b].followers
  {
    var u := Follow(users, caller, target).1;
    assert users[b].followers == u[b].followers || b == target;
    assert users[a].following == u[a].following || a == caller;
    assert b in users[a].following <==> a in users[b].followers;
  }

  lemma DistinctAppend(xs: seq<Id>, v: Id)
    requires Distinct(xs) && v !in xs
    ensures Distinct(xs + [v])
  {
  }

  /** Two follow requests in a row restore who follows whom. */
  lemma FollowTwice(users: Accounts, caller: Id, target: Id)
    requires Graph(users)
    requires Follow(users, caller, target).0.Following?
    ensures var once := Follow(users, caller, target);
      var twice := Follow(once.1, caller, target);
      && twice.0 == Following(!once.0.now)
      && (forall y :: y in twice.1[caller].following <==> y in users[caller].following)
      && (forall y :: y in twice.1[target].followers <==> y in users[target].followers)
  {
    FollowKeepsGraph(users, caller, target);
  }

  // ---------------------------------------------------------------- savePost

  datatype SaveOutcome = NoPostId | NoPost | NoSaver | Saved(now: bool)

  function SaveCode(o: SaveOutcome): int {
    match o
    case NoPostId => 400
    case NoPost => 404
    case NoSaver => 500
    case Saved(_) => 200
  }

  /** `savePost`: an id is required and the post must exist; the id is
      then toggled in the caller's saved posts, and `saved` reports the new
      membership. */
  function SavePost(users: Accounts, posts: set<Id>, caller: Id, postId: Id): (r: (SaveOutcome, Accounts))
    ensures r.0 == NoPostId <==> postId == ""
    ensures r.0 == NoPost <==> postId != "" && postId !in posts
    ensures r.0.Saved? <==> postId != "" && postId in posts && caller in users
    ensures !r.0.Saved? ==> r.1 == users
    ensures r.0.Saved? ==>
      && caller in users && r.1.Keys == users.Keys
      && r.1[caller] == users[caller].(savedPosts := r.1[caller].savedPosts)
      && (forall k :: k in users && k != caller ==> r.1[k] == users[k])
      && r.0.now == (postId !in users[caller].savedPosts)
      && (postId in r.1[caller].savedPosts <==> r.0.now)
      && (forall y :: y != postId ==> (y in r.1[caller].savedPosts <==> y in users[caller].savedPosts))
  {
    if postId == "" then (NoPostId, users)
    else if postId !in posts then (NoPost, users)
    else if caller !in users then (NoSaver, users)
    else
      var me := users[caller];
      (Saved(postId !in me.savedPosts), users[caller := me.(savedPosts := Toggle(me.savedPosts, postId))])
  }

  /** Saving twice restores the saved list's members and keeps it free of
      repeats. */
  lemma SaveTwice(users: Accounts, posts: set<Id>, caller: Id, postId: Id)
    requires caller in users && Distinct(users[caller].savedPosts)
    requires SavePost(users, posts, caller, postId).0.Saved?
    ensures var once := SavePost(users, posts, caller, postId);
      var twice := SavePost(once.1, posts, caller, postId);
      && twice.0 == Saved(!once.0.now)
      && Distinct(once.1[caller].savedPosts)
      && (forall y :: y in twice.1[caller].savedPosts <==> y in users[caller].savedPosts)
  {
    ToggleTwice(users[caller].savedPosts, postId);
  }

  // ---------------------------------------------------------------- exploreUsers

  const ExplorePageSize: int := 12

  /** The directory's `pagination` object. */
  datatype Directory = Directory(
    skip: int, page: int, totalPages: int,
    hasNext: bool, hasPrev: bool, next: int, prev: int,
    links: seq<Paging.PageLink>)

  /** The accounts the directory counts: everyone but the caller, and with
      a search term those whose name (filter `name`) or name or username
      (any other filter) `matches` it. */
  function Candidates(users: Accounts, caller: Id, search: string, byNameOnly: bool, matches: string -> bool): (r: set<Id>)
    ensures caller !in r
    ensures r <= users.Keys
    ensures search == "" ==> r == users.Keys - {caller}
  {
    set k | k in users && k != caller &&
      (search == "" || matches(users[k].name) || (!byNameOnly && matches(users[k].username)))
  }

  /** `exploreUsers`: twelve to a page, the page defaulting to 1, the
      window of page links of `Paging.Window`. */
  function Explore(page: Option<int>, totalUsers: nat): (r: Directory)
    ensures r.page == OrDefault(page, 1) && r.skip == (r.page - 1) * ExplorePageSize
    ensures r.totalPages * ExplorePageSize >= totalUsers && (r.totalPages - 1) * ExplorePageSize < totalUsers
    ensures r.hasNext <==> r.page < r.totalPages
    ensures r.hasPrev <==> r.page > 1
    ensures r.links == Paging.Window(r.page, r.totalPages)
  {
    var p := OrDefault(page, 1);
    var total := Paging.CeilDiv(totalUsers, ExplorePageSize);
    Directory((p - 1) * ExplorePageSize, p, total, p < total, p > 1, p + 1, p - 1, Paging.Window(p, total))
  }

  /** An empty directory has no pages and shows no link; otherwise the
      current page's link is shown and active exactly when it is a real
      page. */
  lemma ExploreLinks(page: Option<int>, totalUsers: nat)
    ensures totalUsers == 0 ==> Explore(page, totalUsers).totalPages == 0 && Explore(page, totalUsers).links == []
    ensures totalUsers > 0 ==> Explore(page, totalUsers).totalPages >= 1
    ensures var d := Explore(page, totalUsers);
      (exists k :: 0 <= k < |d.links| && d.links[k].active) <==> 1 <= d.page <= d.totalPages
  {
    var d := Explore(page, totalUsers);
    Paging.CeilDivPages(totalUsers, ExplorePageSize);
    Paging.WindowActive(d.page, d.totalPages);
  }

  // ---------------------------------------------------------------- avatar upload filter

  /** `ALLOWED_FORMATS`. */
  const AvatarFormats: seq<string> := ["image/jpeg", "image/png", "image/jpg", "image/webp"]

  predicate AvatarAccepted(mimetype: string) {
    mimetype in AvatarFormats
  }

  /** The avatar filter is narrower than the forum's image filter: every
      type it takes is an `image/` type, but a GIF only reaches the
      forum. */
  lemma AvatarFilterNarrower(mimetype: string)
    ensures AvatarAccepted(mimetype) ==> DiscussionClient.AcceptsUpload(mimetype)
    ensures !AvatarAccepted("image/gif") && DiscussionClient.AcceptsUpload("image/gif")
  {
    assert "image/gif"[..6] == "image/";
    assert "image/jpeg"[..6] == "image/";
    assert "image/png"[..6] == "image/";
    assert "image/jpg"[..6] == "image/";
    assert "image/webp"[..6] == "image/";
    assert "image/gif" != "image/jpeg" by { assert "image/gif"[6] != "image/jpeg"[6]; }
    assert "image/gif" != "image/jpg" by { assert "image/gif"[6] != "image/jpg"[6]; }
    assert "image/gif" != "image/png" by { assert "image/gif"[6] != "image/png"[6]; }
    assert "image/gif" != "image/webp" by { assert "image/gif"[6] != "image/webp"[6]; }
  }
}

=== FILE: view_helpers.dfy ===
/** The template helpers and the avatar middleware of server.js:
    `formatTimeAgo`, `formatDate`, `truncate`, `timestampToValue`, and the
    request filters that make `req.user` and `res.locals.user` carry a
    usable avatar. Instants are epoch milliseconds; turning one into
    calendar fields (`getDate()` and the rest) is left to the caller, who
    passes the fields. */
module ViewHelpers {
  import opened Wrappers
  import opened Text
  import Avatar

  // ---------------------------------------------------------------- formatTimeAgo

  const MsPerSecond: int := 1000

  /** What `formatTimeAgo` shows: nothing, "just now", a whole number of
      minutes, hours or days, or the calendar date. */
  datatype Ago = NoTime | JustNow | MinutesAgo(n: nat) | HoursAgo(n: nat) | DaysAgo(n: nat) | OnDate

  /** `Math.floor((now - date) / 1000)`; Dafny's division by a positive
      number already rounds down. */
  function ElapsedSeconds(stamp: int, now: int): int {
    (now - stamp) / MsPerSecond
  }

  /** `formatTimeAgo`: a missing timestamp shows nothing; otherwise the
      elapsed time in the largest unit below a week, rounded down, or the
      date from a week on. A timestamp in the future counts as just now. */
  function TimeAgo(stamp: Option<int>, now: int): (r: Ago)
    ensures r == NoTime <==> stamp.None?
    ensures stamp.Some? ==> (r == JustNow <==> now - stamp.value < 60 * MsPerSecond)
    ensures stamp.Some? ==> (r == OnDate <==> now - stamp.value >= 604800 * MsPerSecond)
    ensures r.MinutesAgo? ==> 1 <= r.n < 60 && r.n * 60 * MsPerSecond <= now - stamp.value < (r.n + 1) * 60 * MsPerSecond
    ensures r.HoursAgo? ==> 1 <= r.n < 24 && r.n * 3600 * MsPerSecond <= now - stamp.value < (r.n + 1) * 3600 * MsPerSecond
    ensures r.DaysAgo? ==> 1 <= r.n < 7 && r.n * 86400 * MsPerSecond <= now - stamp.value < (r.n + 1) * 86400 * MsPerSecond
  {
    match stamp
    case None => NoTime
    case Some(t) =>
      var diff := ElapsedSeconds(t, now);
      if diff < 60 then JustNow
      else if diff < 3600 then MinutesAgo(diff / 60)
      else if diff < 86400 then HoursAgo(diff / 3600)
      else if diff < 604800 then DaysAgo(diff / 86400)
      else OnDate
  }

  /** How old a label says the item is, as a comparable pair. */
  function Age(a: Ago): (int, int) {
    match a
    case NoTime => (-1, 0)
    case JustNow => (0, 0)
    case MinutesAgo(n) => (1, n)
    case HoursAgo(n) => (2, n)
    case DaysAgo(n) => (3, n)
    case OnDate => (4, 0)
  }

  predicate NoOlder(a: Ago, b: Ago) {
    Age(a).0 < Age(b).0 || (Age(a).0 == Age(b).0 && Age(a).1 <= Age(b).1)
  }

  /** As time passes an item's label never looks younger. */
  lemma TimeAgoMonotone(stamp: int, now1: int, now2: int)
    requires now1 <= now2
    ensures NoOlder(TimeAgo(Some(stamp), now1), TimeAgo(Some(stamp), now2))
  {
    var a, b := TimeAgo(Some(stamp), now1), TimeAgo(Some(stamp), now2);
    if a.MinutesAgo? && b.MinutesAgo? {
      ScaledLess(a.n, b.n + 1, 60 * MsPerSecond);
    } else if a.HoursAgo? && b.HoursAgo? {
      ScaledLess(a.n, b.n + 1, 3600 * MsPerSecond);
    } else if a.DaysAgo? && b.DaysAgo? {
      ScaledLess(a.n, b.n + 1, 86400 * MsPerSecond);
    }
  }

  lemma ScaledLess(x: int, y: int, u: int)
    requires u > 0 && x * u < y * u
    ensures x < y
  {
  }

  /** The Vietnamese wording; the date itself is `localeDate`. */
  function AgoText(a: Ago, localeDate: string): (r: string)
    ensures a.MinutesAgo? ==> StartsWith(r, NatToString(a.n)) && EndsWith(r, " phút trước")
    ensures a.HoursAgo? ==> StartsWith(r, NatToString(a.n)) && EndsWith(r, " giờ trước")
    ensures a.DaysAgo? ==> StartsWith(r, NatToString(a.n)) && EndsWith(r, " ngày trước")
    ensures a == NoTime ==> r == ""
  {
    match a
    case NoTime => ""
    case JustNow => "Vừa xong"
    case MinutesAgo(n) => NatToString(n) + " phút trước"
    case HoursAgo(n) => NatToString(n) + " giờ trước"
    case DaysAgo(n) => NatToString(n) + " ngày trước"
    case OnDate => localeDate
  }

  // ---------------------------------------------------------------- formatDate

  /** The local calendar fields of an instant; `month` counts from 1. */
  datatype DateParts = DateParts(day: nat, month: nat, year: nat, hours: nat, minutes: nat)

  /** `formatDate`: nothing for a missing timestamp; otherwise the first
      `DD`, `MM`, `YYYY`, `HH` and `mm` of the format, in that order,
      become the two-digit day, month, the year, the two-digit hours and
      minutes. */
  function FormatDate(date: Option<DateParts>, format: string): (r: string)
    ensures date.None? ==> r == ""
    ensures date.Some? && NoTokens(format) ==> r == format
  {
    match date
    case None => ""
    case Some(d) =>
      var s1 := ReplaceFirst(format, "DD", Pad2(d.day));
      var s2 := ReplaceFirst(s1, "MM", Pad2(d.month));
      var s3 := ReplaceFirst(s2, "YYYY", NatToString(d.year));
      var s4 := ReplaceFirst(s3, "HH", Pad2(d.hours));
      ReplaceFirst(s4, "mm", Pad2(d.minutes))
  }

  /** None of the five tokens occurs. */
  predicate NoTokens(s: string) {
    forall k: nat :: k <= |s| ==>
      && !OccursAt(s, "DD", k) && !OccursAt(s, "MM", k) && !OccursAt(s, "YYYY", k)
      && !OccursAt(s, "HH", k) && !OccursAt(s, "mm", k)
  }

  /** The first occurrence is the one that no earlier position matches. */
  lemma FirstAt(s: string, pat: string, k: nat)
    requires OccursAt(s, pat, k)
    requires forall j: nat :: j < k ==> !OccursAt(s, pat, j)
    ensures FirstOccurrence(s, pat) == k
  {
  }

  /** A pattern whose first letter is absent does not occur. */
  lemma Absent(s: string, pat: string)
    requires |pat| > 0 && pat[0] !in s
    ensures FirstOccurrence(s, pat) < 0
  {
  }

  /** A separator of the `DD/MM/YYYY` family: not a letter of any token. */
  predicate Separator(c: char) {
    c !in "DMYHm" && !IsDigit(c)
  }

  function DayFirst(sep: char): string {
    "DD" + [sep] + "MM" + [sep] + "YYYY"
  }

  /** The day goes in first, at the front. */
  lemma DayStep(sep: char, dd: string)
    ensures ReplaceFirst(DayFirst(sep), "DD", dd) == dd + [sep] + "MM" + [sep] + "YYYY"
  {
    var f := DayFirst(sep);
    FirstAt(f, "DD", 0);
    assert f[2..] == [sep] + "MM" + [sep] + "YYYY";
  }

  /** Then the month, behind the two day digits and the separator. */
  lemma MonthStep(sep: char, dd: string, mm: string)
    requires Separator(sep) && |dd| == 2 && AllDigits(dd)
    ensures ReplaceFirst(dd + [sep] + "MM" + [sep] + "YYYY", "MM", mm) == dd + [sep] + mm + [sep] + "YYYY"
  {
    var s1 := dd + [sep] + "MM" + [sep] + "YYYY";
    assert OccursAt(s1, "MM", 3) by { assert s1[3..5] == "MM"; }
    forall j: nat | j < 3 ensures !OccursAt(s1, "MM", j) {
      assert s1[j] != 'M';
    }
    FirstAt(s1, "MM", 3);
    assert s1[..3] == dd + [sep];
    assert s1[5..] == [sep] + "YYYY";
  }

  /** Then the year, behind day, month and both separators. */
  lemma YearStep(sep: char, dd: string, mm: string, yy: string)
    requires Separator(sep) && |dd| == 2 && AllDigits(dd) && |mm| == 2 && AllDigits(mm)
    ensures ReplaceFirst(dd + [sep] + mm + [sep] + "YYYY", "YYYY", yy) == dd + [sep] + mm + [sep] + yy
  {
    var s2 := dd + [sep] + mm + [sep] + "YYYY";
    assert OccursAt(s2, "YYYY", 6) by { assert s2[6..10] == "YYYY"; }
    forall j: nat | j < 6 ensures !OccursAt(s2, "YYYY", j) {
      assert s2[j] != 'Y';
    }
    FirstAt(s2, "YYYY", 6);
    assert s2[..6] == dd + [sep] + mm + [sep];
    assert s2[10..] == [];
  }

  /** No hours or minutes are left to fill in. */
  lemma NoTimeTokens(sep: char, dd: string, mm: string, yy: string)
    requires Separator(sep) && AllDigits(dd) && AllDigits(mm) && AllDigits(yy)
    ensures var s := dd + [sep] + mm + [sep] + yy;
      FirstOccurrence(s, "HH") < 0 && FirstOccurrence(s, "mm") < 0
  {
    var s := dd + [sep] + mm + [sep] + yy;
    assert forall j :: 0 <= j < |s| ==> s[j] != 'H' && s[j] != 'm';
    Absent(s, "HH");
    Absent(s, "mm");
  }

  /** A day-first format comes out as the two-digit day and month and the
      year, each of which reads back as the field it came from. */
  lemma DayFirstFormat(d: DateParts, sep: char)
    requires Separator(sep) && d.day < 100 && d.month < 100
    ensures FormatDate(Some(d), DayFirst(sep)) == Pad2(d.day) + [sep] + Pad2(d.month) + [sep] + NatToString(d.year)
    ensures var r := Pad2(d.day) + [sep] + Pad2(d.month) + [sep] + NatToString(d.year);
      ParseNat(r[..2]) == d.day && ParseNat(r[3..5]) == d.month && ParseNat(r[6..]) == d.year
  {
    var dd, mm, yy := Pad2(d.day), Pad2(d.month), NatToString(d.year);
    DayStep(sep, dd);
    MonthStep(sep, dd, mm);
    YearStep(sep, dd, mm, yy);
    NoTimeTokens(sep, dd, mm, yy);
    var s3 := dd + [sep] + mm + [sep] + yy;
    assert s3[..2] == dd && s3[3..5] == mm && s3[6..] == yy;
    ParseNatToString(d.year);
  }

  // ---------------------------------------------------------------- truncate

  /** `truncate`: the text without its tags, whole when it has at most
      `length` characters, else its first `length` characters and `...`.
      A negative length keeps nothing but the dots. */
  function Truncate(content: string, length: int): (r: string)
    ensures content == "" ==> r == ""
    ensures content != "" && |StripTags(content)| <= length ==> r == StripTags(content)
    ensures content != "" && |StripTags(content)| > length ==>
      && EndsWith(r, "...")
      && |r| == (if length < 0 then 0 else length) + 3
      && r[..|r| - 3] == StripTags(content)[..|r| - 3]
    ensures NoTag(r)
  {
    var text := StripTags(content);
    if content == "" then ""
    else if |text| <= length then text
    else
      var k := if length < 0 then 0 else length;
      var r := text[..k] + "...";
      assert r[..k] == text[..k];
      assert NoTag(r) by {
        forall i, j | 0 <= i < j < |r| && r[i] == '<' ensures r[j] != '>' {
          assert i < k && r[i] == text[i];
          if j < k { assert r[j] == text[j]; }
        }
      }
      r
  }

  /** Truncating a truncated text changes nothing. */
  lemma TruncateIdempotent(content: string, length: int)
    ensures Truncate(Truncate(content, length), length) == Truncate(content, length)
  {
    var r := Truncate(content, length);
    assert StripTags(r) == r;
    if content != "" && |StripTags(content)| > length {
      var k := if length < 0 then 0 else length;
      assert r[k..] == "...";
      assert r == r[..k] + "...";
    }
  }

  // ---------------------------------------------------------------- timestampToValue

  /** What a template passes: a number (`None` is `NaN`), a string, or a
      `Date` (`None` is an invalid date). */
  datatype Stamp = Num(n: Option<int>) | Str(s: string) | Date(ms: Option<int>)

  /** `Number(s)` is a number for decimal digits, possibly padded, and for
      blank text; signs, fractions and exponents are left out. */
  predicate NumericText(s: string) {
    AllDigits(Trim(s))
  }

  /** `isNaN(v)`. */
  predicate IsNaN(v: Stamp) {
    match v
    case Num(n) => n.None?
    case Str(s) => !NumericText(s)
    case Date(ms) => ms.None?
  }

  /** `timestampToValue`: a value that is a number, or reads as one, is
      returned as it is; anything else becomes the milliseconds of the date
      it parses to (`parseDate`), `NaN` if none. */
  function TimestampToValue(v: Stamp, parseDate: string -> Option<int>): (r: Stamp)
    ensures !IsNaN(v) ==> r == v
    ensures IsNaN(v) ==> r.Num?
    ensures v.Str? && IsNaN(v) ==> r == Num(parseDate(v.s))
  {
    if !IsNaN(v) then v
    else match v
      case Num(n) => Num(None)
      case Str(s) => Num(parseDate(s))
      case Date(ms) => Num(None)
  }

  /** Applying it twice is applying it once. */
  lemma TimestampToValueIdempotent(v: Stamp, parseDate: string -> Option<int>)
    ensures TimestampToValue(TimestampToValue(v, parseDate), parseDate) == TimestampToValue(v, parseDate)
  {
  }

  // ---------------------------------------------------------------- the avatar middleware

  /** The first avatar filter (server.js:166-180): a non-empty avatar that
      is neither a URL nor site-absolute gets a leading `/`. */
  function PrefixRelative(a: string): (r: string)
    ensures a != "" ==> Avatar.Usable(r)
    ensures Avatar.Usable(a) || a == "" ==> r == a
    ensures a != "" && !Avatar.Usable(a) ==> r == "/" + a
  {
    if a != "" && !StartsWith(a, "http") && !StartsWith(a, "/") then
      assert ("/" + a)[..1] == "/";
      "/" + a
    else a
  }

  /** The second filter (server.js:181-199): blank avatars become the
      default, relative ones get a leading `/`. It is the shared avatar
      rule. */
  function AvatarDefaults(a: Option<string>): (r: string)
    ensures r == Avatar.NormalizeAvatar(a)
  {
    match a
    case None => Avatar.DefaultAvatar
    case Some(s) =>
      if s == "" || Trim(s) == "" then Avatar.DefaultAvatar else PrefixRelative(s)
  }

  /** Run one after the other the two filters give the shared rule, except
      that a blank non-empty avatar, which the first filter has already
      prefixed, is no longer recognised as blank. */
  lemma FiltersInSequence(a: string)
    ensures !IsBlank(a) || a == "" ==> AvatarDefaults(Some(PrefixRelative(a))) == Avatar.NormalizeAvatar(Some(a))
    ensures a != "" && IsBlank(a) ==> AvatarDefaults(Some(PrefixRelative(a))) == "/" + a != Avatar.DefaultAvatar
  {
    if a != "" && IsBlank(a) {
      assert IsSpace(a[0]);
      var p := PrefixRelative(a);
      assert p == "/" + a;
      assert !IsBlank(p) by { assert p[0] == '/'; }
      assert p[..1] == "/";
      assert Avatar.DefaultAvatar[1] == 'a';
    } else if a != "" {
      assert !IsBlank(PrefixRelative(a)) by {
        if !Avatar.Usable(a) { assert PrefixRelative(a)[0] == '/'; }
      }
    }
  }

  /** The `render` wrapper: a user whose avatar is missing or not a string
      gets the default; a string avatar is kept. */
  function RenderAvatar(a: Avatar.AvatarField): (r: string)
    ensures a.Text? && a.s != "" ==> r == a.s
    ensures !(a.Text? && a.s != "") ==> r == Avatar.DefaultAvatar
    ensures r != ""
  {
    if a.Text? && a.s != "" then a.s else Avatar.DefaultAvatar
  }

  /** Behind the avatar middleware the wrapper changes nothing: a
      normalised avatar reaches the view as the middleware left it. */
  lemma RenderAfterMiddleware(u: Avatar.User)
    ensures RenderAvatar(Avatar.WithValidAvatar(u).avatar) == Avatar.NormalizeAvatarField(u.avatar)
    ensures Avatar.Usable(RenderAvatar(Avatar.WithValidAvatar(u).avatar))
  {
    var p := Avatar.NormalizeAvatarField(u.avatar);
    assert p != "" by {
      assert Avatar.Usable(p);
    }
  }

  /** On its own the wrapper does not make a path usable: a relative
      string avatar is passed to the view as it is. */
  lemma RenderKeepsRelativePath()
    ensures RenderAvatar(Avatar.Text("me.png")) == "me.png"
    ensures !Avatar.Usable(RenderAvatar(Avatar.Text("me.png")))
  {
    assert "me.png"[0] == 'm';
  }
}

=== FILE: wrappers.dfy ===
/** Small failure-carrying datatypes shared by every module of the model. */
module Wrappers {

  /** A value that may be absent: JavaScript's `undefined`/`null` on one side,
      a present value on the other. */
  datatype Option<+T> = None | Some(value: T) {
    function GetOr(default: T): T {
      match this
      case Some(v) => v
      case None => default
    }
  }

  /** What an external service (generative model, database, JWT library)
      hands back: a value, or a thrown error. */
  datatype Outcome<+T> = Ok(value: T) | Err

  /** A validated value or the reason it was refused. */
  datatype Result<+T, +E> = Success(value: T) | Failure(error: E)
}
